=== FILE: README.md ===
# Newsletter relay: a Dafny model

The newsletter system is two Python programs that share one SQLite database.

- **The web console** (`src/webserver.py`) is where an administrator manages the `recipients` table:
  - pasting lists of addresses to subscribe or unsubscribe in bulk;
  - editing the existing rows.

  It also serves the signed self-service link `GET /unsub?e=..&t=..&s=..`.
- **The relay daemon** (`src/replay-daemon.py`) polls a mailbox. For each new message it does one of three things:
  - skips it;
  - treats it as a delivery-failure report and unsubscribes the bounced addresses;
  - forwards it to every subscribed contact, one copy per contact. Each copy carries the recipient's own `To`, the relay's `From`, a `List-Unsubscribe` header and an unsubscribe footer.

  A `last_processed_at` cursor in the `config` table records progress.

The model states both programs as pure functions over immutable data:

- the `recipients` table is a sequence of rows in insertion order;
- the `config` table is a map;
- a message is a tree of ordered header fields and decoded text leaves;
- a relay step is a function from the database and one fetched message to the committed database and the list of `sendmail` calls it made.

HMAC signing, the fresh token, every reading of the clock and a copy that fails to go out are parameters.

Modules:

| file | module | what it holds |
|---|---|---|
| wrappers.dfy | `Wrappers` | `Option` |
| text.dfy | `Text` | ASCII `lower()`, Python's `strip()`, substring and first-occurrence helpers |
| emails.dfy | `Emails` | `_split_emails` and the properties of the pasted-list parser |
| roster.dfy | `Roster` | the `recipients` table, `_upsert_recipient`, the bulk actions |
| admin.dfy | `Admin` | the "save existing" edit, Python's `int()` on a rank, the POST dispatch of `manage` |
| unsubscribe.dfy | `Unsubscribe` | `sign` and the `/unsub` endpoint |
| urlcodec.dfy | `UrlCodec` | UTF-8, `quote_plus`/`unquote_plus`, `urlencode` and the endpoint's query parsing |
| mime.dfy | `Mime` | header lists (`get`, `set_or_replace`, `clear_content`), the MIME tree and `walk()` |
| bounce.dfy | `Bounce` | `_is_bounce` and `_extract_bounce_recipients` |
| rewrite.dfy | `Rewrite` | `_build_unsub_link`, `_append_unsub`, `set_content`, `forward_full_fidelity` |
| contacts.dfy | `Contacts` | `load_contacts` |
| relay.dfy | `Relay` | the config table, the cursor, the per-message step and a whole pass of `main_loop` |
| endtoend.dfy | `EndToEnd` | properties spanning the two programs |

Behaviour of the code worth knowing, which the model keeps:

- A message that is neither from the allowed sender nor a bounce is skipped without moving the cursor (`src/replay-daemon.py:238-240`).
- A repeated unsubscribe stamps `unsubscribed_at` again (`src/webserver.py:150-152`). So does a repeated bounce (`src/replay-daemon.py:249-252`).
- A send that raises ends the pass. The cursor write of that message is not committed, but the copies already sent stay sent (`src/replay-daemon.py:260-270`).
- The contact list is read once, when the pass starts (`src/replay-daemon.py:206`). An unsubscribe or a bounce during a pass therefore only takes effect in the next pass.

## Model

| member | source | states |
|---|---|---|
| Text.Lower | src/webserver.py:87 | lower-casing keeps the length and maps each character through ASCII `lower()` |
| Text.Strip | src/webserver.py:87 | `strip()` yields a contiguous slice of its input that starts and ends with a non-space character (or is empty) |
| Text.StripRemovesSpace | src/webserver.py:87 | everything `strip()` removes, before and after the slice it keeps, is white space in the sense of `str.isspace()` |
| Text.StripOfStripped | src/webserver.py:178 | stripping an already stripped address gives it back unchanged |
| Text.LowerOfLowered | src/webserver.py:134 | lower-casing an address that is already lower-case changes nothing |
| Text.AfterFirstOf | src/replay-daemon.py:139 | `split(";", 1)[1]` is exactly the text after the first `;` |
| Emails.SplitEmails | src/webserver.py:81-90 | an empty paste yields no addresses; every address it yields is non-empty, stripped, lower-case and free of `, \n \t : ;` |
| Emails.SplitRuns | src/webserver.py:84 | `re.split` on separator runs always yields at least one piece, empty pieces included |
| Emails.SplitEmailsAppend | src/webserver.py:84-89 | splitting `a`, a separator, then `b` yields the addresses of `a` followed by those of `b`, so order of appearance is kept |
| Emails.SplitJoinRoundTrip | src/webserver.py:81-90 | a comma-joined list of clean addresses splits back into exactly that list |
| Emails.SplitEmailsSingle | src/webserver.py:86-89 | a single clean address pasted alone yields just that address |
| Emails.CleanedAreClean | src/webserver.py:86-89 | every kept piece, once stripped and lower-cased, is a clean address |
| Roster.NextId | src/webserver.py:120-124 | the row id SQLite assigns to a new row is larger than every existing id |
| Roster.Upsert | src/webserver.py:97-124 | an existing address: updated in place, with token, id and creation time untouched; rank and name kept when `None` is passed; when `subscribed` is given, the flag set to its negation, `unsubscribed_at` set to now on unsubscribe and cleared on subscribe; `updated_at` always set. A new address: exactly one row appended with the fresh token, rank 100 when `None`, unsubscribed only for `subscribed=False`, and `unsubscribed_at` set exactly when unsubscribed |
| Roster.UpsertPreservesValid | src/webserver.py:97-124 | an upsert keeps addresses unique and ids increasing |
| Roster.Bulk | src/webserver.py:169-172 | a bulk action removes no row and adds at most one row per listed address |
| Roster.BulkKeeps | src/webserver.py:169-172 | a bulk action keeps every earlier row's id, token, rank and name; rows of unlisted addresses are untouched |
| Roster.BulkCovers | src/webserver.py:169-172 | after a bulk action every listed address has a row |
| Roster.BulkApplies | src/webserver.py:97-116 | after a bulk action every listed row has the requested flag, `unsubscribed_at` set exactly for a bulk unsubscribe, and both stamps equal to the time the clock read for the last upsert of that address |
| Roster.BulkPreservesValid | src/webserver.py:169-172 | a bulk action keeps addresses unique and ids increasing |
| Admin.ParseInt | src/webserver.py:184-187 | a rank parses exactly when, after an optional `+` or `-`, it is ASCII digits with single underscores allowed between two digits, and holds at most 4300 digits (Python's `sys.int_max_str_digits`, beyond which `int()` raises `ValueError` and the row gets rank 100); its value is the decimal value of those digits, negated for `-` |
| Admin.ParseDigits | src/webserver.py:185 | unsigned digit groups parse exactly when they are non-empty, start and end with a digit, and have no two underscores in a row; the value is that of the digits with the underscores removed |
| Admin.ParseIntToString | src/webserver.py:184-187 | every rank `str()` can render (at most 4300 digits) parses back to the same integer |
| Admin.FitsRenderable | src/webserver.py:184-201 | every rank a 64-bit SQLite INTEGER can hold is within that digit limit, so a stored rank always renders |
| Admin.RenderedRankReadsBack | src/webserver.py:180-187 | a rank field that carries a renderable rank as the page rendered it reads as that rank |
| Admin.Edited | src/webserver.py:190-201 | only the row with the submitted id changes, and it is saved as submitted, keeping its identity |
| Admin.SaveRow | src/webserver.py:178-201 | a blank address skips the row; otherwise saving fails exactly when the rank lies outside SQLite's 64-bit INTEGER range (the binding raises `OverflowError`) or another row already holds the address; otherwise the row gets the stripped, lower-cased address, the stripped name or NULL, the rank or 100 when `int()` rejects it (also for more than 4300 digits), the flag exactly when the status reads `1`, an `unsubscribed_at` that keeps its earlier stamp or else is the row's time (COALESCE) when unsubscribed, and NULL otherwise, and `updated_at` set to the time read for that row; no other row changes |
| Admin.SaveExisting | src/webserver.py:175-201 | a successful save keeps the number of rows; a failed one had some row with a non-blank address |
| Admin.SaveExistingPreservesValid | src/webserver.py:175-204 | a successful save keeps the table valid and every row's id, token and creation time |
| Admin.SaveExistingKeepsLowered | src/webserver.py:178 | a lower-cased table stays lower-cased through any save |
| Admin.Manage | src/webserver.py:164-205 | a POST answers 200 or 500; a 500 leaves the table as it was; "save_existing" keeps the number of rows; an unknown action changes nothing |
| Unsubscribe.SignedTextInjective | src/webserver.py:127-129 | for addresses without a newline, the signed text `email "\n" token` determines both the address and the token |
| Unsubscribe.SignBinds | src/webserver.py:127-129 | with an injective MAC, equal signatures mean equal address and token |
| Unsubscribe.FindRow | src/webserver.py:145 | the lookup finds the first row with the address, and finds none exactly when the address is absent |
| Unsubscribe.Unsub | src/webserver.py:132-155 | 400 exactly when a parameter is missing or empty; 200 exactly when the signature of the lower-cased address matches, its row exists and the token matches; 500 exactly when all three are present and the signature given or the one computed is not ASCII, since the comparison then raises; 403 exactly in the remaining cases: a bad signature, an unknown address or a token mismatch; a non-200 answer changes nothing; a 200 flags the address's row, stamps it now and touches no other row |
| Unsubscribe.UnsubRepeat | src/webserver.py:149-155 | repeating a successful unsubscribe answers 200 again and the row stays flagged |
| Unsubscribe.UnsubPreservesValid | src/webserver.py:149-153 | the endpoint keeps the table valid and every row's identity |
| UrlCodec.DecodeEncodeUtf8 | src/replay-daemon.py:150 | UTF-8 decoding undoes encoding for every string (section 3 of RFC 3629) |
| UrlCodec.QuotePlus | src/replay-daemon.py:150 | a `quote_plus` result is ASCII and contains no `&`, `=` or `?` |
| UrlCodec.UnquoteQuotePlus | src/replay-daemon.py:150 | form decoding gives back every string `quote_plus` encoded |
| UrlCodec.ParseEncodeQuery | src/replay-daemon.py:150 | parsing a `urlencode` result yields exactly the encoded arguments, in order |
| UrlCodec.Lookup | src/webserver.py:134-136 | `request.args.get(key)` finds the first value given for the key, and finds none exactly when the key is absent |
| Rewrite.LinkCarriesArguments | src/replay-daemon.py:144-151 | the endpoint reads back from a link its address, its token and `Sign(address, token)`, the value the endpoint checks |
| Rewrite.BuildUnsubLink | src/replay-daemon.py:149-151 | the link starts with the public base URL and the unsubscribe path, followed by `?` |
| Rewrite.QueryOfLink | src/replay-daemon.py:149-151 | the query part of the link is exactly `urlencode` of `e`, `t`, `s`, in that order |
| Mime.Get | src/replay-daemon.py:121 | `msg.get(key)` reads the first field with that name, compared case-insensitively, and is `None` exactly when no such field exists |
| Mime.SetOrReplace | src/replay-daemon.py:106-110 | afterwards the key reads `v`; a present key is replaced in place at its first field with the count unchanged and every other field untouched; an absent key is appended at the end |
| Mime.SetOrReplaceKeepsOthers | src/replay-daemon.py:106-110 | every other name reads as before |
| Mime.SetOrReplaceEdits | src/replay-daemon.py:106-110 | at the level of the field list, `set_or_replace` keeps every field in its place under its name, changes at most the first field named `key`, and appends only a field named `key` |
| Mime.EditsCompose | src/replay-daemon.py:181-199 | two such edits in a row together edit only the names of either |
| Mime.DropContentFields | src/replay-daemon.py:165 | `clear_content` keeps only fields that are not `Content-*`, keeps every such field, and makes the list no longer |
| Mime.DropContentAppend | src/replay-daemon.py:165 | the filter works field by field: filtering a concatenation concatenates the filtered parts, so the kept fields keep their order |
| Mime.DropContentCount | src/replay-daemon.py:165 | each field that is not `Content-*` is kept exactly as many times as it occurs, and every `Content-*` field is removed |
| Mime.GetDropContent | src/replay-daemon.py:165 | removing the `Content-*` fields changes nothing `get` reads for other names |
| Mime.Walk | src/replay-daemon.py:118 | `walk()` starts with the part itself |
| Bounce.IsBounce | src/replay-daemon.py:113-122 | a bounce exactly when the top level is `multipart/report` with report type `delivery-status` (any case), or some part of the walk is `message/delivery-status`, or the lower-cased Subject mentions "undelivered" or "delivery status notification" |
| Bounce.FieldAddress | src/replay-daemon.py:138-140 | a recipient value yields a lower-case address, and a value without `;` is just lower-cased |
| Bounce.FieldAddressOfTyped | src/replay-daemon.py:138-140 | a value `type; address` (RFC 3464, sections 2.3.1 and 2.3.2) yields the address with the white space around it stripped, lower-cased; an address already stripped yields itself, lower-cased |
| Bounce.ExtractBounceRecipients | src/replay-daemon.py:125-141 | an address is extracted exactly when some `Final-Recipient` or `Original-Recipient` field of a block of a `message/delivery-status` part yields it; nothing is extracted when no such part exists |
| Bounce.ExtractedAreLowered | src/replay-daemon.py:140 | every extracted address is lower-case |
| Rewrite.FooterShapes | src/replay-daemon.py:161-164 | an HTML leaf gets `<br><br><p>Unsubscribe: <a href="L">L</a></p>` and any other text leaf gets `\n\nUnsubscribe: L\n` |
| Rewrite.Charset | src/replay-daemon.py:165 | the charset passed to `set_content` is the declared charset lower-cased when it is present, non-empty and ASCII, and otherwise `utf-8`; never empty |
| Rewrite.TextHeaders | src/replay-daemon.py:165 | after `set_content` the header list is the old one without its `Content-*` fields, in order, possibly followed by `MIME-Version`; it has `MIME-Version` and no leftover `Content-*` field |
| Rewrite.TextHeadersKeep | src/replay-daemon.py:165 | `set_content` leaves every other header reading as before |
| Rewrite.CharsetAlias | src/replay-daemon.py:165 | a charset name in the alias table of Python's `email.charset` becomes its alias; any other name is kept |
| Rewrite.CharsetAliasStable | src/replay-daemon.py:165 | an alias is not mapped again, so a part whose charset `set_content` wrote keeps it when re-set |
| Rewrite.LfLines | src/replay-daemon.py:165 | `\r\n` and a lone `\r` become `\n`; the result has no `\r`; a text without `\r` is unchanged |
| Rewrite.NormaliseLines | src/replay-daemon.py:165 | the text `set_content` stores when it picks quoted-printable has no `\r` and ends with `\n`; a text already of that form is stored unchanged |
| Rewrite.FooterReadsBack | src/replay-daemon.py:159-165 | on the quoted-printable path, a text with `\n` line ends plus its footer is stored as written after the plain footer, and with one `\n` added after the HTML footer |
| Rewrite.SetText | src/replay-daemon.py:165 | the re-set part is `text/<subtype>` with the aliased charset as its only parameter, holds the new text with its line ends normalised as the quoted-printable path stores them, keeps the old header list minus `Content-*` in order (plus possibly `MIME-Version`), and keeps every field other than `Content-*` and `MIME-Version` reading as before |
| Rewrite.RewriteTree | src/replay-daemon.py:155-165 | the rewrite keeps whether a part is a leaf or has sub-parts |
| Rewrite.WalkOfRewrite | src/replay-daemon.py:156-165 | the walk of the rewritten tree is the walk of the original with each part touched in turn |
| Rewrite.AppendUnsubWalk | src/replay-daemon.py:155-165 | on a multipart message the walk keeps its length; each text leaf becomes its text plus footer, with normalised line ends, as text of the same subtype with the aliased charset; every other part, the top-level headers included, is unchanged |
| Rewrite.AppendUnsubSingle | src/replay-daemon.py:166-173 | a single-part message becomes text of the same subtype; a text part holds its text followed by the footer, and an audio, image, video or application part holds the `repr` of its payload bytes followed by the footer, with normalised line ends |
| Rewrite.AppendUnsubBinary | src/replay-daemon.py:166-173 | the `repr` of a binary payload holds no line break, so the copy holds exactly `b'…'` and the footer, plus the final line feed after an HTML footer |
| Rewrite.BytesRepr | src/replay-daemon.py:168-172 | `repr` of the bytes `get_content()` returns: `b`, then the chosen quote (`"` only when the bytes hold `'` but no `"`), the escaped octets and the quote again; every character printable ASCII |
| Rewrite.PlainBytesRepr | src/replay-daemon.py:168-172 | printable octets other than `'` and `\` are written unchanged between single quotes |
| Rewrite.AppendUnsub | src/replay-daemon.py:154-173 | a multipart message stays multipart with its headers and type; a single-part message becomes text of its own subtype |
| Rewrite.ForwardHeadersKeep | src/replay-daemon.py:181-199 | the header edits leave every field other than `To`, `From`, `Reply-To` and `List-Unsubscribe` reading as before, as `get` reads it |
| Rewrite.ForwardHeadersSpec | src/replay-daemon.py:181-199 | as `get` reads them: `To` is the recipient and `From` the relay's From header; `Reply-To` is untouched in "original" mode and set to the From header otherwise; `List-Unsubscribe` is the link in angle brackets (section 3.2 of RFC 2369); every other field reads as before |
| Rewrite.ForwardHeadersEdits | src/replay-daemon.py:181-199 | at the level of the field list, the header edits keep every field in place under its name and touch only the first field of, or append, the names they set (`Reply-To` only in "list" mode) |
| Rewrite.ForwardSpec | src/replay-daemon.py:176-202 | as `get` reads them, the forwarded copy has the four header edits; every other field reads as before, except that re-setting a single-part body replaces its `Content-*` fields and may add `MIME-Version` |
| Rewrite.ForwardKeepsFields | src/replay-daemon.py:176-202 | the field list of a forwarded copy is the received list with only the fields the relay sets edited; a multipart copy has exactly that list, a single-part copy that list without `Content-*` fields, in order, possibly followed by `MIME-Version` |
| Rewrite.Forward | src/replay-daemon.py:176-202 | a forwarded copy keeps the shape of the message: a multipart message stays multipart with its type, a single-part one becomes text of its subtype |
| Rewrite.ForwardSingleSpec | src/replay-daemon.py:198-200 | on a single-part message the header edits survive re-setting the body |
| Contacts.SubscribedRows | src/replay-daemon.py:69-71 | exactly the rows with `unsubscribed=0` are selected |
| Contacts.Insert | src/replay-daemon.py:70 | inserting into a list sorted by `(rank, id)` keeps it sorted and adds exactly that row |
| Contacts.SortByRankId | src/replay-daemon.py:70 | `ORDER BY rank, id` yields a sorted permutation of the rows |
| Contacts.ToContacts | src/replay-daemon.py:73 | each contact is the row's rank, lower-cased address and token, in the same order |
| Contacts.LoadContactsSpec | src/replay-daemon.py:66-73 | the contacts are the subscribed rows and no others, in `(rank, id)` order, each with a lower-case address |
| Contacts.LoadContactsStrict | src/replay-daemon.py:66-73 | in a valid table the `(rank, id)` order is strict, so no row appears twice |
| Contacts.LoadContacts | src/replay-daemon.py:66-73 | there are never more contacts than rows |
| Contacts.SubscribedIdsIncrease | src/replay-daemon.py:69-71 | the subscribed rows keep ids increasing |
| Relay.GetConfigValue | src/replay-daemon.py:76-78 | a value is read exactly when the key has a row |
| Relay.SetConfigValue | src/replay-daemon.py:81-86 | the key then reads the new value; every other key reads as before; the only key that may be added is this one |
| Relay.ReadWrittenCursor | src/replay-daemon.py:229-230 | a cursor written with `isoformat()` reads back as the same time |
| Relay.ReadCursorSpec | src/replay-daemon.py:229-230 | no cursor exactly when the key is missing or empty; unreadable exactly when its text does not parse as decimal text; otherwise the time the text denotes |
| Relay.FlagBounced | src/replay-daemon.py:247-252 | exactly the rows whose address bounced are flagged, each stamped with the time the clock read for its address; the number of rows is unchanged |
| Relay.FlagBouncedKeeps | src/replay-daemon.py:247-252 | flagging keeps the table valid, every row's identity and every address |
| Relay.Broadcast | src/replay-daemon.py:260-265 | one send per contact, in contact order, each to the one-element list `[rcpt]`, carrying that contact's forwarded copy |
| Relay.Step | src/replay-daemon.py:217-270 | a failed step commits nothing; an unreadable cursor fails the step; a message that is not newer than the cursor, or neither from the allowed sender nor a bounce, changes nothing and sends nothing |
| Relay.StepAdvances | src/replay-daemon.py:229-243 | a message the step acts on is later than the cursor; the cursor becomes its date unless the step failed; no other config key changes |
| Relay.StepBounce | src/replay-daemon.py:245-257 | a bounce sends nothing, adds no row and flags exactly the existing rows whose address it names, each stamped with the time read for it; cursor and flags commit together |
| Relay.StepBroadcast | src/replay-daemon.py:259-270 | a broadcast leaves the table alone and sends one copy per contact in order, each to that contact alone; it fails exactly when the copy for some contact raises, in `forward_full_fidelity` or in `sendmail`; a failed broadcast makes only the sends before that contact; the cursor commits only after all sends succeed |
| Relay.PassFrom | src/replay-daemon.py:217-270 | a pass sends at most one copy per contact for each fetched message |
| Relay.Pass | src/replay-daemon.py:205-275 | a pass sends at most as many copies as messages times rows |
| Relay.PassCursorMonotone | src/replay-daemon.py:205-275 | across a pass the cursor never disappears and never decreases |
| Relay.StepKeepsRoster | src/replay-daemon.py:245-270 | a step keeps the table valid and every row's id, token and creation time |
| Relay.PassKeepsRoster | src/replay-daemon.py:205-275 | a whole pass keeps the table valid and every row's id, token and creation time |
| Relay.PassKeepsEmails | src/replay-daemon.py:205-275 | a pass adds no row and changes no address, whether or not the table is valid |
| EndToEnd.ContactOfRow | src/replay-daemon.py:66-73 | every contact comes from a subscribed row of the table |
| EndToEnd.RowAuthorized | src/webserver.py:140-147 | the signed pair of any row of a valid table passes every check of the endpoint |
| EndToEnd.LinkUnsubscribes | src/replay-daemon.py:149-151 | opening the link in any contact's copy as written answers 200 and unsubscribes that contact |
| EndToEnd.UnsubAccepts | src/webserver.py:149-155 | an authorised request answers 200 |
| EndToEnd.UnsubscribedLeavesContacts | src/replay-daemon.py:66-73 | after a successful unsubscribe, no contact of the next pass has that address |
| EndToEnd.BouncedLeaveContacts | src/replay-daemon.py:245-252 | after a bounce step, no contact of the next pass has a bounced address |
| EndToEnd.BulkKeepsLowered | src/webserver.py:169-172 | a bulk action over lower-case addresses keeps every address in the table lower-case |
| EndToEnd.ManageKeepsLowered | src/webserver.py:164-201 | whatever the administrator posts, every address in the table stays lower-case |
| EndToEnd.UnsubKeepsLowered | src/webserver.py:149-153 | the unsubscribe endpoint keeps every address lower-case |
| EndToEnd.PassKeepsLowered | src/replay-daemon.py:205-275 | a relay pass keeps every address lower-case |

## Left out

- IMAP and SMTP sessions are not modelled: `connect_imap`, `connect_smtp`, `search`, `fetch`, `store` of the `\Seen` flag, `sendmail`, and `quit`/`logout`. Each fetched message is an input; a failed `search` is the empty inbox; a failed `fetch` and an unreadable INTERNALDATE are `NotFetched`. Sends are an output list. A copy that raises, in `forward_full_fidelity` or in `sendmail`, is the `failingSend` parameter: the index of that contact.
- `time.sleep` with `random.uniform` jitter is left out. It is timing only.
- The outer `while True` loop and its blanket `except` are left out. The model covers one pass.
- The `print` calls are left out. They are logging only.
- HMAC-SHA256 is the parameter `mac`. The model covers the text it signs (`email "\n" token`), not the digest.
- `secrets.token_hex` is a parameter (the token of a new row).
- bcrypt, base64 and `_require_auth` are left out. `Manage` models a request that has already been authenticated.
- Flask routing, the HTML page that `manage` renders, JSON config loading and path substitution are left out. Settings are record fields.
- Times are integers, and every reading of the clock is a parameter: `clock(i)` for the i-th listed address of a bulk action or the i-th submitted row, `stamp(a)` for each bounced address `a`, and `now` for an unsubscribe request. The reads are not constrained to increase.
- `Relay.EncodeTime` stands in for `isoformat()`/`fromisoformat()` as decimal text of the integer time, read by `Admin.ParseSigned`, which has no digit limit. Text that does not parse is the `Unreadable` cursor, on which `fromisoformat` would raise.
- MIME parsing and serialisation are not modelled: `BytesParser`, `as_bytes`, and charset and transfer encodings. A part's body is its decoded text, and its Content-Type is a structured field. `set_content` is modelled by its effect on the header list (`Content-*` fields are replaced and `MIME-Version` is added), by the line-end normalisation it applies to text when it picks quoted-printable, and by the charset aliases it applies; the transfer encoding it picks is not modelled (see the lines on `Rewrite.NormaliseLines`, `Rewrite.SetText` and `Rewrite.FooterReadsBack`).
- `Rewrite.NormaliseLines` states the text `set_content` stores when it picks quoted-printable, which joins the lines with `\n`. For a footed part `set_content` never picks 7bit or 8bit, because the footer's link line is longer than 78 octets. When the first ten lines encode shorter as base64, as mostly happens when they are non-ASCII prose, `set_content` joins the lines with the policy's line separator instead. That separator is `\r\n` under `policy.SMTP`, so Python's decoded text then has `\r\n` line ends where the model has `\n`. The model does not compare the two encodings.
- `Rewrite.SetText` states the body with `\n` line ends, as `Rewrite.NormaliseLines` gives it. A part that `set_content` encodes as base64 holds the same lines joined with `\r\n` instead. `Rewrite.AppendUnsubWalk` and `Rewrite.AppendUnsubSingle` inherit this gap through `SetText`.
- `Rewrite.FooterReadsBack` holds on the quoted-printable path only. On the base64 path every line end of the text and footer reads back as `\r\n`.
- `Rewrite.SetText` does not model encoding the text in the part's charset. A text the charset cannot encode, or a charset name Python does not know, makes `set_content` raise; that exception is covered only as a failing copy (`failingSend`).
- `Text.Lower` lower-cases ASCII letters only, and `Admin.ParseInt` accepts ASCII digits only. Python's `lower()` and `int()` also handle other Unicode letters and digits.
- `UrlCodec.UnquotePlus` decodes each invalid UTF-8 byte to one replacement character. Python replaces maximal invalid subsequences. The two agree on every query that `urlencode` writes, which is all the round-trip lemmas use.
- Strings are sequences of Unicode scalar values. Lone surrogates, which Python strings can hold, are not represented.
- `Rewrite.AppendUnsubSingle` covers single-part messages whose main type is text, audio, image, video or application. A non-multipart `message/*` part, whose `get_content()` is a message whose `str()` is its flattened form, is not modelled. For any other main type `get_content()` raises `KeyError`; that exception is covered only as a failing copy (`failingSend`), and the model keeps the part's content as it is.
- `hmac.compare_digest` raising on non-ASCII arguments is modelled as status 500. The exception text is not modelled.
- Concurrency between the console and the daemon on the same database is not modelled. Each request and each step is atomic.

=== FILE: admin.dfy ===
/** The console's POST handling in `manage` (src/webserver.py): the bulk actions and
    the "save existing" edit of the rows shown on the page. Authentication and the
    HTML page itself are not part of this module. */
module Admin {
  import opened Wrappers
  import opened Text
  import opened Emails
  import opened Roster

  predicate IsDigit(c: char) {
    '0' <= c <= '9'
  }

  function DigitValue(c: char): nat
    requires IsDigit(c)
  {
    c as int - '0' as int
  }

  function DigitChar(d: nat): (c: char)
    requires d < 10
    ensures IsDigit(c) && DigitValue(c) == d
  {
    ('0' as int + d) as char
  }

  /** What Python's `int()` accepts in base 10 after the sign: digits, with single
      underscores allowed between two digits. */
  predicate IsDigitGroups(t: string) {
    && t != [] && IsDigit(t[0]) && IsDigit(t[|t| - 1])
    && (forall i :: 0 <= i < |t| ==> IsDigit(t[i]) || t[i] == '_')
    && (forall i :: 0 < i < |t| ==> !DoubleUnderscoreAt(t, i))
  }

  predicate DoubleUnderscoreAt(t: string, i: int)
    requires 0 < i < |t|
  {
    t[i - 1] == '_' && t[i] == '_'
  }

  /** `t` with its underscores removed. */
  function DropUnderscores(t: string): (r: string)
    ensures (forall i :: 0 <= i < |t| ==> IsDigit(t[i]) || t[i] == '_') ==>
      forall i :: 0 <= i < |r| ==> IsDigit(r[i])
  {
    if t == [] then []
    else
      var n := |t| - 1;
      DropUnderscores(t[..n]) + (if t[n] == '_' then [] else [t[n]])
  }

  /** The decimal value of a string of digits, most significant first. */
  function DecimalValue(d: string): nat
    requires forall i :: 0 <= i < |d| ==> IsDigit(d[i])
  {
    if d == [] then 0
    else 10 * DecimalValue(d[..|d| - 1]) + DigitValue(d[|d| - 1])
  }

  /** The value of accepted digit groups: the digits read without the underscores. */
  function GroupsValue(t: string): nat
    requires IsDigitGroups(t)
  {
    DecimalValue(DropUnderscores(t))
  }

  /** Peeling the last digit, and the underscore before it if any, off digit groups. */
  lemma DigitGroupsStep(s: string, body: string)
    requires |s| >= 2 && IsDigit(s[|s| - 1])
    requires body == if s[|s| - 2] == '_' then s[..|s| - 2] else s[..|s| - 1]
    ensures IsDigitGroups(s) <==> IsDigitGroups(body)
    ensures DropUnderscores(s) == DropUnderscores(body) + [s[|s| - 1]]
  {
    if IsDigitGroups(s) {
      GroupsOfBody(s, body);
    }
    if IsDigitGroups(body) {
      GroupsOfWhole(s, body);
    }
    DropStep(s, body);
  }

  lemma GroupsOfBody(s: string, body: string)
    requires |s| >= 2 && IsDigit(s[|s| - 1])
    requires body == if s[|s| - 2] == '_' then s[..|s| - 2] else s[..|s| - 1]
    requires IsDigitGroups(s)
    ensures IsDigitGroups(body)
  {
    var n := |s| - 1;
    if s[n - 1] == '_' {
      assert !DoubleUnderscoreAt(s, n - 1);
    }
    assert forall i :: 0 <= i < |body| ==> body[i] == s[i];
    forall i | 0 < i < |body| ensures !DoubleUnderscoreAt(body, i) {
      assert !DoubleUnderscoreAt(s, i);
    }
  }

  lemma GroupsOfWhole(s: string, body: string)
    requires |s| >= 2 && IsDigit(s[|s| - 1])
    requires body == if s[|s| - 2] == '_' then s[..|s| - 2] else s[..|s| - 1]
    requires IsDigitGroups(body)
    ensures IsDigitGroups(s)
  {
    assert forall i :: 0 <= i < |body| ==> body[i] == s[i];
    forall i | 0 <= i < |s| ensures IsDigit(s[i]) || s[i] == '_' {
      if i < |body| { assert s[i] == body[i]; }
    }
    forall i | 0 < i < |s| ensures !DoubleUnderscoreAt(s, i) {
      if i < |body| {
        assert !DoubleUnderscoreAt(body, i);
      }
    }
  }

  lemma DropStep(s: string, body: string)
    requires |s| >= 2 && IsDigit(s[|s| - 1])
    requires body == if s[|s| - 2] == '_' then s[..|s| - 2] else s[..|s| - 1]
    ensures DropUnderscores(s) == DropUnderscores(body) + [s[|s| - 1]]
  {
    var n := |s| - 1;
    assert s[..n][..n - 1] == s[..n - 1];
  }

  /** What the recursive reading of `body` says about `s`. */
  lemma ParseStep(s: string, body: string, sub: Option<nat>)
    requires |s| >= 2 && IsDigit(s[|s| - 1])
    requires body == if s[|s| - 2] == '_' then s[..|s| - 2] else s[..|s| - 1]
    requires sub.Some? <==> IsDigitGroups(body)
    requires sub.Some? ==> sub.value == GroupsValue(body)
    ensures sub.Some? <==> IsDigitGroups(s)
    ensures sub.Some? ==> GroupsValue(s) == 10 * sub.value + DigitValue(s[|s| - 1])
  {
    DigitGroupsStep(s, body);
    if sub.Some? {
      var d := DropUnderscores(s);
      assert d[..|d| - 1] == DropUnderscores(body);
    }
  }

  lemma SingleDigit(s: string)
    requires |s| == 1 && IsDigit(s[0])
    ensures IsDigitGroups(s) && GroupsValue(s) == DigitValue(s[0])
  {
    assert s[..0] == [] && DropUnderscores(s) == s;
    assert DecimalValue(s) == 10 * DecimalValue(s[..0]) + DigitValue(s[0]);
  }

  /** Digits with single underscores between them, as Python's `int()` accepts them
      in base 10, and their value. */
  function ParseDigits(s: string): (r: Option<nat>)
    ensures r.Some? <==> IsDigitGroups(s)
    ensures r.Some? ==> r.value == GroupsValue(s)
    decreases |s|
  {
    if s == [] || !IsDigit(s[|s| - 1]) then None
    else if |s| == 1 then
      SingleDigit(s);
      Some(DigitValue(s[0]))
    else
      var body := if s[|s| - 2] == '_' then s[..|s| - 2] else s[..|s| - 1];
      var sub := ParseDigits(body);
      ParseStep(s, body, sub);
      if sub.None? then None else Some(10 * sub.value + DigitValue(s[|s| - 1]))
  }

  /** The part of `s` after an optional leading sign. */
  function Unsigned(s: string): string {
    if s != [] && (s[0] == '+' || s[0] == '-') then s[1..] else s
  }

  /** The decimal text of a signed integer: an optional sign, then digit groups, and
      the value they denote. */
  function ParseSigned(s: string): (r: Option<int>)
    ensures r.Some? <==> IsDigitGroups(Unsigned(s))
    ensures r.Some? ==> r.value == if s[0] == '-' then 0 - GroupsValue(Unsigned(s)) as int else GroupsValue(Unsigned(s))
  {
    if s == [] then None
    else if s[0] == '+' || s[0] == '-' then
      match ParseDigits(s[1..])
      case None => None
      case Some(v) =>
        var n: int := if s[0] == '-' then 0 - v as int else v as int;
        Some(n)
    else
      match ParseDigits(s)
      case None => None
      case Some(v) => Some(v)
  }

  /** The most digits Python converts between `int` and decimal text
      (`sys.int_max_str_digits`); beyond it `int()` and `str()` raise `ValueError`. */
  const MaxStrDigits: nat := 4300

  /** `int(s)` for a stripped string: an optional sign, then digit groups holding at
      most `MaxStrDigits` digits; `None` stands for the `ValueError` the console
      turns into the default rank. */
  function ParseInt(s: string): (r: Option<int>)
    ensures r.Some? <==> IsDigitGroups(Unsigned(s)) && |DropUnderscores(Unsigned(s))| <= MaxStrDigits
    ensures r.Some? ==> r.value == if s[0] == '-' then 0 - GroupsValue(Unsigned(s)) as int else GroupsValue(Unsigned(s))
  {
    var v := ParseSigned(s);
    if v.Some? && |DropUnderscores(Unsigned(s))| <= MaxStrDigits then v else None
  }

  function NatToString(n: nat): (s: string)
    ensures s != [] && IsDigit(s[0]) && IsDigit(s[|s| - 1])
    ensures forall i :: 0 <= i < |s| ==> IsDigit(s[i])
  {
    if n < 10 then [DigitChar(n)]
    else
      var s := NatToString(n / 10) + [DigitChar(n % 10)];
      assert s[0] == NatToString(n / 10)[0];
      s
  }

  /** `str(n)`, which is how the page renders a rank into its form. */
  function IntToString(n: int): string {
    if n < 0 then "-" + NatToString(-n) else NatToString(n)
  }

  /** `str(n)` succeeds: `n` has at most `MaxStrDigits` digits. */
  predicate Renderable(n: int) {
    |NatToString(if n < 0 then -n else n)| <= MaxStrDigits
  }

  lemma {:induction false} ParseNatToString(n: nat)
    ensures ParseDigits(NatToString(n)) == Some(n)
  {
    if n >= 10 {
      ParseNatToString(n / 10);
      var s := NatToString(n);
      assert s[..|s| - 1] == NatToString(n / 10);
    }
  }

  /** Decimal text written by `IntToString` reads back as the same integer. */
  lemma ParseSignedToString(n: int)
    ensures ParseSigned(IntToString(n)) == Some(n)
  {
    if n < 0 {
      ParseNegative(-n);
    } else {
      ParseNonNegative(n);
    }
  }

  lemma ParseNonNegative(m: nat)
    ensures ParseSigned(NatToString(m)) == Some(m)
  {
    var s := NatToString(m);
    ParseNatToString(m);
    assert s[0] != '+' && s[0] != '-';
  }

  lemma ParseNegative(m: nat)
    requires m > 0
    ensures ParseSigned("-" + NatToString(m)) == Some(0 - m)
  {
    var digits := NatToString(m);
    var s := "-" + digits;
    ParseNatToString(m);
    assert s[0] == '-' && s[1..] == digits;
    assert ParseDigits(s[1..]) == Some(m);
  }

  /** A string of digits has no underscore to drop. */
  lemma {:induction false} DropNoUnderscores(t: string)
    requires forall i :: 0 <= i < |t| ==> IsDigit(t[i])
    ensures DropUnderscores(t) == t
  {
    if t != [] {
      var n := |t| - 1;
      DropNoUnderscores(t[..n]);
      assert t == t[..n] + [t[n]];
    }
  }

  /** A rank the page could render with `str()` parses back to itself. */
  lemma ParseIntToString(n: int)
    requires Renderable(n)
    ensures ParseInt(IntToString(n)) == Some(n)
  {
    ParseSignedToString(n);
    var d := NatToString(if n < 0 then -n else n);
    DropNoUnderscores(d);
    assert Unsigned(IntToString(n)) == d by {
      if n < 0 {
        assert IntToString(n)[1..] == d;
      }
    }
  }

  function Pow10(k: nat): (r: nat)
    ensures r >= 1
  {
    if k == 0 then 1 else 10 * Pow10(k - 1)
  }

  lemma {:induction false} NatToStringShort(m: nat, k: nat)
    requires m < Pow10(k)
    ensures |NatToString(m)| <= k + 1
  {
    if m >= 10 {
      assert k >= 1;
      assert m / 10 < Pow10(k - 1);
      NatToStringShort(m / 10, k - 1);
    }
  }

  /** Every rank SQLite can store renders: 64-bit integers have at most 19 digits. */
  lemma FitsRenderable(n: int)
    requires FitsInteger(n)
    ensures Renderable(n)
  {
    assert Pow10(4) == 10000;
    assert Pow10(8) == 100000000;
    assert Pow10(12) == 1000000000000;
    assert Pow10(16) == 10000000000000000;
    assert Pow10(19) == 10000000000000000000;
    NatToStringShort(if n < 0 then -n else n, 19);
  }

  /** The form fields of one row of the "Existing Entries" table, as submitted;
      `None` for a field the form did not carry. */
  datatype FormRow = FormRow(
    rowId: int,
    email: Option<string>,
    name: Option<string>,
    rank: Option<string>,
    unsub: Option<string>)

  /** The address the row is saved with: stripped and lower-cased. */
  function FormEmail(row: FormRow): string {
    Lower(Strip(row.email.GetOr([])))
  }

  /** The stripped name, or `None` (NULL) when blank. */
  function FormName(row: FormRow): Option<string> {
    var n := Strip(row.name.GetOr([]));
    if n == [] then None else Some(n)
  }

  /** The rank field as an integer, the default rank when it does not parse. */
  function FormRank(row: FormRow): int {
    ParseInt(Strip(row.rank.GetOr([]))).GetOr(DefaultRank)
  }

  /** The status field selects "Unsubscribed" exactly when it reads `1`; a missing or
      empty field reads as `0`. */
  function FormUnsubscribed(row: FormRow): bool {
    var raw := row.unsub.GetOr([]);
    Strip(if raw == [] then "0" else raw) == "1"
  }

  predicate HasId(roster: Roster, id: int) {
    exists i :: 0 <= i < |roster| && roster[i].id == id
  }

  /** The UPDATE of one row: `unsubscribed_at` keeps its first stamp while the row stays
      unsubscribed (`COALESCE(unsubscribed_at, now)`) and is cleared on resubscribe. */
  function EditRow(prev: Recipient, row: FormRow, now: Timestamp): Recipient {
    var unsub := FormUnsubscribed(row);
    prev.(email := FormEmail(row), name := FormName(row), rank := FormRank(row),
         unsubscribed := unsub,
         unsubscribedAt := if unsub then Some(prev.unsubscribedAt.GetOr(now)) else None,
         updatedAt := now)
  }

  /** What saving `row` makes of the stored row `prev`: the submitted address, name,
      rank and status, `unsubscribed_at` set exactly when unsubscribed, keeping an
      earlier stamp or else taking `now`, and `updated_at` set to `now`. */
  predicate SavedAs(prev: Recipient, next: Recipient, row: FormRow, now: Timestamp) {
    && next.email == FormEmail(row)
    && next.name == FormName(row)
    && next.rank == FormRank(row)
    && next.unsubscribed == FormUnsubscribed(row)
    && (next.unsubscribedAt.Some? <==> FormUnsubscribed(row))
    && (FormUnsubscribed(row) && prev.unsubscribedAt.Some? ==> next.unsubscribedAt == prev.unsubscribedAt)
    && (FormUnsubscribed(row) && prev.unsubscribedAt.None? ==> next.unsubscribedAt == Some(now))
    && next.updatedAt == now
  }

  /** The table with the row whose id is `row.rowId` (if any) edited. */
  function Edited(roster: Roster, row: FormRow, now: Timestamp): (r: Roster)
    ensures |r| == |roster|
    ensures forall i :: 0 <= i < |roster| ==>
      if roster[i].id == row.rowId then SavedAs(roster[i], r[i], row, now) && SameIdentity(roster[i], r[i])
      else r[i] == roster[i]
  {
    var r := seq(|roster|, i requires 0 <= i < |roster| =>
      if roster[i].id == row.rowId then EditRow(roster[i], row, now) else roster[i]);
    forall i | 0 <= i < |roster| && roster[i].id == row.rowId
      ensures SavedAs(roster[i], r[i], row, now) && SameIdentity(roster[i], r[i])
    {
      EditRowSaves(roster[i], row, now);
    }
    r
  }

  lemma EditRowSaves(prev: Recipient, row: FormRow, now: Timestamp)
    ensures SavedAs(prev, EditRow(prev, row, now), row, now)
    ensures SameIdentity(prev, EditRow(prev, row, now))
  {
  }

  /** The range of SQLite's 64-bit INTEGER; Python's `sqlite3` refuses to bind an
      `int` outside it and raises `OverflowError`. */
  const MinInteger: int := -0x8000_0000_0000_0000
  const MaxInteger: int := 0x7FFF_FFFF_FFFF_FFFF

  predicate FitsInteger(n: int) {
    MinInteger <= n <= MaxInteger
  }

  /** Saving one row. A blank address skips the row. Otherwise the UPDATE fails the
      request (`None`) when the rank does not fit a 64-bit INTEGER, which fails at
      binding whether or not the id exists, or when another row already holds the
      address, which violates the UNIQUE constraint. */
  function SaveRow(roster: Roster, row: FormRow, now: Timestamp): (r: Option<Roster>)
    ensures FormEmail(row) == [] ==> r == Some(roster)
    ensures r.None? <==>
      FormEmail(row) != [] &&
      (!FitsInteger(FormRank(row)) ||
       (HasId(roster, row.rowId) &&
        exists j :: 0 <= j < |roster| && roster[j].id != row.rowId && roster[j].email == FormEmail(row)))
    ensures r.Some? ==> |r.value| == |roster| && KeepsIdentities(roster, r.value)
    ensures r.Some? && FormEmail(row) != [] ==> forall i :: 0 <= i < |roster| ==>
      if roster[i].id == row.rowId then SavedAs(roster[i], r.value[i], row, now)
      else r.value[i] == roster[i]
  {
    var email := FormEmail(row);
    if email == [] then
      assert KeepsIdentities(roster, roster) by {
        assert forall i :: 0 <= i < |roster| ==> SameIdentity(roster[i], roster[i]);
      }
      Some(roster)
    else if !FitsInteger(FormRank(row)) then
      None
    else if HasId(roster, row.rowId) &&
            exists j :: 0 <= j < |roster| && roster[j].id != row.rowId && roster[j].email == email then
      None
    else
      Some(Edited(roster, row, now))
  }

  /** A rank the form carries unchanged from the page saves as that rank. */
  lemma RenderedRankReadsBack(row: FormRow, rank: int)
    requires Renderable(rank) && row.rank == Some(IntToString(rank))
    ensures FormRank(row) == rank
  {
    var s := IntToString(rank);
    RenderedIsStripped(rank);
    StripOfStripped(s);
    assert Strip(row.rank.GetOr([])) == s;
    ParseIntToString(rank);
  }

  lemma RenderedIsStripped(n: int)
    ensures IsStripped(IntToString(n))
  {
    var s := IntToString(n);
    if n < 0 {
      var d := NatToString(-n);
      assert s == "-" + d && s[|s| - 1] == d[|d| - 1];
    }
  }

  /** The "save_existing" action: every submitted row in order, the i-th saved at
      `clock(i)`; the first failing row aborts the request and nothing is committed. */
  function SaveExisting(roster: Roster, rows: seq<FormRow>, clock: nat -> Timestamp): (r: Option<Roster>)
    ensures r.Some? ==> |r.value| == |roster|
    ensures r.None? ==> exists i :: 0 <= i < |rows| && FormEmail(rows[i]) != []
    decreases |rows|
  {
    if rows == [] then Some(roster)
    else
      var n := |rows| - 1;
      match SaveExisting(roster, rows[..n], clock)
      case None => None
      case Some(prev) => SaveRow(prev, rows[n], clock(n))
  }

  lemma SaveRowPreservesValid(roster: Roster, row: FormRow, now: Timestamp)
    requires Valid(roster)
    ensures SaveRow(roster, row, now).Some? ==> Valid(SaveRow(roster, row, now).value)
  {
    var r := SaveRow(roster, row, now);
    if r.Some? && FormEmail(row) != [] {
      forall i, j | 0 <= i < j < |roster|
        ensures r.value[i].email != r.value[j].email
      {
        if roster[i].id == row.rowId {
          assert roster[j].id != row.rowId;
        } else if roster[j].id == row.rowId {
          assert roster[i].id != row.rowId;
        }
      }
    }
  }

  /** Saving keeps the table valid and every row's id and token, whatever is submitted. */
  lemma {:induction false} SaveExistingPreservesValid(roster: Roster, rows: seq<FormRow>, clock: nat -> Timestamp)
    requires Valid(roster)
    ensures SaveExisting(roster, rows, clock).Some? ==>
      Valid(SaveExisting(roster, rows, clock).value) && KeepsIdentities(roster, SaveExisting(roster, rows, clock).value)
    decreases |rows|
  {
    if rows != [] {
      var n := |rows| - 1;
      SaveExistingPreservesValid(roster, rows[..n], clock);
      var prev := SaveExisting(roster, rows[..n], clock);
      if prev.Some? {
        SaveRowPreservesValid(prev.value, rows[n], clock(n));
      }
    }
  }

  /** Every address a save leaves in the table went through `.strip().lower()`:
      a lower-cased table stays lower-cased. */
  lemma {:induction false} SaveExistingKeepsLowered(roster: Roster, rows: seq<FormRow>, clock: nat -> Timestamp)
    requires forall i :: 0 <= i < |roster| ==> IsLowered(roster[i].email)
    ensures SaveExisting(roster, rows, clock).Some? ==>
      forall i :: 0 <= i < |SaveExisting(roster, rows, clock).value| ==> IsLowered(SaveExisting(roster, rows, clock).value[i].email)
    decreases |rows|
  {
    if rows != [] {
      var n := |rows| - 1;
      SaveExistingKeepsLowered(roster, rows[..n], clock);
      LowerIsLowered(Strip(rows[n].email.GetOr([])));
    }
  }

  /** A POST to `/manage` by an authenticated administrator: the bulk actions upsert
      every address of the pasted list; "save_existing" edits the submitted rows and
      answers 500 when a row fails; any other action changes nothing. `clock(i)` is
      the time the i-th address or row is written. */
  function Manage(roster: Roster, action: string, bulkInput: string, rows: seq<FormRow>,
                  clock: nat -> Timestamp, newToken: nat -> string): (r: Reply)
    ensures r.status == 200 || r.status == 500
    ensures r.status == 500 ==> r.roster == roster
    ensures action != "bulk_subscribe" && action != "bulk_unsubscribe" && action != "save_existing" ==>
      r == Reply(200, roster)
    ensures action == "save_existing" ==> |r.roster| == |roster|
  {
    if action == "bulk_subscribe" || action == "bulk_unsubscribe" then
      Reply(200, Bulk(roster, SplitEmails(bulkInput), action == "bulk_subscribe", clock, newToken))
    else if action == "save_existing" then
      match SaveExisting(roster, rows, clock)
      case None => Reply(500, roster)
      case Some(next) => Reply(200, next)
    else Reply(200, roster)
  }
}

=== FILE: bounce.dfy ===
/** Recognising delivery-failure reports among the inbound messages and reading the
    failed addresses out of them: `_is_bounce` and `_extract_bounce_recipients` of
    src/replay-daemon.py. A report follows RFC 3464: a `multipart/report` whose
    `message/delivery-status` part holds one block of fields per recipient, among them
    `Final-Recipient` and `Original-Recipient` (sections 2.3.1 and 2.3.2 of RFC 3464),
    each written `address-type; address`. */
module Bounce {
  import opened Wrappers
  import opened Text
  import opened Mime

  /** The top level is `multipart/report; report-type=delivery-status` (the parameter
      value compared case-insensitively). */
  predicate IsDeliveryReport(msg: Part) {
    IsType(msg, "multipart", "report") &&
    Lower(Get(msg.ctype.params, "report-type").GetOr([])) == "delivery-status"
  }

  predicate IsStatusPart(p: Part) {
    IsType(p, "message", "delivery-status")
  }

  /** Some part of the walk is a `message/delivery-status` part. */
  predicate HasStatusPart(msg: Part) {
    exists i :: 0 <= i < |Walk(msg)| && IsStatusPart(Walk(msg)[i])
  }

  /** The lower-cased Subject mentions an undelivered message or a delivery status
      notification. */
  predicate HasBounceSubject(msg: Part) {
    var subject := Lower(Get(msg.headers, "Subject").GetOr([]));
    Contains(subject, "undelivered") || Contains(subject, "delivery status notification")
  }

  /** The scan of the walk for a status part. */
  function AnyStatusPart(ps: seq<Part>): (r: bool)
    ensures r <==> exists i :: 0 <= i < |ps| && IsStatusPart(ps[i])
  {
    if ps == [] then false
    else if IsStatusPart(ps[0]) then true
    else
      assert forall i :: 1 <= i < |ps| ==> ps[i] == ps[1..][i - 1];
      AnyStatusPart(ps[1..])
  }

  /** `_is_bounce`: its three tests, tried in order; the message counts as a bounce
      when any of them holds. */
  function IsBounce(msg: Part): (r: bool)
    ensures r <==> IsDeliveryReport(msg) || HasStatusPart(msg) || HasBounceSubject(msg)
  {
    if IsDeliveryReport(msg) then true
    else if AnyStatusPart(Walk(msg)) then true
    else HasBounceSubject(msg)
  }

  /** The address of one recipient field: the text after the first `;`, stripped,
      when there is a `;` (the address-type prefix dropped); then lower-cased. */
  function FieldAddress(v: string): (r: string)
    ensures IsLowered(r)
    ensures ';' !in v ==> r == Lower(v)
  {
    LowerIsLowered(if ';' in v then Strip(AfterFirst(v, ';')) else v);
    Lower(if ';' in v then Strip(AfterFirst(v, ';')) else v)
  }

  /** The two field names a status block is read for. */
  predicate IsRecipientKey(key: string) {
    key == "Final-Recipient" || key == "Original-Recipient"
  }

  /** The address a block's field `key` contributes, if the field is present and
      its value is not empty. */
  function FieldContribution(block: Part, key: string): set<string> {
    match Get(block.headers, key)
    case Some(v) => if v == [] then {} else {FieldAddress(v)}
    case None => {}
  }

  function BlockAddresses(block: Part): (r: set<string>)
    ensures forall a :: a in r <==>
      exists key :: IsRecipientKey(key) && a in FieldContribution(block, key)
  {
    FieldContribution(block, "Final-Recipient") + FieldContribution(block, "Original-Recipient")
  }

  function BlocksAddresses(blocks: seq<Part>): (r: set<string>)
    ensures forall a :: a in r <==> exists b :: 0 <= b < |blocks| && a in BlockAddresses(blocks[b])
  {
    if blocks == [] then {}
    else
      assert forall b :: 1 <= b < |blocks| ==> blocks[b] == blocks[1..][b - 1];
      BlockAddresses(blocks[0]) + BlocksAddresses(blocks[1..])
  }

  /** What one part of the walk contributes: the blocks of a status part whose
      payload the parser made into a list, nothing otherwise. */
  function PartAddresses(p: Part): set<string> {
    if IsStatusPart(p) && p.body.Children? then BlocksAddresses(p.body.parts) else {}
  }

  /** The loop over the walk, gathering into one set. */
  function CollectAddresses(ps: seq<Part>): (r: set<string>)
    ensures forall a :: a in r <==> exists i :: 0 <= i < |ps| && a in PartAddresses(ps[i])
  {
    if ps == [] then {}
    else
      assert forall i :: 1 <= i < |ps| ==> ps[i] == ps[1..][i - 1];
      PartAddresses(ps[0]) + CollectAddresses(ps[1..])
  }

  /** `_extract_bounce_recipients`: an address is in the result exactly when some
      status part of the walk has a block whose Final-Recipient or Original-Recipient
      field is non-empty and reads as that address. */
  function ExtractBounceRecipients(msg: Part): (r: set<string>)
    ensures forall a :: a in r <==>
      exists i, b, key :: 0 <= i < |Walk(msg)| && IsStatusPart(Walk(msg)[i]) && Walk(msg)[i].body.Children? &&
        0 <= b < |Walk(msg)[i].body.parts| && IsRecipientKey(key) &&
        a in FieldContribution(Walk(msg)[i].body.parts[b], key)
    ensures !HasStatusPart(msg) ==> r == {}
  {
    CollectAddresses(Walk(msg))
  }

  /** Every extracted address is lower-case. */
  lemma ExtractedAreLowered(msg: Part, a: string)
    requires a in ExtractBounceRecipients(msg)
    ensures IsLowered(a)
  {
    var i, b, key :| 0 <= i < |Walk(msg)| && IsStatusPart(Walk(msg)[i]) && Walk(msg)[i].body.Children? &&
      0 <= b < |Walk(msg)[i].body.parts| && IsRecipientKey(key) &&
      a in FieldContribution(Walk(msg)[i].body.parts[b], key);
    var v := Get(Walk(msg)[i].body.parts[b].headers, key).value;
    assert a == FieldAddress(v);
  }

  /** A field written `<type>; <address>` yields the address with the white space
      around it stripped, lower-cased; an address already stripped reads back as
      itself, lower-cased. */
  lemma FieldAddressOfTyped(addrType: string, addr: string)
    requires ';' !in addrType
    ensures FieldAddress(addrType + ";" + addr) == Lower(Strip(addr))
    ensures IsStripped(addr) ==> FieldAddress(addrType + ";" + addr) == Lower(addr)
  {
    AfterFirstOf(addrType, ';', addr);
    if IsStripped(addr) {
      StripOfStripped(addr);
    }
  }
}

=== FILE: contacts.dfy ===
/** `load_contacts` of src/replay-daemon.py: the subscribed rows in the order
    `ORDER BY rank ASC, id ASC` returns them, each as (rank, lower-cased address,
    token). */
module Contacts {
  import opened Text
  import opened Roster

  datatype Contact = Contact(rank: int, email: string, token: string)

  /** `a` comes before `b` in `(rank, id)` order. */
  predicate Precedes(a: Recipient, b: Recipient) {
    a.rank < b.rank || (a.rank == b.rank && a.id < b.id)
  }

  predicate SortedByRankId(rs: seq<Recipient>) {
    forall i, j :: 0 <= i < j < |rs| ==> !Precedes(rs[j], rs[i])
  }

  /** The rows `WHERE unsubscribed=0` selects, in table order. */
  function SubscribedRows(roster: Roster): (r: seq<Recipient>)
    ensures forall x :: x in r <==> x in roster && !x.unsubscribed
    ensures multiset(r) <= multiset(roster)
    ensures |r| <= |roster|
  {
    if roster == [] then []
    else
      assert roster == [roster[0]] + roster[1..];
      if roster[0].unsubscribed then SubscribedRows(roster[1..])
      else [roster[0]] + SubscribedRows(roster[1..])
  }

  function Insert(x: Recipient, rs: seq<Recipient>): (r: seq<Recipient>)
    requires SortedByRankId(rs)
    ensures SortedByRankId(r)
    ensures multiset(r) == multiset(rs) + multiset{x}
    ensures forall y :: y in r <==> y == x || y in rs
  {
    if rs == [] || !Precedes(rs[0], x) then
      SortedTail([x] + rs);
      [x] + rs
    else
      SortedTail(rs);
      var tail := Insert(x, rs[1..]);
      ConsSorted(rs[0], tail);
      assert rs == [rs[0]] + rs[1..];
      [rs[0]] + tail
  }

  /** A sorted list is its least element followed by a sorted list. */
  lemma SortedTail(rs: seq<Recipient>)
    requires rs != []
    ensures SortedByRankId(rs) <==>
      SortedByRankId(rs[1..]) && forall y :: y in rs[1..] ==> !Precedes(y, rs[0])
  {
    if SortedByRankId(rs[1..]) && forall y :: y in rs[1..] ==> !Precedes(y, rs[0]) {
      forall i, j | 0 <= i < j < |rs|
        ensures !Precedes(rs[j], rs[i])
      {
        assert rs[j] == rs[1..][j - 1];
        if i > 0 {
          assert rs[i] == rs[1..][i - 1];
        }
      }
    }
    if SortedByRankId(rs) {
      forall y | y in rs[1..]
        ensures !Precedes(y, rs[0])
      {
        var k :| 0 <= k < |rs[1..]| && rs[1..][k] == y;
        assert rs[k + 1] == y;
      }
    }
  }

  lemma ConsSorted(h: Recipient, tail: seq<Recipient>)
    requires SortedByRankId(tail) && forall y :: y in tail ==> !Precedes(y, h)
    ensures SortedByRankId([h] + tail)
  {
    SortedTail([h] + tail);
    assert ([h] + tail)[1..] == tail;
  }

  /** The rows sorted by `(rank, id)`: the same rows, in that order. */
  function SortByRankId(rs: seq<Recipient>): (r: seq<Recipient>)
    ensures SortedByRankId(r)
    ensures multiset(r) == multiset(rs)
  {
    if rs == [] then []
    else
      assert rs == [rs[0]] + rs[1..];
      Insert(rs[0], SortByRankId(rs[1..]))
  }

  function ToContacts(rs: seq<Recipient>): (r: seq<Contact>)
    ensures |r| == |rs|
    ensures forall i :: 0 <= i < |rs| ==> r[i] == Contact(rs[i].rank, Lower(rs[i].email), rs[i].token)
  {
    seq(|rs|, i requires 0 <= i < |rs| => Contact(rs[i].rank, Lower(rs[i].email), rs[i].token))
  }

  /** `load_contacts()` on the table `roster`. */
  function LoadContacts(roster: Roster): (r: seq<Contact>)
    ensures |r| <= |roster|
  {
    var rows := SubscribedRows(roster);
    var sorted := SortByRankId(rows);
    assert |sorted| == |rows| by {
      assert |sorted| == |multiset(sorted)| && |rows| == |multiset(rows)|;
    }
    ToContacts(sorted)
  }

  /** The contacts are the subscribed rows and nothing else, each exactly once when
      the table is valid, in ascending `(rank, id)` order, with lower-cased
      addresses. */
  lemma LoadContactsSpec(roster: Roster)
    ensures var order := SortByRankId(SubscribedRows(roster));
      && LoadContacts(roster) == ToContacts(order)
      && multiset(order) == multiset(SubscribedRows(roster))
      && (forall x :: x in order <==> x in roster && !x.unsubscribed)
      && (forall i, j :: 0 <= i < j < |order| ==> !Precedes(order[j], order[i]))
      && (forall k :: 0 <= k < |order| ==> IsLowered(LoadContacts(roster)[k].email))
  {
    var order := SortByRankId(SubscribedRows(roster));
    forall x
      ensures x in order <==> x in roster && !x.unsubscribed
    {
      assert x in order <==> x in multiset(order);
    }
    forall k | 0 <= k < |order|
      ensures IsLowered(LoadContacts(roster)[k].email)
    {
      LowerIsLowered(order[k].email);
    }
  }

  /** In a valid table the order is strict: ids tell equal ranks apart, and no row
      appears twice. */
  lemma LoadContactsStrict(roster: Roster)
    requires Valid(roster)
    ensures var order := SortByRankId(SubscribedRows(roster));
      forall i, j :: 0 <= i < j < |order| ==> Precedes(order[i], order[j])
  {
    var sub := SubscribedRows(roster);
    var order := SortByRankId(sub);
    LoadContactsSpec(roster);
    SubscribedDistinctIds(roster);
    forall i, j | 0 <= i < j < |order|
      ensures Precedes(order[i], order[j])
    {
      assert order[i] in roster && order[j] in roster;
      DistinctIdsInSorted(sub, order, i, j);
    }
  }

  predicate DistinctIds(rs: seq<Recipient>) {
    forall i, j :: 0 <= i < j < |rs| ==> rs[i].id != rs[j].id
  }

  lemma {:induction false} SubscribedDistinctIds(roster: Roster)
    requires IdsIncrease(roster)
    ensures DistinctIds(SubscribedRows(roster))
  {
    SubscribedIdsIncrease(roster);
  }

  lemma {:induction false} SubscribedIdsIncrease(roster: Roster)
    requires IdsIncrease(roster)
    ensures IdsIncrease(SubscribedRows(roster))
  {
    if roster != [] {
      var tail := roster[1..];
      IdsIncreaseTail(roster);
      SubscribedIdsIncrease(tail);
      if !roster[0].unsubscribed {
        IdsIncreaseCons(roster[0], SubscribedRows(tail));
      }
    }
  }

  lemma IdsIncreaseTail(rs: seq<Recipient>)
    requires rs != [] && IdsIncrease(rs)
    ensures IdsIncrease(rs[1..]) && forall y :: y in rs[1..] ==> rs[0].id < y.id
  {
    assert forall k :: 0 <= k < |rs[1..]| ==> rs[1..][k] == rs[k + 1];
  }

  lemma IdsIncreaseCons(h: Recipient, tail: seq<Recipient>)
    requires IdsIncrease(tail) && forall y :: y in tail ==> h.id < y.id
    ensures IdsIncrease([h] + tail)
  {
    var rs := [h] + tail;
    forall i, j | 0 <= i < j < |rs|
      ensures rs[i].id < rs[j].id
    {
      assert rs[j] == tail[j - 1];
      if i > 0 {
        assert rs[i] == tail[i - 1];
      }
    }
  }

  /** A permutation of a list with distinct ids has distinct ids, so two sorted
      positions cannot hold rows with the same id. */
  lemma DistinctIdsInSorted(sub: seq<Recipient>, order: seq<Recipient>, i: int, j: int)
    requires DistinctIds(sub) && multiset(order) == multiset(sub)
    requires 0 <= i < j < |order|
    ensures order[i].id != order[j].id
  {
    if order[i].id == order[j].id {
      assert order[i] in multiset(sub) && order[j] in multiset(sub);
      var a :| 0 <= a < |sub| && sub[a] == order[i];
      var b :| 0 <= b < |sub| && sub[b] == order[j];
      if a == b {
        assert order[i] == order[j];
        MultisetTwice(order, i, j);
        MultisetOnce(sub, a);
        assert false;
      }
    }
  }

  lemma MultisetTwice(s: seq<Recipient>, i: int, j: int)
    requires 0 <= i < j < |s| && s[i] == s[j]
    ensures multiset(s)[s[i]] >= 2
  {
    var x := s[i];
    assert s == s[..j] + [s[j]] + s[j + 1..];
    assert x in s[..j];
    assert multiset(s) == multiset(s[..j]) + multiset{x} + multiset(s[j + 1..]);
  }

  lemma {:induction false} MultisetOnce(s: seq<Recipient>, a: int)
    requires DistinctIds(s) && 0 <= a < |s|
    ensures multiset(s)[s[a]] == 1
  {
    var x := s[a];
    assert s == s[..a] + [x] + s[a + 1..];
    assert x !in s[..a] && x !in s[a + 1..] by {
      forall k | 0 <= k < |s| && k != a ensures s[k] != x {
        assert s[k].id != s[a].id;
      }
    }
    assert multiset(s) == multiset(s[..a]) + multiset{x} + multiset(s[a + 1..]);
  }
}

=== FILE: emails.dfy ===
/** Parsing of the email lists an administrator pastes into the console's bulk form
    (`_split_emails` in src/webserver.py). */
module Emails {
  import opened Text

  /** The characters of the class `[,\n\t:;]` the pasted list is split at. */
  predicate IsSeparator(c: char) {
    c == ',' || c == '\n' || c == '\t' || c == ':' || c == ';'
  }

  predicate NoSeparator(s: string) {
    forall i :: 0 <= i < |s| ==> !IsSeparator(s[i])
  }

  /** Length of the longest separator-free prefix of `s`. */
  function PieceLen(s: string): (n: nat)
    ensures n <= |s| && NoSeparator(s[..n])
    ensures n < |s| ==> IsSeparator(s[n])
  {
    if s == [] || IsSeparator(s[0]) then 0
    else
      var k := PieceLen(s[1..]);
      assert s[..k + 1] == [s[0]] + s[1..][..k];
      1 + k
  }

  /** Length of the run of separators that `s` starts with. */
  function RunLen(s: string): (n: nat)
    ensures n <= |s|
    ensures forall i :: 0 <= i < n ==> IsSeparator(s[i])
    ensures n < |s| ==> !IsSeparator(s[n])
  {
    if s != [] && IsSeparator(s[0]) then 1 + RunLen(s[1..]) else 0
  }

  /** `re.split(r"[,\n\t:;]+", s)`: the pieces between maximal runs of separators,
      with an empty piece before a leading run and after a trailing one. */
  function SplitRuns(s: string): (r: seq<string>)
    ensures |r| >= 1
    decreases |s|
  {
    var n := PieceLen(s);
    if n == |s| then [s]
    else
      var m := RunLen(s[n..]);
      [s[..n]] + SplitRuns(s[n..][m..])
  }

  /** No piece of `SplitRuns(s)` holds a separator. */
  lemma {:induction false} SplitRunsPieces(s: string)
    ensures forall i :: 0 <= i < |SplitRuns(s)| ==> NoSeparator(SplitRuns(s)[i])
    decreases |s|
  {
    var n := PieceLen(s);
    if n < |s| {
      SplitRunsPieces(s[n..][RunLen(s[n..])..]);
    }
  }

  /** The stripped, lowered form of one piece. */
  function CleanEntry(p: string): string {
    Lower(Strip(p))
  }

  /** What one piece contributes after cleaning: its image, unless that is empty. */
  function Kept(f: string -> string, p: string): seq<string> {
    if f(p) == [] then [] else [f(p)]
  }

  /** The images of `ps` under `f`, in order, with the empty ones dropped. The
      splitting lemmas below hold for any `f`; `_split_emails` uses `CleanEntry`. */
  function Clean(f: string -> string, ps: seq<string>): seq<string> {
    if ps == [] then [] else Kept(f, ps[0]) + Clean(f, ps[1..])
  }

  /** What an entry of the pasted list ends up as: non-empty, lower-case, stripped,
      and free of separators. */
  predicate IsCleanAddress(e: string) {
    e != [] && IsLowered(e) && IsStripped(e) && NoSeparator(e)
  }

  predicate AllClean(r: seq<string>) {
    forall i :: 0 <= i < |r| ==> IsCleanAddress(r[i])
  }

  /** `_split_emails`. */
  function SplitEmails(blob: string): (r: seq<string>)
    ensures blob == [] ==> r == []
    ensures AllClean(r)
  {
    if blob == [] then []
    else
      SplitRunsPieces(blob);
      CleanedAreClean(SplitRuns(blob));
      Clean(CleanEntry, SplitRuns(blob))
  }

  /** Cleaning keeps each entry's characters, so separator-free pieces give clean
      addresses. */
  lemma {:induction false} CleanedAreClean(ps: seq<string>)
    requires forall i :: 0 <= i < |ps| ==> NoSeparator(ps[i])
    ensures AllClean(Clean(CleanEntry, ps))
  {
    if ps != [] {
      CleanEntryIsClean(ps[0]);
      assert forall i :: 0 <= i < |ps[1..]| ==> NoSeparator(ps[1..][i]) by {
        forall i | 0 <= i < |ps[1..]|
          ensures NoSeparator(ps[1..][i])
        {
          assert ps[1..][i] == ps[i + 1];
        }
      }
      CleanedAreClean(ps[1..]);
      AllCleanAppend(Kept(CleanEntry, ps[0]), Clean(CleanEntry, ps[1..]));
    }
  }

  lemma AllCleanAppend(x: seq<string>, y: seq<string>)
    requires AllClean(x) && AllClean(y)
    ensures AllClean(x + y)
  {
    forall i | 0 <= i < |x + y|
      ensures IsCleanAddress((x + y)[i])
    {
      if i < |x| {
        assert (x + y)[i] == x[i];
      } else {
        assert (x + y)[i] == y[i - |x|];
      }
    }
  }

  lemma CleanEntryIsClean(p: string)
    requires NoSeparator(p)
    ensures CleanEntry(p) != [] ==> IsCleanAddress(CleanEntry(p))
  {
    var s := Strip(p);
    StripKeepsNoSeparator(p);
    LowerIsLowered(s);
    LowerKeepsStripped(s);
    LowerKeepsNoSeparator(s);
  }

  lemma StripKeepsNoSeparator(p: string)
    requires NoSeparator(p)
    ensures NoSeparator(Strip(p))
  {
    var k := StripFrom(p);
    NoSeparatorSlice(p, k, k + |Strip(p)|);
  }

  lemma NoSeparatorSlice(p: string, i: nat, j: nat)
    requires NoSeparator(p) && i <= j <= |p|
    ensures NoSeparator(p[i..j])
  {
    forall k | 0 <= k < j - i
      ensures !IsSeparator(p[i..j][k])
    {
      assert p[i..j][k] == p[i + k];
    }
  }

  lemma LowerKeepsNoSeparator(s: string)
    requires NoSeparator(s)
    ensures NoSeparator(Lower(s))
  {
    var l := Lower(s);
    forall i | 0 <= i < |l|
      ensures !IsSeparator(l[i])
    {
      assert l[i] == LowerChar(s[i]);
    }
  }

  lemma Associative<T>(a: seq<T>, b: seq<T>, c: seq<T>)
    ensures a + (b + c) == (a + b) + c
  {
  }

  /** One unfolding of `Clean` on a sequence written as a head and a tail. */
  lemma CleanUnfold(f: string -> string, head: string, x: seq<string>)
    ensures Clean(f, [head] + x) == Kept(f, head) + Clean(f, x)
  {
    assert ([head] + x)[0] == head && ([head] + x)[1..] == x;
  }

  lemma CleanSingle(f: string -> string, p: string)
    ensures Clean(f, [p]) == Kept(f, p)
  {
    CleanUnfold(f, p, []);
    assert [p] + [] == [p];
    assert Kept(f, p) + [] == Kept(f, p);
  }

  lemma {:induction false} CleanAppend(f: string -> string, a: seq<string>, b: seq<string>)
    ensures Clean(f, a + b) == Clean(f, a) + Clean(f, b)
  {
    if a == [] {
      assert a + b == b;
    } else {
      var h := a[0];
      assert a + b == [h] + (a[1..] + b);
      assert a == [h] + a[1..];
      calc {
        Clean(f, a + b);
      == { CleanUnfold(f, h, a[1..] + b); }
        Kept(f, h) + Clean(f, a[1..] + b);
      == { CleanAppend(f, a[1..], b); }
        Kept(f, h) + (Clean(f, a[1..]) + Clean(f, b));
      == { Associative(Kept(f, h), Clean(f, a[1..]), Clean(f, b)); }
        (Kept(f, h) + Clean(f, a[1..])) + Clean(f, b);
      == { CleanUnfold(f, h, a[1..]); }
        Clean(f, a) + Clean(f, b);
      }
    }
  }

  /** `RunLen` of a text that starts with a separator. */
  lemma RunLenCons(sep: char, b: string)
    requires IsSeparator(sep)
    ensures RunLen([sep] + b) == 1 + RunLen(b)
  {
    assert ([sep] + b)[0] == sep && ([sep] + b)[1..] == b;
  }

  /** A leading separator run only contributes an empty piece, which cleaning drops. */
  lemma {:induction false} LeadingRunDropped(f: string -> string, b: string)
    requires f([]) == []
    ensures Clean(f, SplitRuns(b)) == Clean(f, SplitRuns(b[RunLen(b)..]))
  {
    var k := RunLen(b);
    if k > 0 {
      assert PieceLen(b) == 0;
      assert b[..0] == [] && b[0..] == b;
      SplitRunsAt(b, 0, k, [], b[k..]);
      CleanUnfold(f, [], SplitRuns(b[k..]));
      assert Kept(f, []) == [];
      assert [] + Clean(f, SplitRuns(b[k..])) == Clean(f, SplitRuns(b[k..]));
    }
  }

  lemma {:induction false} RunLenAppend(a: string, b: string)
    requires RunLen(a) < |a|
    ensures RunLen(a + b) == RunLen(a)
  {
    if IsSeparator(a[0]) {
      assert (a + b)[0] == a[0];
      assert (a + b)[1..] == a[1..] + b;
      RunLenAppend(a[1..], b);
    } else {
      assert (a + b)[0] == a[0];
    }
  }

  lemma {:induction false} RunLenAllSeparators(a: string, b: string)
    requires forall i :: 0 <= i < |a| ==> IsSeparator(a[i])
    ensures RunLen(a + b) == |a| + RunLen(b)
  {
    if a != [] {
      assert (a + b)[0] == a[0];
      assert (a + b)[1..] == a[1..] + b;
      RunLenAllSeparators(a[1..], b);
      assert RunLen(a + b) == 1 + RunLen(a[1..] + b);
    } else {
      assert a + b == b;
    }
  }

  lemma {:induction false} PieceLenAppend(a: string, b: string)
    requires PieceLen(a) < |a|
    ensures PieceLen(a + b) == PieceLen(a)
  {
    if a != [] && !IsSeparator(a[0]) {
      assert (a + b)[1..] == a[1..] + b;
      PieceLenAppend(a[1..], b);
    }
  }

  lemma {:induction false} PieceLenNoSeparator(a: string, b: string)
    requires NoSeparator(a)
    ensures PieceLen(a + b) == |a| + PieceLen(b)
  {
    if a != [] {
      assert (a + b)[0] == a[0];
      assert (a + b)[1..] == a[1..] + b;
      PieceLenNoSeparator(a[1..], b);
      assert PieceLen(a + b) == 1 + PieceLen(a[1..] + b);
    } else {
      assert a + b == b;
    }
  }

  /** The two sides of position `n` in `a + [sep] + b`, for `n` inside `a`. */
  lemma JoinFrom<T>(a: seq<T>, sep: T, b: seq<T>, n: nat)
    requires n <= |a|
    ensures (a + [sep] + b)[n..] == a[n..] + [sep] + b
  {
  }

  lemma JoinBefore<T>(a: seq<T>, sep: T, b: seq<T>, n: nat)
    requires n <= |a|
    ensures (a + [sep] + b)[..n] == a[..n]
  {
  }

  /** What follows the separator and the first `k` characters of `b`. */
  lemma JoinAfter<T>(a: seq<T>, sep: T, b: seq<T>, k: nat)
    requires k <= |b|
    ensures (a + [sep] + b)[|a| + 1 + k..] == b[k..]
  {
  }

  /** The first piece of `a + [sep] + b` when `a` holds no separator is `a`. */
  lemma PieceLenOfJoin(a: string, sep: char, b: string)
    requires IsSeparator(sep) && NoSeparator(a)
    ensures PieceLen(a + [sep] + b) == |a|
  {
    assert a + [sep] + b == a + ([sep] + b);
    PieceLenNoSeparator(a, [sep] + b);
    assert ([sep] + b)[0] == sep;
  }

  /** The first piece of `a + [sep] + b` is that of `a` when `a` holds a separator. */
  lemma PieceLenJoinPrefix(a: string, sep: char, b: string)
    requires PieceLen(a) < |a|
    ensures PieceLen(a + [sep] + b) == PieceLen(a)
  {
    assert a + [sep] + b == a + ([sep] + b);
    PieceLenAppend(a, [sep] + b);
  }

  /** A run of separators, `sep` and `b` start with one run covering `sep`. */
  lemma RunLenOfRun(rest: string, sep: char, b: string)
    requires IsSeparator(sep) && RunLen(rest) == |rest|
    ensures RunLen(rest + [sep] + b) == |rest| + 1 + RunLen(b)
  {
    var t := rest + [sep];
    forall i | 0 <= i < |t|
      ensures IsSeparator(t[i])
    {
      if i < |rest| {
        assert t[i] == rest[i];
      }
    }
    RunLenAllSeparators(t, b);
  }

  /** A separator run of `rest` that ends before `rest` does is also the run of
      `rest + [sep] + b`. */
  lemma RunLenJoinPrefix(rest: string, sep: char, b: string)
    requires RunLen(rest) < |rest|
    ensures RunLen(rest + [sep] + b) == RunLen(rest)
  {
    assert rest + [sep] + b == rest + ([sep] + b);
    RunLenAppend(rest, [sep] + b);
  }

  /** One unfolding of `SplitRuns` on a text that contains a separator: the first
      piece, then the pieces of what follows the first separator run. */
  lemma SplitRunsAt(s: string, n: nat, m: nat, head: string, rest: string)
    requires n == PieceLen(s) && n < |s|
    requires n + m <= |s| && m == RunLen(s[n..])
    requires head == s[..n] && rest == s[n + m..]
    ensures SplitRuns(s) == [head] + SplitRuns(rest)
  {
    assert s[n..][m..] == s[n + m..];
  }

  /** The pieces of `a + [sep] + b` when `a` holds no separator: `a`, then the
      pieces after the separator run that `sep` starts. */
  lemma SplitRunsAfterPiece(a: string, sep: char, b: string)
    requires IsSeparator(sep) && NoSeparator(a)
    ensures SplitRuns(a + [sep] + b) == [a] + SplitRuns(b[RunLen(b)..])
  {
    var s := a + [sep] + b;
    var n := |a|;
    var k := RunLen(b);
    PieceLenOfJoin(a, sep, b);
    JoinWhole(a, sep, b);
    RunLenAfterPiece(a, sep, b);
    JoinAfter(a, sep, b, k);
    SplitRunsAt(s, n, 1 + k, a, b[k..]);
  }

  lemma JoinWhole<T>(a: seq<T>, sep: T, b: seq<T>)
    ensures (a + [sep] + b)[..|a|] == a
  {
  }

  lemma RunLenAfterPiece(a: string, sep: char, b: string)
    requires IsSeparator(sep)
    ensures RunLen((a + [sep] + b)[|a|..]) == 1 + RunLen(b)
  {
    assert (a + [sep] + b)[|a|..] == [sep] + b;
    RunLenCons(sep, b);
  }

  lemma SplitRunsOfPiece(a: string)
    requires NoSeparator(a)
    ensures SplitRuns(a) == [a]
  {
    PieceLenNoSeparator(a, []);
    assert a + [] == a;
  }

  /** Case of `SplitRunsAppend` where `a` holds no separator. */
  lemma {:induction false} SplitRunsAppendPiece(f: string -> string, a: string, sep: char, b: string)
    requires f([]) == []
    requires IsSeparator(sep) && NoSeparator(a)
    ensures Clean(f, SplitRuns(a + [sep] + b)) == Clean(f, SplitRuns(a)) + Clean(f, SplitRuns(b))
  {
    var k := RunLen(b);
    calc {
      Clean(f, SplitRuns(a + [sep] + b));
    == { SplitRunsAfterPiece(a, sep, b); }
      Clean(f, [a] + SplitRuns(b[k..]));
    == { CleanUnfold(f, a, SplitRuns(b[k..])); }
      Kept(f, a) + Clean(f, SplitRuns(b[k..]));
    == { LeadingRunDropped(f, b); }
      Kept(f, a) + Clean(f, SplitRuns(b));
    == { SplitRunsOfPiece(a); CleanSingle(f, a); }
      Clean(f, SplitRuns(a)) + Clean(f, SplitRuns(b));
    }
  }

  /** The pieces of `a + [sep] + b` when `a` ends with its first separator run: the
      first piece of `a`, then the pieces after the run that `sep` extends. */
  lemma SplitRunsAfterTrailing(a: string, sep: char, b: string)
    requires IsSeparator(sep) && PieceLen(a) < |a|
    requires PieceLen(a) + RunLen(a[PieceLen(a)..]) == |a|
    ensures SplitRuns(a + [sep] + b) == [a[..PieceLen(a)]] + SplitRuns(b[RunLen(b)..])
  {
    var s := a + [sep] + b;
    var n := PieceLen(a);
    var k := RunLen(b);
    var m := |a| - n + 1 + k;
    PieceLenJoinPrefix(a, sep, b);
    JoinBefore(a, sep, b, n);
    RunLenOfTrailing(a, sep, b, n);
    JoinAfter(a, sep, b, k);
    SplitRunsAt(s, n, m, a[..n], b[k..]);
  }

  /** After its first piece, a text `a` that ends with its first separator run
      joins that run with `sep` and the run `b` starts with. */
  lemma RunLenOfTrailing(a: string, sep: char, b: string, n: nat)
    requires IsSeparator(sep) && n <= |a| && n + RunLen(a[n..]) == |a|
    ensures RunLen((a + [sep] + b)[n..]) == |a| - n + 1 + RunLen(b)
  {
    JoinFrom(a, sep, b, n);
    RunLenOfRun(a[n..], sep, b);
  }

  lemma SplitRunsOfTrailing(a: string)
    requires PieceLen(a) < |a|
    requires PieceLen(a) + RunLen(a[PieceLen(a)..]) == |a|
    ensures SplitRuns(a) == [a[..PieceLen(a)]] + SplitRuns([])
  {
    var n := PieceLen(a);
    var m := RunLen(a[n..]);
    assert a[n + m..] == [];
    SplitRunsAt(a, n, m, a[..n], []);
  }

  /** Case of `SplitRunsAppend` where `a` ends with a separator run. */
  lemma {:induction false} SplitRunsAppendTrailing(f: string -> string, a: string, sep: char, b: string)
    requires f([]) == []
    requires IsSeparator(sep) && PieceLen(a) < |a|
    requires PieceLen(a) + RunLen(a[PieceLen(a)..]) == |a|
    ensures Clean(f, SplitRuns(a + [sep] + b)) == Clean(f, SplitRuns(a)) + Clean(f, SplitRuns(b))
  {
    var head := a[..PieceLen(a)];
    var k := RunLen(b);
    calc {
      Clean(f, SplitRuns(a + [sep] + b));
    == { SplitRunsAfterTrailing(a, sep, b); }
      Clean(f, [head] + SplitRuns(b[k..]));
    == { CleanUnfold(f, head, SplitRuns(b[k..])); }
      Kept(f, head) + Clean(f, SplitRuns(b[k..]));
    == { LeadingRunDropped(f, b); }
      Kept(f, head) + Clean(f, SplitRuns(b));
    == { EmptySplit(f); assert Kept(f, head) + [] == Kept(f, head); }
      (Kept(f, head) + Clean(f, SplitRuns([]))) + Clean(f, SplitRuns(b));
    == { CleanUnfold(f, head, SplitRuns([])); }
      Clean(f, [head] + SplitRuns([])) + Clean(f, SplitRuns(b));
    == { SplitRunsOfTrailing(a); }
      Clean(f, SplitRuns(a)) + Clean(f, SplitRuns(b));
    }
  }

  /** Splitting at one more separator between two texts gives the entries of the
      first text followed by those of the second: entries keep their order of
      appearance and no entry is lost or merged. */
  lemma {:induction false} SplitRunsAppend(f: string -> string, a: string, sep: char, b: string)
    requires f([]) == []
    requires IsSeparator(sep)
    ensures Clean(f, SplitRuns(a + [sep] + b)) == Clean(f, SplitRuns(a)) + Clean(f, SplitRuns(b))
    decreases |a|, 1
  {
    var n := PieceLen(a);
    if n == |a| {
      assert a[..n] == a;
      SplitRunsAppendPiece(f, a, sep, b);
    } else if n + RunLen(a[n..]) == |a| {
      SplitRunsAppendTrailing(f, a, sep, b);
    } else {
      SplitRunsAppendInner(f, a, sep, b);
    }
  }

  /** When a separator run of `a` is followed by more text, `a` and `a + [sep] + b`
      share their first piece, and what follows it is the rest of `a`. */
  lemma SplitRunsInnerShape(a: string, sep: char, b: string, n: nat, m: nat, head: string, tail: string)
    requires IsSeparator(sep) && n == PieceLen(a) && n < |a|
    requires m == RunLen(a[n..]) && n + m < |a|
    requires head == a[..n] && tail == a[n + m..]
    ensures SplitRuns(a + [sep] + b) == [head] + SplitRuns(tail + [sep] + b)
  {
    PieceLenJoinPrefix(a, sep, b);
    JoinBefore(a, sep, b, n);
    RunLenOfInner(a, sep, b, n);
    JoinFrom(a, sep, b, n + m);
    SplitRunsAt(a + [sep] + b, n, m, head, tail + [sep] + b);
  }

  /** The first piece of a text that holds a separator is followed by a non-empty run. */
  lemma RunAfterPiece(a: string)
    requires PieceLen(a) < |a|
    ensures RunLen(a[PieceLen(a)..]) >= 1
  {
    var n := PieceLen(a);
    assert a[n..][0] == a[n];
  }

  /** After its first piece, a separator run of `a` that more text follows is also
      the run of `a + [sep] + b` there. */
  lemma RunLenOfInner(a: string, sep: char, b: string, n: nat)
    requires n <= |a| && n + RunLen(a[n..]) < |a|
    ensures RunLen((a + [sep] + b)[n..]) == RunLen(a[n..])
  {
    JoinFrom(a, sep, b, n);
    RunLenJoinPrefix(a[n..], sep, b);
  }

  /** Case of `SplitRunsAppend` where a separator run of `a` is followed by more text. */
  lemma {:induction false} SplitRunsAppendInner(f: string -> string, a: string, sep: char, b: string)
    requires f([]) == []
    requires IsSeparator(sep) && PieceLen(a) < |a|
    requires PieceLen(a) + RunLen(a[PieceLen(a)..]) < |a|
    ensures Clean(f, SplitRuns(a + [sep] + b)) == Clean(f, SplitRuns(a)) + Clean(f, SplitRuns(b))
    decreases |a|, 0
  {
    var n := PieceLen(a);
    var tail := a[n + RunLen(a[n..])..];
    var head := a[..n];
    RunAfterPiece(a);
    calc {
      Clean(f, SplitRuns(a + [sep] + b));
    == { SplitRunsInnerShape(a, sep, b, n, RunLen(a[n..]), head, tail); }
      Clean(f, [head] + SplitRuns(tail + [sep] + b));
    == { CleanUnfold(f, head, SplitRuns(tail + [sep] + b)); }
      Kept(f, head) + Clean(f, SplitRuns(tail + [sep] + b));
    == { SplitRunsAppend(f, tail, sep, b); }
      Kept(f, head) + (Clean(f, SplitRuns(tail)) + Clean(f, SplitRuns(b)));
    == { Associative(Kept(f, head), Clean(f, SplitRuns(tail)), Clean(f, SplitRuns(b))); }
      (Kept(f, head) + Clean(f, SplitRuns(tail))) + Clean(f, SplitRuns(b));
    == { CleanUnfold(f, head, SplitRuns(tail)); }
      Clean(f, [head] + SplitRuns(tail)) + Clean(f, SplitRuns(b));
    == { SplitRunsAt(a, n, RunLen(a[n..]), head, tail); }
      Clean(f, SplitRuns(a)) + Clean(f, SplitRuns(b));
    }
  }

  lemma {:induction false} SplitEmailsAppend(a: string, sep: char, b: string)
    requires IsSeparator(sep)
    ensures SplitEmails(a + [sep] + b) == SplitEmails(a) + SplitEmails(b)
  {
    assert CleanEntry([]) == [];
    SplitRunsAppend(CleanEntry, a, sep, b);
    EmptySplit(CleanEntry);
  }

  lemma EmptySplit(f: string -> string)
    requires f([]) == []
    ensures Clean(f, SplitRuns([])) == []
  {
    assert SplitRuns([]) == [[]];
    CleanSingle(f, []);
  }

  /** The list the bulk form would receive for `emails`, comma-separated. */
  function JoinWithCommas(emails: seq<string>): string {
    if emails == [] then []
    else if |emails| == 1 then emails[0]
    else emails[0] + [','] + JoinWithCommas(emails[1..])
  }

  lemma {:induction false} SplitEmailsSingle(e: string)
    requires IsCleanAddress(e)
    ensures SplitEmails(e) == [e]
  {
    SplitRunsOfPiece(e);
    CleanSingle(CleanEntry, e);
    StripOfStripped(e);
    LowerOfLowered(e);
    assert CleanEntry(e) == e;
  }

  /** One more address in front of a non-empty list that already splits back. */
  lemma JoinCons(e: string, rest: seq<string>)
    requires IsCleanAddress(e) && rest != []
    requires SplitEmails(JoinWithCommas(rest)) == rest
    ensures SplitEmails(JoinWithCommas([e] + rest)) == [e] + rest
  {
    var emails := [e] + rest;
    assert emails[0] == e && emails[1..] == rest;
    calc {
      SplitEmails(JoinWithCommas(emails));
      SplitEmails(e + [','] + JoinWithCommas(rest));
    == { SplitEmailsAppend(e, ',', JoinWithCommas(rest)); }
      SplitEmails(e) + SplitEmails(JoinWithCommas(rest));
    == { SplitEmailsSingle(e); }
      [e] + rest;
    }
  }

  /** Joining clean addresses with commas and splitting again gives them back, in
      order. */
  lemma {:induction false} SplitJoinRoundTrip(emails: seq<string>)
    requires forall i :: 0 <= i < |emails| ==> IsCleanAddress(emails[i])
    ensures SplitEmails(JoinWithCommas(emails)) == emails
  {
    if |emails| == 1 {
      SplitEmailsSingle(emails[0]);
      assert JoinWithCommas(emails) == emails[0];
    } else if |emails| > 1 {
      SplitJoinRoundTrip(emails[1..]);
      JoinCons(emails[0], emails[1..]);
      assert [emails[0]] + emails[1..] == emails;
    }
  }
}

=== FILE: endtoend.dfy ===
/** Properties that span the two programs: the link the relay writes into a copy is
    one the web console accepts, and an address that bounced or unsubscribed stops
    receiving broadcasts from the next pass on. */
module EndToEnd {
  import opened Wrappers
  import opened Text
  import opened Emails
  import opened Roster
  import opened Admin
  import opened Unsubscribe
  import opened UrlCodec
  import opened Bounce
  import opened Rewrite
  import opened Contacts
  import opened Relay

  /** Every address in the table is lower-case, as the console stores them. */
  predicate LoweredEmails(roster: Roster) {
    forall i :: 0 <= i < |roster| ==> IsLowered(roster[i].email)
  }

  /** A hexadecimal digest: non-empty ASCII for every input. */
  ghost predicate IsDigestLike(mac: string -> string) {
    forall x :: mac(x) != [] && IsAscii(mac(x))
  }

  /** The contact a row of the table yields. */
  lemma ContactOfRow(roster: Roster, k: nat) returns (i: nat)
    requires LoweredEmails(roster) && k < |LoadContacts(roster)|
    ensures i < |roster| && !roster[i].unsubscribed
    ensures LoadContacts(roster)[k] == Contact(roster[i].rank, roster[i].email, roster[i].token)
  {
    LoadContactsSpec(roster);
    var order := SortByRankId(SubscribedRows(roster));
    var row := order[k];
    assert row in order;
    i :| 0 <= i < |roster| && roster[i] == row;
    LowerOfLowered(row.email);
  }

  /** The unsubscribe link in the copy sent to any contact, opened as it was written,
      unsubscribes that contact: the endpoint answers 200 and flags the contact's row.
      The relay and the console share the keyed hash; the base URL and path hold no
      `?`; the address and token are not empty. */
  lemma LinkUnsubscribes(cfg: RelayConfig, roster: Roster, k: nat, now: Timestamp)
    requires Valid(roster) && LoweredEmails(roster)
    requires k < |LoadContacts(roster)|
    requires '?' !in cfg.publicBaseUrl + cfg.unsubscribePath
    requires IsDigestLike(cfg.mac)
    requires LoadContacts(roster)[k].email != [] && LoadContacts(roster)[k].token != []
    ensures var c := LoadContacts(roster)[k];
      var args := ParseQuery(QueryOf(BuildUnsubLink(cfg, c.email, c.token)));
      var r := Unsub(roster, cfg.mac, Lookup(args, "e"), Lookup(args, "t"), Lookup(args, "s"), now);
      && r.status == 200
      && forall i :: 0 <= i < |roster| && roster[i].email == c.email ==> r.roster[i].unsubscribed
  {
    var c := LoadContacts(roster)[k];
    var i := ContactOfRow(roster, k);
    LinkCarriesArguments(cfg, c.email, c.token);
    RowAuthorized(roster, cfg.mac, i);
    UnsubAccepts(roster, cfg.mac, c.email, c.token, Sign(cfg.mac, c.email, c.token), now);
  }

  lemma UnsubAccepts(roster: Roster, mac: string -> string, e: string, t: string, s: string, now: Timestamp)
    requires Authorized(roster, mac, Lower(e), t, s)
    ensures var r := Unsub(roster, mac, Some(e), Some(t), Some(s), now);
      && r.status == 200
      && forall i :: 0 <= i < |roster| && roster[i].email == Lower(e) ==> r.roster[i].unsubscribed
  {
  }

  /** The signed pair of any row of a valid table passes every check of the endpoint. */
  lemma RowAuthorized(roster: Roster, mac: string -> string, i: nat)
    requires Valid(roster) && LoweredEmails(roster) && i < |roster|
    requires IsDigestLike(mac)
    requires roster[i].email != [] && roster[i].token != []
    ensures Authorized(roster, mac, Lower(roster[i].email), roster[i].token,
                       Sign(mac, roster[i].email, roster[i].token))
  {
    LowerOfLowered(roster[i].email);
    var f := FindRow(roster, roster[i].email);
    assert f == Some(i);
  }

  /** After a successful unsubscribe no contact of the next pass has that address. */
  lemma UnsubscribedLeavesContacts(roster: Roster, mac: string -> string, e: Option<string>,
                                   t: Option<string>, s: Option<string>, now: Timestamp)
    requires LoweredEmails(roster)
    requires Unsub(roster, mac, e, t, s, now).status == 200
    ensures var after := Unsub(roster, mac, e, t, s, now).roster;
      forall k :: 0 <= k < |LoadContacts(after)| ==> LoadContacts(after)[k].email != Lower(e.GetOr([]))
  {
    var after := Unsub(roster, mac, e, t, s, now).roster;
    assert LoweredEmails(after);
    forall k | 0 <= k < |LoadContacts(after)|
      ensures LoadContacts(after)[k].email != Lower(e.GetOr([]))
    {
      var i := ContactOfRow(after, k);
    }
  }

  /** After a bounce step no contact of the next pass has a bounced address. */
  lemma BouncedLeaveContacts(settings: Settings, contacts: seq<Contact>, store: Store, msg: Mime.Part,
                             date: Timestamp, stamp: string -> Timestamp, failingSend: Option<nat>)
    requires LoweredEmails(store.roster)
    requires !ReadCursor(store.config).Unreadable? && !Ignored(settings, store, msg, date)
    requires IsBounce(msg)
    ensures var after := Step(settings, contacts, store, msg, date, stamp, failingSend).store.roster;
      forall k :: 0 <= k < |LoadContacts(after)| ==> LoadContacts(after)[k].email !in ExtractBounceRecipients(msg)
  {
    var after := Step(settings, contacts, store, msg, date, stamp, failingSend).store.roster;
    StepBounce(settings, contacts, store, msg, date, stamp, failingSend);
    assert LoweredEmails(after);
    forall k | 0 <= k < |LoadContacts(after)|
      ensures LoadContacts(after)[k].email !in ExtractBounceRecipients(msg)
    {
      var i := ContactOfRow(after, k);
    }
  }

  /** A bulk action over lower-case addresses keeps the table lower-case. */
  lemma BulkKeepsLowered(roster: Roster, emails: seq<string>, subscribe: bool,
                         clock: nat -> Timestamp, newToken: nat -> string)
    requires LoweredEmails(roster)
    requires forall j :: 0 <= j < |emails| ==> IsLowered(emails[j])
    ensures LoweredEmails(Bulk(roster, emails, subscribe, clock, newToken))
  {
    var r := Bulk(roster, emails, subscribe, clock, newToken);
    BulkKeeps(roster, emails, subscribe, clock, newToken);
    forall i | |roster| <= i < |r|
      ensures IsLowered(r[i].email)
    {
      var j :| 0 <= j < |emails| && emails[j] == r[i].email;
    }
  }

  /** Whatever the administrator posts, every address in the table stays lower-case:
      the pasted list is split into clean addresses, and an edited row's address is
      lower-cased. */
  lemma ManageKeepsLowered(roster: Roster, action: string, bulkInput: string, rows: seq<FormRow>,
                           clock: nat -> Timestamp, newToken: nat -> string)
    requires LoweredEmails(roster)
    ensures LoweredEmails(Manage(roster, action, bulkInput, rows, clock, newToken).roster)
  {
    if action == "bulk_subscribe" || action == "bulk_unsubscribe" {
      var emails := SplitEmails(bulkInput);
      assert forall j :: 0 <= j < |emails| ==> IsLowered(emails[j]) by {
        assert AllClean(emails);
      }
      BulkKeepsLowered(roster, emails, action == "bulk_subscribe", clock, newToken);
    } else if action == "save_existing" {
      SaveExistingKeepsLowered(roster, rows, clock);
    }
  }

  /** The unsubscribe endpoint keeps the table lower-case. */
  lemma UnsubKeepsLowered(roster: Roster, mac: string -> string, e: Option<string>,
                          t: Option<string>, s: Option<string>, now: Timestamp)
    requires LoweredEmails(roster)
    ensures LoweredEmails(Unsub(roster, mac, e, t, s, now).roster)
  {
    var r := Unsub(roster, mac, e, t, s, now);
    if r.status == 200 {
      assert forall i :: 0 <= i < |roster| ==> r.roster[i].email == roster[i].email;
    }
  }

  /** A relay pass keeps the table lower-case: it never writes an address. */
  lemma PassKeepsLowered(settings: Settings, store: Store, inbox: seq<Inbound>)
    requires LoweredEmails(store.roster)
    ensures LoweredEmails(Pass(settings, store, inbox).store.roster)
  {
    PassKeepsEmails(settings, LoadContacts(store.roster), store, inbox);
  }
}

=== FILE: mime.dfy ===
/** Messages as the relay sees them once the standard library has parsed them: a tree of
    parts, each with an ordered header list, a content type and either decoded text or a
    list of sub-parts. The header operations are those of Python's `email.message`
    (`in`, `get`, `replace_header`, item assignment), which src/replay-daemon.py uses
    through `set_or_replace`. */
module Mime {
  import opened Wrappers
  import opened Text

  /** One header field; names compare case-insensitively. */
  datatype Field = Field(name: string, value: string)

  type Headers = seq<Field>

  predicate NameIs(f: Field, key: string) {
    Lower(f.name) == Lower(key)
  }

  /** `key in msg`. */
  predicate HasField(hs: Headers, key: string) {
    exists i :: 0 <= i < |hs| && NameIs(hs[i], key)
  }

  /** Position of the first field named `key`. */
  function FirstIndex(hs: Headers, key: string): (r: nat)
    requires HasField(hs, key)
    ensures r < |hs| && NameIs(hs[r], key)
    ensures forall j :: 0 <= j < r ==> !NameIs(hs[j], key)
  {
    if NameIs(hs[0], key) then 0
    else
      assert HasField(hs[1..], key) by {
        var i :| 0 <= i < |hs| && NameIs(hs[i], key);
        assert hs[1..][i - 1] == hs[i];
      }
      1 + FirstIndex(hs[1..], key)
  }

  /** `msg.get(key)`: the value of the first field named `key`. */
  function Get(hs: Headers, key: string): (r: Option<string>)
    ensures r.None? <==> !HasField(hs, key)
    ensures r.Some? ==> r.value == hs[FirstIndex(hs, key)].value
  {
    if HasField(hs, key) then Some(hs[FirstIndex(hs, key)].value) else None
  }

  /** `set_or_replace(hdrs, k, v)`: `replace_header` when the name is present, which
      rewrites the first such field in place under its original spelling; otherwise
      the field is appended. */
  function SetOrReplace(hs: Headers, key: string, v: string): (r: Headers)
    ensures Get(r, key) == Some(v)
    ensures HasField(hs, key) ==> |r| == |hs|
    ensures HasField(hs, key) ==> forall i :: 0 <= i < |hs| ==>
      r[i] == if i == FirstIndex(hs, key) then Field(hs[i].name, v) else hs[i]
    ensures !HasField(hs, key) ==> r == hs + [Field(key, v)]
  {
    if HasField(hs, key) then
      var k := FirstIndex(hs, key);
      var r := hs[k := Field(hs[k].name, v)];
      assert NameIs(r[k], key);
      assert FirstIndex(r, key) == k by {
        FirstIndexAt(r, key, k);
      }
      r
    else
      var r := hs + [Field(key, v)];
      assert NameIs(r[|hs|], key);
      assert FirstIndex(r, key) == |hs| by {
        FirstIndexAt(r, key, |hs|);
      }
      r
  }

  lemma FirstIndexAt(r: Headers, key: string, k: nat)
    requires k < |r| && NameIs(r[k], key)
    requires forall j :: 0 <= j < k ==> !NameIs(r[j], key)
    ensures HasField(r, key) && FirstIndex(r, key) == k
  {
  }

  /** Every field not named `key` is where it was: `SetOrReplace` changes one field. */
  lemma SetOrReplaceKeepsOthers(hs: Headers, key: string, v: string, name: string)
    requires Lower(name) != Lower(key)
    ensures Get(SetOrReplace(hs, key, v), name) == Get(hs, name)
  {
    var r := SetOrReplace(hs, key, v);
    if HasField(hs, key) {
      var k := FirstIndex(hs, key);
      if HasField(hs, name) {
        var f := FirstIndex(hs, name);
        assert f != k;
        assert forall j :: 0 <= j < f ==> r[j].name == hs[j].name;
        FirstIndexAt(r, name, f);
      }
    } else {
      if HasField(hs, name) {
        var f := FirstIndex(hs, name);
        FirstIndexAt(r, name, f);
      }
    }
  }

  lemma GetCons(f: Field, t: Headers, key: string)
    ensures Get([f] + t, key) == if NameIs(f, key) then Some(f.value) else Get(t, key)
  {
    var hs := [f] + t;
    if NameIs(f, key) {
      FirstIndexAt(hs, key, 0);
    } else if HasField(t, key) {
      var k := FirstIndex(t, key);
      assert forall j :: 1 <= j <= k ==> hs[j] == t[j - 1];
      FirstIndexAt(hs, key, k + 1);
    } else {
      assert forall j :: 1 <= j < |hs| ==> hs[j] == t[j - 1];
    }
  }

  /** Appending a field does not change what `get` reads for a name already present. */
  lemma GetAppend(hs: Headers, f: Field, key: string)
    ensures Get(hs + [f], key) == if HasField(hs, key) then Get(hs, key) else if NameIs(f, key) then Some(f.value) else None
  {
    var r := hs + [f];
    if HasField(hs, key) {
      FirstIndexAt(r, key, FirstIndex(hs, key));
    } else if NameIs(f, key) {
      FirstIndexAt(r, key, |hs|);
    }
  }

  /** A `Content-*` header name, the ones `clear_content` removes. */
  predicate IsContentName(name: string) {
    |name| >= 8 && Lower(name)[..8] == "content-"
  }

  lemma ContentNameOfSameName(f: Field, key: string)
    requires NameIs(f, key)
    ensures IsContentName(f.name) <==> IsContentName(key)
  {
  }

  /** `clear_content` on the header list: every `Content-*` field removed, the
      others kept in order. */
  function DropContentFields(hs: Headers): (r: Headers)
    ensures |r| <= |hs|
    ensures forall i :: 0 <= i < |r| ==> !IsContentName(r[i].name) && r[i] in hs
    ensures forall i :: 0 <= i < |hs| && !IsContentName(hs[i].name) ==> hs[i] in r
  {
    if hs == [] then []
    else if IsContentName(hs[0].name) then DropContentFields(hs[1..])
    else [hs[0]] + DropContentFields(hs[1..])
  }

  /** Removing the `Content-*` fields changes nothing `get` reads for other names. */
  lemma {:induction false} GetDropContent(hs: Headers, key: string)
    requires !IsContentName(key)
    ensures Get(DropContentFields(hs), key) == Get(hs, key)
  {
    if hs != [] {
      assert hs == [hs[0]] + hs[1..];
      GetCons(hs[0], hs[1..], key);
      GetDropContent(hs[1..], key);
      if NameIs(hs[0], key) {
        ContentNameOfSameName(hs[0], key);
      }
      if !IsContentName(hs[0].name) {
        GetCons(hs[0], DropContentFields(hs[1..]), key);
      }
    }
  }

  /** Each field that is not a `Content-*` field is kept as often as it occurs; the
      others are all removed. */
  lemma {:induction false} DropContentCount(hs: Headers, f: Field)
    ensures multiset(DropContentFields(hs))[f] == if IsContentName(f.name) then 0 else multiset(hs)[f]
  {
    if hs != [] {
      assert hs == [hs[0]] + hs[1..];
      DropContentCount(hs[1..], f);
      DropContentCons(hs[0], hs[1..]);
    }
  }

  /** The filter works field by field, so the kept fields stay in their order. */
  lemma {:induction false} DropContentAppend(a: Headers, b: Headers)
    ensures DropContentFields(a + b) == DropContentFields(a) + DropContentFields(b)
  {
    if a == [] {
      assert a + b == b;
    } else {
      var f, t := a[0], a[1..];
      assert a == [f] + t;
      assert a + b == [f] + (t + b);
      var kept := if IsContentName(f.name) then [] else [f];
      calc {
        DropContentFields(a + b);
      == { DropContentCons(f, t + b); }
        kept + DropContentFields(t + b);
      == { DropContentAppend(t, b); }
        kept + (DropContentFields(t) + DropContentFields(b));
      == { DropContentCons(f, t); }
        DropContentFields(a) + DropContentFields(b);
      }
    }
  }

  lemma DropContentCons(f: Field, t: Headers)
    ensures DropContentFields([f] + t) == (if IsContentName(f.name) then [] else [f]) + DropContentFields(t)
  {
    assert ([f] + t)[0] == f && ([f] + t)[1..] == t;
  }

  /** `hs[i]` is the first field with its name. */
  predicate FirstOfName(hs: Headers, i: int)
    requires 0 <= i < |hs|
  {
    forall j :: 0 <= j < i ==> !NameIs(hs[j], hs[i].name)
  }

  /** `r` is `hs` with only fields whose lower-cased name is in `names` edited: such a
      field may be rewritten in place when it is the first of its name, and such
      fields may be appended; every other field keeps its place, in order. */
  predicate EditsOnly(hs: Headers, r: Headers, names: set<string>) {
    && |hs| <= |r|
    && (forall i :: 0 <= i < |hs| ==> r[i].name == hs[i].name)
    && (forall i :: 0 <= i < |hs| && r[i] != hs[i] ==> Lower(hs[i].name) in names && FirstOfName(hs, i))
    && (forall i :: |hs| <= i < |r| ==> Lower(r[i].name) in names)
  }

  /** `set_or_replace` edits only fields named `key`. */
  lemma SetOrReplaceEdits(hs: Headers, key: string, v: string)
    ensures EditsOnly(hs, SetOrReplace(hs, key, v), {Lower(key)})
  {
    var r := SetOrReplace(hs, key, v);
    if HasField(hs, key) {
      var k := FirstIndex(hs, key);
      forall i | 0 <= i < |hs| && r[i] != hs[i]
        ensures Lower(hs[i].name) in {Lower(key)} && FirstOfName(hs, i)
      {
        assert i == k;
      }
    } else {
      assert r[|hs|] == Field(key, v);
    }
  }

  /** Two edits in a row edit only the names of either. */
  lemma EditsCompose(a: Headers, b: Headers, c: Headers, n1: set<string>, n2: set<string>)
    requires EditsOnly(a, b, n1) && EditsOnly(b, c, n2)
    ensures EditsOnly(a, c, n1 + n2)
  {
    forall i | 0 <= i < |a| && c[i] != a[i]
      ensures Lower(a[i].name) in n1 + n2 && FirstOfName(a, i)
    {
      if b[i] != a[i] {
      } else {
        assert c[i] != b[i];
        assert forall j :: 0 <= j < i ==> b[j].name == a[j].name;
      }
    }
  }

  /** A content type `main/sub; params`, main and sub type already lower-cased as
      `get_content_type()` reports them. */
  datatype MediaType = MediaType(main: string, sub: string, params: Headers)

  /** A part's body: the decoded content of a leaf (the text of a text part, one
      character per octet of any other payload), or the list the parser made of a
      multipart or message payload. */
  datatype Body = Leaf(content: string) | Children(parts: seq<Part>)

  /** A part; `ctype` is its Content-Type, which `headers` does not repeat. */
  datatype Part = Part(headers: Headers, ctype: MediaType, body: Body)

  predicate IsType(p: Part, main: string, sub: string) {
    p.ctype.main == main && p.ctype.sub == sub
  }

  /** `msg.walk()`: the part itself, then the walks of its sub-parts, in order. */
  function Walk(p: Part): (r: seq<Part>)
    ensures |r| >= 1 && r[0] == p
    decreases p, 1
  {
    [p] + (if p.body.Children? then WalkAll(p.body.parts) else [])
  }

  function WalkAll(ps: seq<Part>): seq<Part>
    decreases ps, 0
  {
    if ps == [] then [] else Walk(ps[0]) + WalkAll(ps[1..])
  }
}

=== FILE: relay.dfy ===
/** One polling pass of the relay daemon (`main_loop` of src/replay-daemon.py) as a
    pure transition. The mailbox, the SMTP session, the clock and the sleeps are
    outside: each inbound message arrives with its INTERNALDATE, the time the step
    runs and whether a send fails; the sends are returned as a list. */
module Relay {
  import opened Wrappers
  import opened Text
  import opened Mime
  import opened Roster
  import opened Unsubscribe
  import opened Admin
  import opened Bounce
  import opened Rewrite
  import opened Contacts

  /** The `config` key/value table. */
  type Config = map<string, string>

  /** `_get_config_value`: the stored value, `None` when the key has no row. */
  function GetConfigValue(cfg: Config, key: string): (r: Option<string>)
    ensures r.Some? <==> key in cfg
    ensures key in cfg ==> r == Some(cfg[key])
  {
    if key in cfg then Some(cfg[key]) else None
  }

  /** `_set_config_value`: insert, or overwrite on a key conflict. */
  function SetConfigValue(cfg: Config, key: string, value: string): (r: Config)
    ensures GetConfigValue(r, key) == Some(value)
    ensures forall k :: k != key ==> GetConfigValue(r, k) == GetConfigValue(cfg, k)
    ensures r.Keys == cfg.Keys + {key}
  {
    cfg[key := value]
  }

  /** The key under which the last processed INTERNALDATE is kept. */
  const CursorKey: string := "last_processed_at"

  /** The stored text of a timestamp (the model's stand-in for `isoformat()`). */
  function EncodeTime(t: Timestamp): string {
    IntToString(t)
  }

  /** How the step reads the cursor: none stored (or empty), a timestamp, or text
      `fromisoformat` rejects, which raises and ends the pass. */
  datatype Cursor = NoCursor | At(time: Timestamp) | Unreadable

  function ReadCursor(cfg: Config): Cursor {
    match GetConfigValue(cfg, CursorKey)
    case None => NoCursor
    case Some(raw) =>
      if raw == [] then NoCursor
      else match ParseSigned(raw)
        case None => Unreadable
        case Some(t) => At(t)
  }

  /** The three readings of the stored cursor: none when the key is missing or
      empty, unreadable when its text is not an integer, and otherwise the integer
      the text denotes. */
  lemma ReadCursorSpec(cfg: Config)
    ensures var r := ReadCursor(cfg);
      && (r.NoCursor? <==> GetConfigValue(cfg, CursorKey) in {None, Some([])})
      && (r.Unreadable? <==> CursorKey in cfg && cfg[CursorKey] != [] && ParseSigned(cfg[CursorKey]).None?)
      && (r.At? ==> CursorKey in cfg && ParseSigned(cfg[CursorKey]) == Some(r.time))
  {
  }

  /** A stored cursor reads back as the time written. */
  lemma ReadWrittenCursor(cfg: Config, t: Timestamp)
    ensures ReadCursor(SetConfigValue(cfg, CursorKey, EncodeTime(t))) == At(t)
  {
    ParseSignedToString(t);
  }

  /** The database the daemon works on. */
  datatype Store = Store(roster: Roster, config: Config)

  /** The daemon's settings: how it forwards, the address whose messages it relays
      (`filter_recipient`), and the SMTP login used as envelope sender. */
  datatype Settings = Settings(relay: RelayConfig, allowedFrom: string, smtpUser: string)

  /** One `smtp.sendmail(from, to_addrs, message)`. */
  datatype Send = Send(envelopeFrom: string, to: seq<string>, message: Part)

  /** An inbound message as fetched, with the environment of its step: the time the
      clock reads when a bounce flags each address, and the index of the contact
      whose copy raises (in `forward_full_fidelity` or in `sendmail`), if any. */
  datatype Inbound =
    | Fetched(message: Part, internalDate: Timestamp, stamp: string -> Timestamp, failingSend: Option<nat>)
    | NotFetched

  /** What a step (or a pass) leaves behind: the committed database, the sends made,
      and whether an exception ended the pass. */
  datatype Outcome = Outcome(store: Store, sends: seq<Send>, failed: bool)

  /** The lower-cased From header contains the lower-cased allowed address. */
  predicate FromAllowed(settings: Settings, msg: Part) {
    Contains(Lower(Get(msg.headers, "From").GetOr([])), Lower(settings.allowedFrom))
  }

  /** The UPDATE a bounce makes for each extracted address, each at the time the
      clock reads for it: `stamp(a)` for address `a`. */
  function FlagBounced(roster: Roster, bounced: set<string>, stamp: string -> Timestamp): (r: Roster)
    ensures |r| == |roster|
    ensures forall i :: 0 <= i < |roster| ==>
      r[i] == if roster[i].email in bounced then Unsubscribed(roster[i], stamp(roster[i].email)) else roster[i]
  {
    seq(|roster|, i requires 0 <= i < |roster| =>
      if roster[i].email in bounced then Unsubscribed(roster[i], stamp(roster[i].email)) else roster[i])
  }

  /** One copy per contact, in contact order, each to that contact alone. */
  function Broadcast(settings: Settings, contacts: seq<Contact>, msg: Part): (r: seq<Send>)
    ensures |r| == |contacts|
    ensures forall k :: 0 <= k < |contacts| ==>
      r[k] == Send(settings.smtpUser, [contacts[k].email],
                   Forward(settings.relay, msg, contacts[k].email, contacts[k].token))
  {
    seq(|contacts|, k requires 0 <= k < |contacts| =>
      Send(settings.smtpUser, [contacts[k].email],
           Forward(settings.relay, msg, contacts[k].email, contacts[k].token)))
  }

  /** The step has nothing to do with the message: it is not newer than the cursor,
      or it is neither from the allowed sender nor a bounce. */
  predicate Ignored(settings: Settings, store: Store, msg: Part, date: Timestamp) {
    (ReadCursor(store.config).At? && date <= ReadCursor(store.config).time) ||
    (!FromAllowed(settings, msg) && !IsBounce(msg))
  }

  /** The body of the loop over the mailbox for one fetched message. */
  function Step(settings: Settings, contacts: seq<Contact>, store: Store, msg: Part,
                date: Timestamp, stamp: string -> Timestamp, failingSend: Option<nat>): (o: Outcome)
    ensures o.failed ==> o.store == store
    ensures |o.sends| <= |contacts|
    ensures ReadCursor(store.config).Unreadable? ==> o == Outcome(store, [], true)
    ensures !ReadCursor(store.config).Unreadable? && Ignored(settings, store, msg, date) ==>
      o == Outcome(store, [], false)
  {
    var cursor := ReadCursor(store.config);
    if cursor.Unreadable? then Outcome(store, [], true)
    else if cursor.At? && date <= cursor.time then Outcome(store, [], false)
    else
      var bounce := IsBounce(msg);
      if !FromAllowed(settings, msg) && !bounce then Outcome(store, [], false)
      else
        var config := SetConfigValue(store.config, CursorKey, EncodeTime(date));
        if bounce then
          Outcome(Store(FlagBounced(store.roster, ExtractBounceRecipients(msg), stamp), config), [], false)
        else
          var sends := Broadcast(settings, contacts, msg);
          match failingSend
          case Some(k) =>
            if k < |sends| then Outcome(store, sends[..k], true)
            else Outcome(Store(store.roster, config), sends, false)
          case None => Outcome(Store(store.roster, config), sends, false)
  }

  /** A message the step acts on moves the cursor to its date, which is later than
      the cursor it found; the table keeps every row's identity. */
  lemma StepAdvances(settings: Settings, contacts: seq<Contact>, store: Store, msg: Part,
                     date: Timestamp, stamp: string -> Timestamp, failingSend: Option<nat>)
    requires !ReadCursor(store.config).Unreadable? && !Ignored(settings, store, msg, date)
    ensures var o := Step(settings, contacts, store, msg, date, stamp, failingSend);
      && (!o.failed ==> ReadCursor(o.store.config) == At(date))
      && (ReadCursor(store.config).At? ==> ReadCursor(store.config).time < date)
      && (forall k :: k != CursorKey ==> GetConfigValue(o.store.config, k) == GetConfigValue(store.config, k))
  {
    ReadWrittenCursor(store.config, date);
  }

  /** A bounce flags exactly the rows whose address it names, each stamped with the
      time read for its address, adds no row and sends nothing. */
  lemma StepBounce(settings: Settings, contacts: seq<Contact>, store: Store, msg: Part,
                   date: Timestamp, stamp: string -> Timestamp, failingSend: Option<nat>)
    requires !ReadCursor(store.config).Unreadable? && !Ignored(settings, store, msg, date)
    requires IsBounce(msg)
    ensures var o := Step(settings, contacts, store, msg, date, stamp, failingSend);
      && !o.failed && o.sends == []
      && |o.store.roster| == |store.roster|
      && forall i :: 0 <= i < |store.roster| ==>
           o.store.roster[i] ==
             if store.roster[i].email in ExtractBounceRecipients(msg) then Unsubscribed(store.roster[i], stamp(store.roster[i].email))
             else store.roster[i]
  {
  }

  /** A message from the allowed sender that is not a bounce goes out once per
      contact, in contact order, each copy to that contact alone; the table is not
      touched, and the cursor commits only when every send went through. */
  lemma StepBroadcast(settings: Settings, contacts: seq<Contact>, store: Store, msg: Part,
                      date: Timestamp, stamp: string -> Timestamp, failingSend: Option<nat>)
    requires !ReadCursor(store.config).Unreadable? && !Ignored(settings, store, msg, date)
    requires !IsBounce(msg)
    ensures var o := Step(settings, contacts, store, msg, date, stamp, failingSend);
      && o.store.roster == store.roster
      && (o.failed <==> failingSend.Some? && failingSend.value < |contacts|)
      && (o.failed ==> o.sends == Broadcast(settings, contacts, msg)[..failingSend.value])
      && (!o.failed ==> o.sends == Broadcast(settings, contacts, msg))
      && |o.sends| <= |contacts|
      && forall k :: 0 <= k < |o.sends| ==>
           o.sends[k].to == [contacts[k].email] &&
           o.sends[k].message == Forward(settings.relay, msg, contacts[k].email, contacts[k].token)
  {
    var sends := Broadcast(settings, contacts, msg);
    var o := Step(settings, contacts, store, msg, date, stamp, failingSend);
    assert o.sends == if failingSend.Some? && failingSend.value < |sends| then sends[..failingSend.value] else sends;
  }

  /** The loop over the fetched messages with the contact list read at its start;
      the first exception ends the pass with what was committed so far. */
  function PassFrom(settings: Settings, contacts: seq<Contact>, store: Store, inbox: seq<Inbound>): (o: Outcome)
    ensures |o.sends| <= |inbox| * |contacts|
    decreases |inbox|
  {
    if |inbox| == 0 then Outcome(store, [], false)
    else match inbox[0]
      case NotFetched =>
        var rest := PassFrom(settings, contacts, store, inbox[1..]);
        AddBound(0, |rest.sends|, |inbox[1..]|, |contacts|);
        rest
      case Fetched(msg, date, stamp, failingSend) =>
        var o := Step(settings, contacts, store, msg, date, stamp, failingSend);
        if o.failed then
          AddBound(|o.sends|, 0, |inbox[1..]|, |contacts|);
          o
        else
          var rest := PassFrom(settings, contacts, o.store, inbox[1..]);
          AddBound(|o.sends|, |rest.sends|, |inbox[1..]|, |contacts|);
          Outcome(rest.store, o.sends + rest.sends, rest.failed)
  }

  lemma AddBound(a: nat, b: nat, n: nat, c: nat)
    requires a <= c && b <= n * c
    ensures a + b <= (n + 1) * c
  {
    assert (n + 1) * c == n * c + c;
  }

  lemma MulMonotone(n: nat, b: nat, c: nat)
    requires b <= c
    ensures n * b <= n * c
  {
    assert n * c - n * b == n * (c - b);
  }

  /** `main_loop()`: one pass over the mailbox, contacts loaded once from the table
      as it was when the pass began. */
  function Pass(settings: Settings, store: Store, inbox: seq<Inbound>): (o: Outcome)
    ensures |o.sends| <= |inbox| * |store.roster|
  {
    var contacts := LoadContacts(store.roster);
    MulMonotone(|inbox|, |contacts|, |store.roster|);
    PassFrom(settings, contacts, store, inbox)
  }

  /** The cursor never moves back and never disappears: across a pass it only
      increases. */
  lemma {:induction false} PassCursorMonotone(settings: Settings, contacts: seq<Contact>, store: Store,
                                              inbox: seq<Inbound>, c: Timestamp)
    requires ReadCursor(store.config) == At(c)
    ensures var o := PassFrom(settings, contacts, store, inbox);
      ReadCursor(o.store.config).At? && c <= ReadCursor(o.store.config).time
    decreases |inbox|
  {
    if |inbox| != 0 {
      match inbox[0]
      case NotFetched =>
        PassCursorMonotone(settings, contacts, store, inbox[1..], c);
      case Fetched(msg, date, stamp, failingSend) =>
        var o := Step(settings, contacts, store, msg, date, stamp, failingSend);
        if !Ignored(settings, store, msg, date) {
          StepAdvances(settings, contacts, store, msg, date, stamp, failingSend);
        }
        if !o.failed {
          var c' := ReadCursor(o.store.config).time;
          PassCursorMonotone(settings, contacts, o.store, inbox[1..], c');
        }
    }
  }

  /** A step keeps the table valid and every row's id, token and creation time. */
  lemma StepKeepsRoster(settings: Settings, contacts: seq<Contact>, store: Store, msg: Part,
                        date: Timestamp, stamp: string -> Timestamp, failingSend: Option<nat>)
    requires Valid(store.roster)
    ensures var o := Step(settings, contacts, store, msg, date, stamp, failingSend);
      Valid(o.store.roster) && |o.store.roster| == |store.roster| && KeepsIdentities(store.roster, o.store.roster)
  {
    var flagged := FlagBounced(store.roster, ExtractBounceRecipients(msg), stamp);
    FlagBouncedKeeps(store.roster, ExtractBounceRecipients(msg), stamp);
    assert KeepsIdentities(store.roster, store.roster) by {
      assert forall i :: 0 <= i < |store.roster| ==> SameIdentity(store.roster[i], store.roster[i]);
    }
    var o := Step(settings, contacts, store, msg, date, stamp, failingSend);
    assert o.store.roster == store.roster || o.store.roster == flagged;
  }

  /** Flagging bounced rows keeps the table valid and every row's identity. */
  lemma FlagBouncedKeeps(roster: Roster, bounced: set<string>, stamp: string -> Timestamp)
    requires Valid(roster)
    ensures var r := FlagBounced(roster, bounced, stamp);
      Valid(r) && KeepsIdentities(roster, r) && forall i :: 0 <= i < |roster| ==> r[i].email == roster[i].email
  {
  }

  /** Over a whole pass the table stays valid, keeps its rows and their tokens. */
  lemma {:induction false} PassKeepsRoster(settings: Settings, contacts: seq<Contact>, store: Store,
                                           inbox: seq<Inbound>)
    requires Valid(store.roster)
    ensures var o := PassFrom(settings, contacts, store, inbox);
      Valid(o.store.roster) && |o.store.roster| == |store.roster| && KeepsIdentities(store.roster, o.store.roster)
    decreases |inbox|
  {
    if |inbox| != 0 {
      match inbox[0]
      case NotFetched =>
        PassKeepsRoster(settings, contacts, store, inbox[1..]);
      case Fetched(msg, date, stamp, failingSend) =>
        var o := Step(settings, contacts, store, msg, date, stamp, failingSend);
        StepKeepsRoster(settings, contacts, store, msg, date, stamp, failingSend);
        if !o.failed {
          PassKeepsRoster(settings, contacts, o.store, inbox[1..]);
        }
    }
  }

  /** Two tables with the same rows under the same addresses, in the same order. */
  predicate SameEmails(a: Roster, b: Roster) {
    |a| == |b| && forall i :: 0 <= i < |a| ==> b[i].email == a[i].email
  }

  /** The relay never adds a row or changes an address, whether or not the table is
      valid. */
  lemma {:induction false} PassKeepsEmails(settings: Settings, contacts: seq<Contact>, store: Store,
                                           inbox: seq<Inbound>)
    ensures SameEmails(store.roster, PassFrom(settings, contacts, store, inbox).store.roster)
    decreases |inbox|
  {
    if |inbox| != 0 {
      match inbox[0]
      case NotFetched =>
        PassKeepsEmails(settings, contacts, store, inbox[1..]);
      case Fetched(msg, date, stamp, failingSend) =>
        var o := Step(settings, contacts, store, msg, date, stamp, failingSend);
        assert SameEmails(store.roster, o.store.roster);
        if !o.failed {
          PassKeepsEmails(settings, contacts, o.store, inbox[1..]);
        }
    }
  }
}

=== FILE: rewrite.dfy ===
/** The per-recipient copy of a broadcast: `_build_unsub_link`, `_append_unsub` and
    `forward_full_fidelity` of src/replay-daemon.py. Each copy is made from the message
    as received, with the recipient's own unsubscribe link. */
module Rewrite {
  import opened Wrappers
  import opened Text
  import opened Mime
  import opened UrlCodec
  import opened Unsubscribe

  /** Where replies to a forwarded copy go: `Original` leaves Reply-To alone (the
      relay ships with this mode), `List` points it at the relay's From address. */
  datatype ReplyToMode = Original | List

  /** The relay's settings: the From header it sends under, the public base URL and
      path of the unsubscribe endpoint, the Reply-To mode, and the keyed hash shared
      with the web console. */
  datatype RelayConfig = RelayConfig(
    fromHeader: string,
    publicBaseUrl: string,
    unsubscribePath: string,
    replyToMode: ReplyToMode,
    mac: string -> string)

  /** The arguments of a recipient's link, in the order `urlencode` writes them. */
  function LinkArguments(mac: string -> string, email: string, token: string): seq<Pair> {
    [Pair("e", email), Pair("t", token), Pair("s", Sign(mac, email, token))]
  }

  /** `_build_unsub_link`: base URL, path, `?`, and the encoded arguments. */
  function BuildUnsubLink(cfg: RelayConfig, email: string, token: string): (r: string)
    ensures var prefix := cfg.publicBaseUrl + cfg.unsubscribePath;
      |prefix| < |r| && r[..|prefix|] == prefix && r[|prefix|] == '?'
  {
    var prefix := cfg.publicBaseUrl + cfg.unsubscribePath;
    var r := prefix + "?" + EncodeQuery(LinkArguments(cfg.mac, email, token));
    assert r[..|prefix|] == prefix;
    r
  }

  /** The endpoint reads back from the link exactly the address, the token and the
      signature the relay put in, provided the base URL and path hold no `?`. */
  lemma LinkCarriesArguments(cfg: RelayConfig, email: string, token: string)
    requires '?' !in cfg.publicBaseUrl + cfg.unsubscribePath
    ensures var args := ParseQuery(QueryOf(BuildUnsubLink(cfg, email, token)));
      && Lookup(args, "e") == Some(email)
      && Lookup(args, "t") == Some(token)
      && Lookup(args, "s") == Some(Sign(cfg.mac, email, token))
  {
    var args := LinkArguments(cfg.mac, email, token);
    QueryOfLink(cfg, email, token);
    ParseEncodeQuery(args);
    LookupLinkArguments(cfg.mac, email, token);
  }

  lemma QueryOfLink(cfg: RelayConfig, email: string, token: string)
    requires '?' !in cfg.publicBaseUrl + cfg.unsubscribePath
    ensures QueryOf(BuildUnsubLink(cfg, email, token)) == EncodeQuery(LinkArguments(cfg.mac, email, token))
  {
    var prefix := cfg.publicBaseUrl + cfg.unsubscribePath;
    var query := EncodeQuery(LinkArguments(cfg.mac, email, token));
    AfterFirstOf(prefix, '?', query);
    assert BuildUnsubLink(cfg, email, token) == prefix + ['?'] + query;
  }

  lemma LookupLinkArguments(mac: string -> string, email: string, token: string)
    ensures var args := LinkArguments(mac, email, token);
      && Lookup(args, "e") == Some(email)
      && Lookup(args, "t") == Some(token)
      && Lookup(args, "s") == Some(Sign(mac, email, token))
  {
    var args := LinkArguments(mac, email, token);
    assert args[0].key == "e" && args[1].key == "t" && args[2].key == "s";
    assert args[1..][0] == args[1] && args[1..][1..][0] == args[2];
  }

  /** The footer an HTML leaf gets. */
  function HtmlFooter(link: string): string {
    "<br><br><p>Unsubscribe: <a href=\"" + link + "\">" + link + "</a></p>"
  }

  /** The footer any other text leaf gets. */
  function TextFooter(link: string): string {
    "\n\nUnsubscribe: " + link + "\n"
  }

  function Footer(subtype: string, link: string): string {
    if subtype == "html" then HtmlFooter(link) else TextFooter(link)
  }

  /** `get_content_charset() or "utf-8"`: the charset parameter lower-cased, or
      `utf-8` when it is missing, empty or not ASCII. */
  function Charset(t: MediaType): (r: string)
    ensures r != []
    ensures r == "utf-8" || (Get(t.params, "charset").Some? && r == Lower(Get(t.params, "charset").value))
    ensures Get(t.params, "charset").Some? && Get(t.params, "charset").value != [] && IsAscii(Get(t.params, "charset").value) ==>
      r == Lower(Get(t.params, "charset").value)
  {
    var c := Get(t.params, "charset").GetOr([]);
    if c == [] || !IsAscii(c) then "utf-8" else Lower(c)
  }

  /** The `MIME-Version: 1.0` field `set_content` adds to a part that lacks one. */
  function MimeVersion(): Field {
    Field("MIME-Version", "1.0")
  }

  lemma MimeVersionName()
    ensures Lower("MIME-Version") == "mime-version"
    ensures !IsContentName("MIME-Version")
  {
    assert Lower("MIME-Version")[..8] == "mime-ver";
  }

  /** The header list `set_content` leaves on a part: the `Content-*` fields
      removed, and `MIME-Version` appended when missing. */
  function TextHeaders(hs: Headers): (r: Headers)
    ensures r == DropContentFields(hs) || r == DropContentFields(hs) + [MimeVersion()]
    ensures HasField(r, "MIME-Version")
    ensures forall i :: 0 <= i < |r| ==> !IsContentName(r[i].name)
  {
    var kept := DropContentFields(hs);
    if HasField(kept, "MIME-Version") then kept
    else
      MimeVersionAppended(kept);
      kept + [MimeVersion()]
  }

  lemma MimeVersionAppended(kept: Headers)
    requires forall i :: 0 <= i < |kept| ==> !IsContentName(kept[i].name)
    ensures HasField(kept + [MimeVersion()], "MIME-Version")
    ensures forall i :: 0 <= i < |kept| + 1 ==> !IsContentName((kept + [MimeVersion()])[i].name)
  {
    var r := kept + [MimeVersion()];
    assert r[|kept|] == MimeVersion();
    MimeVersionName();
    assert NameIs(r[|kept|], "MIME-Version");
    forall i | 0 <= i < |kept| + 1
      ensures !IsContentName(r[i].name)
    {
      if i < |kept| {
        assert r[i] == kept[i];
      }
    }
  }

  /** What `get` reads for any name other than `Content-*` and `MIME-Version` is
      the same before and after `set_content`. */
  lemma TextHeadersKeep(hs: Headers, key: string)
    requires !IsContentName(key) && Lower(key) != "mime-version"
    ensures Get(TextHeaders(hs), key) == Get(hs, key)
  {
    var kept := DropContentFields(hs);
    GetDropContent(hs, key);
    if !HasField(kept, "MIME-Version") {
      MimeVersionName();
      assert !NameIs(MimeVersion(), key);
      GetAppend(kept, MimeVersion(), key);
    }
  }

  /** The aliases Python's `email.charset` module maps a charset name through before
      `set_content` writes it as the `charset` parameter. */
  const CharsetAliases: map<string, string> := map[
    "latin_1" := "iso-8859-1", "latin-1" := "iso-8859-1",
    "latin_2" := "iso-8859-2", "latin-2" := "iso-8859-2",
    "latin_3" := "iso-8859-3", "latin-3" := "iso-8859-3",
    "latin_4" := "iso-8859-4", "latin-4" := "iso-8859-4",
    "latin_5" := "iso-8859-9", "latin-5" := "iso-8859-9",
    "latin_6" := "iso-8859-10", "latin-6" := "iso-8859-10",
    "latin_7" := "iso-8859-13", "latin-7" := "iso-8859-13",
    "latin_8" := "iso-8859-14", "latin-8" := "iso-8859-14",
    "latin_9" := "iso-8859-15", "latin-9" := "iso-8859-15",
    "latin_10" := "iso-8859-16", "latin-10" := "iso-8859-16",
    "cp949" := "ks_c_5601-1987",
    "euc_jp" := "euc-jp", "euc_kr" := "euc-kr",
    "ascii" := "us-ascii"]

  /** `ALIASES.get(charset, charset)`. */
  function CharsetAlias(charset: string): (r: string)
    ensures charset !in CharsetAliases ==> r == charset
    ensures charset in CharsetAliases ==> r == CharsetAliases[charset]
  {
    if charset in CharsetAliases then CharsetAliases[charset] else charset
  }

  /** An alias is a name the table does not map again, so a part whose charset was
      written by `set_content` keeps it when re-set. */
  lemma CharsetAliasStable(charset: string)
    ensures CharsetAlias(CharsetAlias(charset)) == CharsetAlias(charset)
  {
    var r := CharsetAlias(charset);
    if charset in CharsetAliases {
      assert r in CharsetAliases.Values;
      AliasesAreFinal(r);
    }
  }

  lemma AliasesAreFinal(v: string)
    requires v in CharsetAliases.Values
    ensures v !in CharsetAliases
  {
    var k :| k in CharsetAliases && CharsetAliases[k] == v;
    assert v[0] in "iek" || v == "us-ascii";
  }

  /** Carriage returns, alone or before a line feed, become line feeds: the line
      breaks `bytes.splitlines()` splits at, rejoined with `\n`. */
  function LfLines(s: string): (r: string)
    ensures '\r' !in r
    ensures '\r' !in s ==> r == s
    decreases |s|
  {
    if s == [] then []
    else if s[0] == '\r' then "\n" + LfLines(if |s| >= 2 && s[1] == '\n' then s[2..] else s[1..])
    else
      assert s == [s[0]] + s[1..];
      [s[0]] + LfLines(s[1..])
  }

  /** The text `set_content` stores when it picks quoted-printable: the lines of `s`
      rejoined with `\n` and a final `\n` added, whatever `s` ended with
      (`_encode_text` of Python's `email.contentmanager`). Its base64 path joins
      them with the policy's line separator instead, which is not modelled. */
  function NormaliseLines(s: string): (r: string)
    ensures '\r' !in r && r != [] && r[|r| - 1] == '\n'
    ensures '\r' !in s && s != [] && s[|s| - 1] == '\n' ==> r == s
  {
    var t := LfLines(s);
    if t != [] && t[|t| - 1] == '\n' then t else t + "\n"
  }

  /** On the quoted-printable path, a text with line-feed line ends reads back with
      its footer: the plain footer as written, the HTML footer followed by the line
      feed `set_content` adds. */
  lemma FooterReadsBack(text: string, subtype: string, link: string)
    requires '\r' !in text && '\r' !in link
    ensures NormaliseLines(text + Footer(subtype, link)) ==
      text + Footer(subtype, link) + (if subtype == "html" then "\n" else "")
  {
    var f := Footer(subtype, link);
    var s := text + f;
    assert '\r' !in f;
    assert '\r' !in s by {
      assert forall i :: 0 <= i < |s| ==> s[i] == if i < |text| then text[i] else f[i - |text|];
    }
    assert f[|f| - 1] == if subtype == "html" then '>' else '\n';
    assert s[|s| - 1] == f[|f| - 1];
  }

  /** `set_content(text, subtype=..., charset=...)` on a part: the `Content-*` fields
      go, the type becomes `text/<subtype>` with only the (aliased) charset parameter,
      the body becomes `text` with its line ends normalised as the quoted-printable
      path stores them, and `MIME-Version: 1.0` is
      added when the part lacks one. */
  function SetText(p: Part, subtype: string, charset: string, text: string): (r: Part)
    ensures r.ctype == MediaType("text", subtype, [Field("charset", CharsetAlias(charset))])
    ensures r.body == Leaf(NormaliseLines(text))
    ensures r.headers == DropContentFields(p.headers) || r.headers == DropContentFields(p.headers) + [MimeVersion()]
    ensures forall key :: !IsContentName(key) && Lower(key) != "mime-version" ==>
      Get(r.headers, key) == Get(p.headers, key)
    ensures HasField(r.headers, "MIME-Version")
    ensures forall i :: 0 <= i < |r.headers| ==> !IsContentName(r.headers[i].name)
  {
    forall key | !IsContentName(key) && Lower(key) != "mime-version"
      ensures Get(TextHeaders(p.headers), key) == Get(p.headers, key)
    {
      TextHeadersKeep(p.headers, key);
    }
    Part(TextHeaders(p.headers), MediaType("text", subtype, [Field("charset", CharsetAlias(charset))]), Leaf(NormaliseLines(text)))
  }

  /** The main types whose `get_content()` is the decoded payload as `bytes`. */
  predicate IsBinaryType(main: string) {
    main == "audio" || main == "image" || main == "video" || main == "application"
  }

  predicate IsPrintable(c: char) {
    32 <= c as int < 127
  }

  /** The quote `repr` puts around bytes: `"` when they hold `'` but no `"`. */
  function ReprQuote(b: string): (q: char)
    ensures q == '\'' || q == '"'
  {
    if '\'' in b && '"' !in b then '"' else '\''
  }

  function HexDigit(d: int): (c: char)
    requires 0 <= d < 16
    ensures IsPrintable(c)
  {
    if d < 10 then ('0' as int + d) as char else ('a' as int + d - 10) as char
  }

  /** One octet as the `repr` of bytes writes it between quotes `q`: the quote and
      the backslash escaped, tab, line feed and carriage return by name, any other
      control or non-ASCII octet as `\xhh`. */
  function EscapeOctet(c: char, q: char): (r: string)
    requires IsPrintable(q)
    ensures r != [] && forall i :: 0 <= i < |r| ==> IsPrintable(r[i])
  {
    if c == q || c == '\\' then ['\\', c]
    else if c == '\t' then "\\t"
    else if c == '\n' then "\\n"
    else if c == '\r' then "\\r"
    else if !IsPrintable(c) then "\\x" + [HexDigit((c as int / 16) % 16), HexDigit(c as int % 16)]
    else [c]
  }

  function EscapeOctets(b: string, q: char): (r: string)
    requires IsPrintable(q)
    ensures forall i :: 0 <= i < |r| ==> IsPrintable(r[i])
  {
    if b == [] then [] else EscapeOctet(b[0], q) + EscapeOctets(b[1..], q)
  }

  /** `repr(b)` of bytes `b`, one character per octet, as an f-string formats it. */
  function BytesRepr(b: string): (r: string)
    ensures |r| >= 3 && r[0] == 'b' && r[1] == ReprQuote(b) && r[|r| - 1] == ReprQuote(b)
    ensures forall i :: 0 <= i < |r| ==> IsPrintable(r[i])
  {
    var q := ReprQuote(b);
    var body := EscapeOctets(b, q);
    var r := "b" + [q] + body + [q];
    assert forall i :: 2 <= i < |r| - 1 ==> r[i] == body[i - 2];
    r
  }

  /** Printable octets other than the quote and the backslash are written as they
      are, between single quotes. */
  lemma {:induction false} PlainEscape(b: string)
    requires forall i :: 0 <= i < |b| ==> IsPrintable(b[i]) && b[i] != '\'' && b[i] != '\\'
    ensures EscapeOctets(b, '\'') == b
  {
    if b != [] {
      PlainEscape(b[1..]);
      assert b == [b[0]] + b[1..];
    }
  }

  lemma PlainBytesRepr(b: string)
    requires forall i :: 0 <= i < |b| ==> IsPrintable(b[i]) && b[i] != '\'' && b[i] != '\\'
    ensures BytesRepr(b) == "b'" + b + "'"
  {
    PlainEscape(b);
  }

  /** What the f-string makes of `get_content()` on a leaf: the text of a text part,
      the `repr` of the payload bytes of an audio, image, video or application part. */
  function ContentText(p: Part): string
    requires p.body.Leaf?
  {
    if IsBinaryType(p.ctype.main) then BytesRepr(p.body.content) else p.body.content
  }

  /** The footer appended to a leaf's content, the leaf re-set as text of the same
      subtype and charset. */
  function AddFooter(p: Part, link: string): Part
    requires p.body.Leaf?
  {
    SetText(p, p.ctype.sub, Charset(p.ctype), ContentText(p) + Footer(p.ctype.sub, link))
  }

  predicate IsTextLeaf(p: Part) {
    p.ctype.main == "text" && p.body.Leaf?
  }

  /** What the loop over the walk does to one part: a text leaf gets its footer,
      anything else is left alone. */
  function TouchPart(p: Part, link: string): Part {
    if IsTextLeaf(p) then AddFooter(p, link) else p
  }

  /** The walk of a multipart message, each part touched as the loop reaches it. */
  function RewriteTree(p: Part, link: string): (r: Part)
    ensures r.body.Children? <==> p.body.Children?
    decreases p, 1
  {
    if p.body.Children? then p.(body := Children(RewriteAll(p.body.parts, link)))
    else TouchPart(p, link)
  }

  function RewriteAll(ps: seq<Part>, link: string): (r: seq<Part>)
    ensures |r| == |ps|
    decreases ps, 0
  {
    if ps == [] then [] else [RewriteTree(ps[0], link)] + RewriteAll(ps[1..], link)
  }

  /** `_append_unsub`: a multipart message has every text leaf of its walk extended;
      a single-part message is re-set as text with the footer. */
  function AppendUnsub(msg: Part, link: string): (r: Part)
    ensures r.body.Children? <==> msg.body.Children?
    ensures msg.body.Children? ==> r.headers == msg.headers && r.ctype == msg.ctype
    ensures msg.body.Leaf? ==> r.ctype.main == "text" && r.ctype.sub == msg.ctype.sub
  {
    if msg.body.Children? then RewriteTree(msg, link)
    else AddFooter(msg, link)
  }

  /** A part seen without its sub-parts: headers, type, text (for a leaf) and the
      number of sub-parts. */
  datatype PartView = PartView(headers: Headers, ctype: MediaType, text: Option<string>, width: nat)

  function View(p: Part): PartView {
    match p.body
    case Leaf(t) => PartView(p.headers, p.ctype, Some(t), 0)
    case Children(ps) => PartView(p.headers, p.ctype, None, |ps|)
  }

  function Views(ps: seq<Part>): (r: seq<PartView>)
    ensures |r| == |ps| && forall i :: 0 <= i < |ps| ==> r[i] == View(ps[i])
  {
    seq(|ps|, i requires 0 <= i < |ps| => View(ps[i]))
  }

  function TouchedViews(ps: seq<Part>, link: string): (r: seq<PartView>)
    ensures |r| == |ps| && forall i :: 0 <= i < |ps| ==> r[i] == View(TouchPart(ps[i], link))
  {
    seq(|ps|, i requires 0 <= i < |ps| => View(TouchPart(ps[i], link)))
  }

  lemma ViewsAppend(a: seq<Part>, b: seq<Part>)
    ensures Views(a + b) == Views(a) + Views(b)
  {
  }

  lemma TouchedViewsAppend(a: seq<Part>, b: seq<Part>, link: string)
    ensures TouchedViews(a + b, link) == TouchedViews(a, link) + TouchedViews(b, link)
  {
  }

  lemma {:induction false} WalkOfRewrite(p: Part, link: string)
    ensures Views(Walk(RewriteTree(p, link))) == TouchedViews(Walk(p), link)
    decreases p, 1
  {
    var r := RewriteTree(p, link);
    if p.body.Children? {
      WalkAllOfRewrite(p.body.parts, link);
      assert Walk(r) == [r] + WalkAll(RewriteAll(p.body.parts, link));
      assert Walk(p) == [p] + WalkAll(p.body.parts);
      ViewsAppend([r], WalkAll(RewriteAll(p.body.parts, link)));
      TouchedViewsAppend([p], WalkAll(p.body.parts), link);
    } else {
      assert Walk(r) == [r];
      assert Walk(p) == [p];
    }
  }

  lemma {:induction false} WalkAllOfRewrite(ps: seq<Part>, link: string)
    ensures Views(WalkAll(RewriteAll(ps, link))) == TouchedViews(WalkAll(ps), link)
    decreases ps, 0
  {
    if ps != [] {
      var rs := RewriteAll(ps, link);
      WalkOfRewrite(ps[0], link);
      WalkAllOfRewrite(ps[1..], link);
      assert rs[0] == RewriteTree(ps[0], link) && rs[1..] == RewriteAll(ps[1..], link);
      ViewsAppend(Walk(rs[0]), WalkAll(rs[1..]));
      TouchedViewsAppend(Walk(ps[0]), WalkAll(ps[1..]), link);
    } else {
      assert RewriteAll(ps, link) == [];
    }
  }

  /** On a multipart message `_append_unsub` keeps the shape of the walk: part `i`
      of the result is part `i` of the original with, if it is a text leaf, the
      footer for its subtype appended to its text and its content fields re-set;
      every other part is unchanged apart from its sub-parts. */
  lemma AppendUnsubWalk(msg: Part, link: string)
    requires msg.body.Children?
    ensures |Walk(AppendUnsub(msg, link))| == |Walk(msg)|
    ensures forall i :: 0 <= i < |Walk(msg)| ==>
      var before, after := Walk(msg)[i], Walk(AppendUnsub(msg, link))[i];
      if IsTextLeaf(before) then
        && after.body == Leaf(NormaliseLines(before.body.content + Footer(before.ctype.sub, link)))
        && after.ctype == MediaType("text", before.ctype.sub, [Field("charset", CharsetAlias(Charset(before.ctype)))])
      else View(after) == View(before)
    ensures AppendUnsub(msg, link).headers == msg.headers
  {
    WalkOfRewrite(msg, link);
    var w, w' := Walk(msg), Walk(AppendUnsub(msg, link));
    assert Views(w') == TouchedViews(w, link);
    assert |w'| == |w|;
    forall i | 0 <= i < |w|
      ensures IsTextLeaf(w[i]) ==>
        w'[i].body == Leaf(NormaliseLines(w[i].body.content + Footer(w[i].ctype.sub, link))) &&
        w'[i].ctype == MediaType("text", w[i].ctype.sub, [Field("charset", CharsetAlias(Charset(w[i].ctype)))])
      ensures !IsTextLeaf(w[i]) ==> View(w'[i]) == View(w[i])
    {
      assert View(w'[i]) == View(TouchPart(w[i], link));
    }
  }

  /** On a single-part message the one part becomes text of the same subtype: a
      text part holds its text followed by the footer, and an audio, image, video or
      application part holds the `repr` of its bytes followed by the footer. */
  lemma AppendUnsubSingle(msg: Part, link: string)
    requires msg.body.Leaf?
    ensures AppendUnsub(msg, link).ctype.main == "text" && AppendUnsub(msg, link).ctype.sub == msg.ctype.sub
    ensures msg.ctype.main == "text" ==>
      AppendUnsub(msg, link).body == Leaf(NormaliseLines(msg.body.content + Footer(msg.ctype.sub, link)))
    ensures IsBinaryType(msg.ctype.main) ==>
      AppendUnsub(msg, link).body == Leaf(NormaliseLines(BytesRepr(msg.body.content) + Footer(msg.ctype.sub, link)))
  {
  }

  /** The `repr` of a binary payload has no line breaks, so the copy holds it and the
      footer exactly, with the final line feed `set_content` adds after HTML. */
  lemma AppendUnsubBinary(msg: Part, link: string)
    requires msg.body.Leaf? && IsBinaryType(msg.ctype.main) && '\r' !in link
    ensures var f := Footer(msg.ctype.sub, link);
      AppendUnsub(msg, link).body == Leaf(BytesRepr(msg.body.content) + f + (if msg.ctype.sub == "html" then "\n" else ""))
  {
    var b := BytesRepr(msg.body.content);
    assert '\r' !in b by {
      assert forall i :: 0 <= i < |b| ==> IsPrintable(b[i]);
    }
    FooterReadsBack(b, msg.ctype.sub, link);
  }

  /** The HTML footer links the address twice, inside an anchor; the plain footer
      names it once, on its own line. */
  lemma FooterShapes(subtype: string, link: string)
    ensures subtype == "html" ==> Footer(subtype, link) == "<br><br><p>Unsubscribe: <a href=\"" + link + "\">" + link + "</a></p>"
    ensures subtype != "html" ==> Footer(subtype, link) == "\n\nUnsubscribe: " + link + "\n"
  {
  }

  /** `forward_full_fidelity` for one recipient: To becomes the recipient, From the
      relay's address, Reply-To the relay's address only in `List` mode,
      List-Unsubscribe the link in angle brackets (section 3.2 of RFC 2369), and
      then the footer goes into the body. */
  function Forward(cfg: RelayConfig, msg: Part, rcpt: string, token: string): (r: Part)
    ensures r.body.Children? <==> msg.body.Children?
    ensures msg.body.Children? ==> r.ctype == msg.ctype
    ensures msg.body.Leaf? ==> r.ctype.main == "text" && r.ctype.sub == msg.ctype.sub
  {
    var link := BuildUnsubLink(cfg, rcpt, token);
    AppendUnsub(msg.(headers := ForwardHeaders(cfg, msg.headers, rcpt, link)), link)
  }

  /** The headers of a forwarded copy: the four edits hold, and every other field
      reads as in the received message, except that a single-part message loses
      its `Content-*` fields and may gain `MIME-Version` when its body is re-set. */
  lemma ForwardSpec(cfg: RelayConfig, msg: Part, rcpt: string, token: string)
    ensures var r := Forward(cfg, msg, rcpt, token);
      && Get(r.headers, "To") == Some(rcpt)
      && Get(r.headers, "From") == Some(cfg.fromHeader)
      && Get(r.headers, "List-Unsubscribe") == Some("<" + BuildUnsubLink(cfg, rcpt, token) + ">")
      && (cfg.replyToMode == Original ==> Get(r.headers, "Reply-To") == Get(msg.headers, "Reply-To"))
      && (cfg.replyToMode == List ==> Get(r.headers, "Reply-To") == Some(cfg.fromHeader))
      && (forall key :: !IsRewrittenName(key) && !IsContentName(key) && Lower(key) != "mime-version" ==>
            Get(r.headers, key) == Get(msg.headers, key))
      && (msg.body.Children? ==> forall key :: !IsRewrittenName(key) ==> Get(r.headers, key) == Get(msg.headers, key))
  {
    var link := BuildUnsubLink(cfg, rcpt, token);
    var h := ForwardHeaders(cfg, msg.headers, rcpt, link);
    ForwardHeadersSpec(cfg, msg.headers, rcpt, link);
    var m := msg.(headers := h);
    if msg.body.Children? {
      assert AppendUnsub(m, link).headers == h;
    } else {
      ForwardSingleHeaders(m, link);
      ForwardSingleSpec(cfg, msg, rcpt, link);
    }
  }

  lemma ForwardSingleSpec(cfg: RelayConfig, msg: Part, rcpt: string, link: string)
    requires msg.body.Leaf?
    ensures var r := AppendUnsub(msg.(headers := ForwardHeaders(cfg, msg.headers, rcpt, link)), link);
      && Get(r.headers, "To") == Some(rcpt)
      && Get(r.headers, "From") == Some(cfg.fromHeader)
      && Get(r.headers, "List-Unsubscribe") == Some("<" + link + ">")
      && (cfg.replyToMode == Original ==> Get(r.headers, "Reply-To") == Get(msg.headers, "Reply-To"))
      && (cfg.replyToMode == List ==> Get(r.headers, "Reply-To") == Some(cfg.fromHeader))
      && (forall key :: !IsRewrittenName(key) && !IsContentName(key) && Lower(key) != "mime-version" ==>
            Get(r.headers, key) == Get(msg.headers, key))
  {
    RewrittenNamesLowered();
    ForwardHeadersSpec(cfg, msg.headers, rcpt, link);
    var m := msg.(headers := ForwardHeaders(cfg, msg.headers, rcpt, link));
    ForwardSingleHeaderKey(m, link, "To");
    ForwardSingleHeaderKey(m, link, "From");
    ForwardSingleHeaderKey(m, link, "Reply-To");
    ForwardSingleHeaderKey(m, link, "List-Unsubscribe");
    ForwardSingleHeaders(m, link);
  }

  /** Re-setting the body of a single-part message keeps the fields `Forward` set. */
  lemma ForwardSingleHeaders(msg: Part, link: string)
    requires msg.body.Leaf?
    ensures forall key :: (IsRewrittenName(key) || !IsContentName(key)) && Lower(key) != "mime-version" ==>
      Get(AppendUnsub(msg, link).headers, key) == Get(msg.headers, key)
  {
    forall key | (IsRewrittenName(key) || !IsContentName(key)) && Lower(key) != "mime-version"
      ensures Get(AppendUnsub(msg, link).headers, key) == Get(msg.headers, key)
    {
      ForwardSingleHeaderKey(msg, link, key);
    }
  }

  lemma ForwardSingleHeaderKey(msg: Part, link: string, key: string)
    requires msg.body.Leaf?
    requires (IsRewrittenName(key) || !IsContentName(key)) && Lower(key) != "mime-version"
    ensures Get(AppendUnsub(msg, link).headers, key) == Get(msg.headers, key)
  {
    if IsRewrittenName(key) {
      RewrittenNotContent(key);
    }
  }

  lemma RewrittenNotContent(key: string)
    requires IsRewrittenName(key)
    ensures !IsContentName(key)
  {
    var l := Lower(key);
    if |key| >= 8 {
      assert l[..8] != "content-" by {
        assert l == "reply-to" || l == "list-unsubscribe";
        assert l[0] != 'c';
      }
    }
  }

  /** The header names `Forward` sets. */
  predicate IsRewrittenName(key: string) {
    Lower(key) in {"to", "from", "reply-to", "list-unsubscribe"}
  }

  /** The header surgery of `forward_full_fidelity`, before the body is touched. */
  function ForwardHeaders(cfg: RelayConfig, hs: Headers, rcpt: string, link: string): Headers {
    var h1 := SetOrReplace(hs, "To", rcpt);
    var h2 := SetOrReplace(h1, "From", cfg.fromHeader);
    var h3 := if cfg.replyToMode == Original then h2 else SetOrReplace(h2, "Reply-To", cfg.fromHeader);
    SetOrReplace(h3, "List-Unsubscribe", "<" + link + ">")
  }

  /** The lower-cased names `Forward` sets under `cfg`. */
  function ForwardedNames(cfg: RelayConfig): set<string> {
    {"to", "from", "list-unsubscribe"} + (if cfg.replyToMode == List then {"reply-to"} else {})
  }

  /** At the level of the field list: the header surgery keeps every field in its
      place and under its name, changes only the first field of one of the names it
      sets, and appends only fields of those names. */
  lemma ForwardHeadersEdits(cfg: RelayConfig, hs: Headers, rcpt: string, link: string)
    ensures EditsOnly(hs, ForwardHeaders(cfg, hs, rcpt, link), ForwardedNames(cfg))
  {
    var h2 := SetOrReplace(SetOrReplace(hs, "To", rcpt), "From", cfg.fromHeader);
    var value := "<" + link + ">";
    if cfg.replyToMode == Original {
      assert ForwardedNames(cfg) == {"to", "from"} + {"list-unsubscribe"};
      ToFromEdits(hs, rcpt, cfg.fromHeader);
      UnsubscribeEdit(hs, h2, {"to", "from"}, value);
    } else {
      var h3 := SetOrReplace(h2, "Reply-To", cfg.fromHeader);
      assert ForwardedNames(cfg) == {"to", "from", "reply-to"} + {"list-unsubscribe"};
      ReplyToEdit(hs, rcpt, cfg.fromHeader);
      UnsubscribeEdit(hs, h3, {"to", "from", "reply-to"}, value);
    }
  }

  lemma ReplyToEdit(hs: Headers, rcpt: string, from: string)
    ensures var h2 := SetOrReplace(SetOrReplace(hs, "To", rcpt), "From", from);
      EditsOnly(hs, SetOrReplace(h2, "Reply-To", from), {"to", "from", "reply-to"})
  {
    var h2 := SetOrReplace(SetOrReplace(hs, "To", rcpt), "From", from);
    ToFromEdits(hs, rcpt, from);
    EditsThenSet(hs, h2, {"to", "from"}, "Reply-To", from);
    RewrittenNamesLowered();
    assert {"to", "from"} + {Lower("Reply-To")} == {"to", "from", "reply-to"};
  }

  lemma UnsubscribeEdit(hs: Headers, h: Headers, names: set<string>, value: string)
    requires EditsOnly(hs, h, names)
    ensures EditsOnly(hs, SetOrReplace(h, "List-Unsubscribe", value), names + {"list-unsubscribe"})
  {
    EditsThenSet(hs, h, names, "List-Unsubscribe", value);
    RewrittenNamesLowered();
  }

  lemma ToFromEdits(hs: Headers, rcpt: string, from: string)
    ensures EditsOnly(hs, SetOrReplace(SetOrReplace(hs, "To", rcpt), "From", from), {"to", "from"})
  {
    RewrittenNamesLowered();
    SetOrReplaceEdits(hs, "To", rcpt);
    EditsThenSet(hs, SetOrReplace(hs, "To", rcpt), {"to"}, "From", from);
    assert {"to"} + {Lower("From")} == {"to", "from"};
  }

  /** An edit followed by one more `set_or_replace` edits one name more. */
  lemma EditsThenSet(a: Headers, b: Headers, names: set<string>, key: string, v: string)
    requires EditsOnly(a, b, names)
    ensures EditsOnly(a, SetOrReplace(b, key, v), names + {Lower(key)})
  {
    SetOrReplaceEdits(b, key, v);
    EditsCompose(a, b, SetOrReplace(b, key, v), names, {Lower(key)});
  }

  /** The field list of a forwarded copy: the received list with only the fields
      `Forward` sets edited, kept whole for a multipart message; for a single-part
      message the `Content-*` fields then drop out in order, and `MIME-Version` may
      be appended. */
  lemma ForwardKeepsFields(cfg: RelayConfig, msg: Part, rcpt: string, token: string)
    ensures var h := ForwardHeaders(cfg, msg.headers, rcpt, BuildUnsubLink(cfg, rcpt, token));
      var r := Forward(cfg, msg, rcpt, token);
      && EditsOnly(msg.headers, h, ForwardedNames(cfg))
      && (msg.body.Children? ==> r.headers == h)
      && (msg.body.Leaf? ==> r.headers == DropContentFields(h) || r.headers == DropContentFields(h) + [MimeVersion()])
  {
    ForwardHeadersEdits(cfg, msg.headers, rcpt, BuildUnsubLink(cfg, rcpt, token));
  }

  lemma RewrittenNamesLowered()
    ensures Lower("To") == "to" && Lower("From") == "from"
    ensures Lower("Reply-To") == "reply-to" && Lower("List-Unsubscribe") == "list-unsubscribe"
  {
  }

  /** Every field `Forward` does not set reads as before. */
  lemma ForwardHeadersKeep(cfg: RelayConfig, hs: Headers, rcpt: string, link: string, key: string)
    requires !IsRewrittenName(key)
    ensures Get(ForwardHeaders(cfg, hs, rcpt, link), key) == Get(hs, key)
  {
    RewrittenNamesLowered();
    var h1 := SetOrReplace(hs, "To", rcpt);
    var h2 := SetOrReplace(h1, "From", cfg.fromHeader);
    var h3 := if cfg.replyToMode == Original then h2 else SetOrReplace(h2, "Reply-To", cfg.fromHeader);
    SetOrReplaceKeepsOthers(hs, "To", rcpt, key);
    SetOrReplaceKeepsOthers(h1, "From", cfg.fromHeader, key);
    if cfg.replyToMode == List {
      SetOrReplaceKeepsOthers(h2, "Reply-To", cfg.fromHeader, key);
    }
    SetOrReplaceKeepsOthers(h3, "List-Unsubscribe", "<" + link + ">", key);
  }

  /** The four header edits set their fields and leave every other field as `get`
      reads it. */
  lemma ForwardHeadersSpec(cfg: RelayConfig, hs: Headers, rcpt: string, link: string)
    ensures var r := ForwardHeaders(cfg, hs, rcpt, link);
      && Get(r, "To") == Some(rcpt)
      && Get(r, "From") == Some(cfg.fromHeader)
      && Get(r, "List-Unsubscribe") == Some("<" + link + ">")
      && (cfg.replyToMode == Original ==> Get(r, "Reply-To") == Get(hs, "Reply-To"))
      && (cfg.replyToMode == List ==> Get(r, "Reply-To") == Some(cfg.fromHeader))
      && (forall key :: !IsRewrittenName(key) ==> Get(r, key) == Get(hs, key))
  {
    RewrittenNamesLowered();
    var h1 := SetOrReplace(hs, "To", rcpt);
    var h2 := SetOrReplace(h1, "From", cfg.fromHeader);
    var h3 := if cfg.replyToMode == Original then h2 else SetOrReplace(h2, "Reply-To", cfg.fromHeader);
    forall key | !IsRewrittenName(key)
      ensures Get(ForwardHeaders(cfg, hs, rcpt, link), key) == Get(hs, key)
    {
      ForwardHeadersKeep(cfg, hs, rcpt, link, key);
    }
    SetOrReplaceKeepsOthers(h1, "From", cfg.fromHeader, "To");
    SetOrReplaceKeepsOthers(h3, "List-Unsubscribe", "<" + link + ">", "To");
    SetOrReplaceKeepsOthers(h3, "List-Unsubscribe", "<" + link + ">", "From");
    SetOrReplaceKeepsOthers(h3, "List-Unsubscribe", "<" + link + ">", "Reply-To");
    if cfg.replyToMode == List {
      SetOrReplaceKeepsOthers(h2, "Reply-To", cfg.fromHeader, "To");
      SetOrReplaceKeepsOthers(h2, "Reply-To", cfg.fromHeader, "From");
    } else {
      SetOrReplaceKeepsOthers(hs, "To", rcpt, "Reply-To");
      SetOrReplaceKeepsOthers(h1, "From", cfg.fromHeader, "Reply-To");
    }
  }
}

=== FILE: roster.dfy ===
/** The `recipients` table and the console's bulk upsert (`_upsert_recipient` and the
    bulk branch of `manage` in src/webserver.py). The table is a sequence of rows in
    insertion order; the current time and the freshly generated token are parameters. */
module Roster {
  import opened Wrappers

  type Timestamp = int

  datatype Recipient = Recipient(
    id: int,
    email: string,
    name: Option<string>,
    rank: int,
    unsubscribed: bool,
    token: string,
    createdAt: Timestamp,
    updatedAt: Timestamp,
    unsubscribedAt: Option<Timestamp>)

  type Roster = seq<Recipient>

  /** An HTTP status together with the table as the request leaves it. */
  datatype Reply = Reply(status: int, roster: Roster)

  /** Rank given to a new row when none is supplied, and to an unparsable rank. */
  const DefaultRank: int := 100

  predicate HasEmail(roster: Roster, email: string) {
    exists i :: 0 <= i < |roster| && roster[i].email == email
  }

  /** The table's UNIQUE constraint on `email`. */
  predicate DistinctEmails(roster: Roster) {
    forall i, j :: 0 <= i < j < |roster| ==> roster[i].email != roster[j].email
  }

  /** Row ids grow with insertion order, as SQLite assigns them. */
  predicate IdsIncrease(roster: Roster) {
    forall i, j :: 0 <= i < j < |roster| ==> roster[i].id < roster[j].id
  }

  predicate Valid(roster: Roster) {
    DistinctEmails(roster) && IdsIncrease(roster)
  }

  /** The parts of a row no console action or relay step ever changes: its id, the
      token issued with it and its creation time. */
  predicate SameIdentity(a: Recipient, b: Recipient) {
    a.id == b.id && a.token == b.token && a.createdAt == b.createdAt
  }

  /** Every row of `before` is still present, at the same position, with the same
      identity and token; rows are never deleted or reordered. */
  predicate KeepsIdentities(before: Roster, after: Roster) {
    |before| <= |after| &&
    forall i :: 0 <= i < |before| ==> SameIdentity(before[i], after[i])
  }

  function MaxId(roster: Roster): (m: int)
    requires roster != []
    ensures forall i :: 0 <= i < |roster| ==> roster[i].id <= m
    ensures exists i :: 0 <= i < |roster| && roster[i].id == m
  {
    if |roster| == 1 then roster[0].id
    else
      var m := MaxId(roster[1..]);
      assert forall i :: 1 <= i < |roster| ==> roster[i] == roster[1..][i - 1];
      if roster[0].id >= m then roster[0].id else m
  }

  /** The id SQLite gives the next inserted row: one past the largest, 1 for an empty table. */
  function NextId(roster: Roster): (id: int)
    ensures forall i :: 0 <= i < |roster| ==> roster[i].id < id
  {
    if roster == [] then 1 else MaxId(roster) + 1
  }

  /** The UPDATE applied to an existing row: `COALESCE` keeps the old rank and name
      when none is given; the flag is touched only when `subscribed` is given. */
  function Refresh(row: Recipient, rank: Option<int>, subscribed: Option<bool>,
                   name: Option<string>, now: Timestamp): Recipient
  {
    var row1 := row.(rank := rank.GetOr(row.rank),
                     name := if name.Some? then name else row.name,
                     updatedAt := now);
    match subscribed
    case None => row1
    case Some(sub) => row1.(unsubscribed := !sub, unsubscribedAt := if sub then None else Some(now))
  }

  /** `_upsert_recipient(cur, email, rank, subscribed, name)` at time `now`, where
      `token` is the value `secrets.token_hex` would produce for a new row. */
  function Upsert(roster: Roster, email: string, rank: Option<int>, subscribed: Option<bool>,
                  name: Option<string>, now: Timestamp, token: string): (r: Roster)
    ensures KeepsIdentities(roster, r)
    ensures forall i :: 0 <= i < |roster| ==> r[i].email == roster[i].email
    ensures forall i :: 0 <= i < |roster| && roster[i].email != email ==> r[i] == roster[i]
    // an existing address: updated in place, no row added
    ensures HasEmail(roster, email) ==> |r| == |roster|
    ensures forall i :: 0 <= i < |roster| && roster[i].email == email ==>
      && r[i].rank == rank.GetOr(roster[i].rank)
      && r[i].name == (if name.Some? then name else roster[i].name)
      && r[i].updatedAt == now
      && (subscribed.None? ==>
            r[i].unsubscribed == roster[i].unsubscribed && r[i].unsubscribedAt == roster[i].unsubscribedAt)
      && (subscribed.Some? ==>
            r[i].unsubscribed == !subscribed.value
            && r[i].unsubscribedAt == (if subscribed.value then None else Some(now)))
    // a new address: exactly one row appended, carrying the newToken token
    ensures !HasEmail(roster, email) ==>
      && |r| == |roster| + 1
      && r[..|roster|] == roster
      && var row := r[|roster|];
      && row.email == email && row.token == token && row.name == name
      && row.rank == rank.GetOr(DefaultRank)
      && row.unsubscribed == (subscribed == Some(false))
      && (row.unsubscribedAt.Some? <==> row.unsubscribed)
      && (row.unsubscribedAt.Some? ==> row.unsubscribedAt.value == now)
      && row.createdAt == now && row.updatedAt == now
      && (forall i :: 0 <= i < |roster| ==> roster[i].id < row.id)
  {
    if HasEmail(roster, email) then
      seq(|roster|, i requires 0 <= i < |roster| =>
        if roster[i].email == email then Refresh(roster[i], rank, subscribed, name, now) else roster[i])
    else
      var unsub := subscribed == Some(false);
      roster + [Recipient(NextId(roster), email, name, rank.GetOr(DefaultRank), unsub, token,
                          now, now, if unsub then Some(now) else None)]
  }

  lemma UpsertPreservesValid(roster: Roster, email: string, rank: Option<int>, subscribed: Option<bool>,
                             name: Option<string>, now: Timestamp, token: string)
    requires Valid(roster)
    ensures Valid(Upsert(roster, email, rank, subscribed, name, now, token))
  {
  }

  /** The bulk subscribe / unsubscribe branch of `manage`: one upsert per listed
      address, in order, with no rank and no name. Each upsert reads the clock
      afresh: `clock(i)` is the time of the i-th address's upsert, and `newToken(i)`
      the token a new row for it would get. */
  function Bulk(roster: Roster, emails: seq<string>, subscribe: bool, clock: nat -> Timestamp,
                newToken: nat -> string): (r: Roster)
    ensures |roster| <= |r| <= |roster| + |emails|
    decreases |emails|
  {
    if emails == [] then roster
    else
      var n := |emails| - 1;
      Upsert(Bulk(roster, emails[..n], subscribe, clock, newToken), emails[n], None, Some(subscribe), None, clock(n), newToken(n))
  }

  /** What a bulk action promises about the rows that were there before it: in
      place with their token, rank and name, untouched unless listed, and any row
      beyond them is for a listed address. */
  predicate KeptBy(roster: Roster, r: Roster, emails: seq<string>) {
    && KeepsIdentities(roster, r)
    && (forall i :: 0 <= i < |roster| ==>
          r[i].email == roster[i].email && r[i].rank == roster[i].rank && r[i].name == roster[i].name)
    && (forall i :: 0 <= i < |roster| && roster[i].email !in emails ==> r[i] == roster[i])
    && (forall i :: |roster| <= i < |r| ==> r[i].email in emails)
  }

  /** One more upsert of a listed address, with no rank or name, keeps `KeptBy`. */
  lemma UpsertKeeps(roster: Roster, prev: Roster, listed: seq<string>, email: string,
                    subscribed: bool, at: Timestamp, token: string)
    requires KeptBy(roster, prev, listed)
    ensures KeptBy(roster, Upsert(prev, email, None, Some(subscribed), None, at, token), listed + [email])
  {
    var r := Upsert(prev, email, None, Some(subscribed), None, at, token);
    assert forall i :: 0 <= i < |roster| ==> SameIdentity(prev[i], r[i]);
    forall i | |roster| <= i < |r|
      ensures r[i].email in listed + [email]
    {
      if i < |prev| {
        assert r[i].email == prev[i].email;
      }
    }
  }

  /** A bulk action leaves existing rows in place with their token, rank and name,
      does not touch rows for unlisted addresses, and only adds rows for listed ones. */
  lemma {:induction false} BulkKeeps(roster: Roster, emails: seq<string>, subscribe: bool,
                                     clock: nat -> Timestamp, newToken: nat -> string)
    ensures KeptBy(roster, Bulk(roster, emails, subscribe, clock, newToken), emails)
    decreases |emails|
  {
    if emails != [] {
      var n := |emails| - 1;
      var prev := Bulk(roster, emails[..n], subscribe, clock, newToken);
      BulkKeeps(roster, emails[..n], subscribe, clock, newToken);
      UpsertKeeps(roster, prev, emails[..n], emails[n], subscribe, clock(n), newToken(n));
      assert emails[..n] + [emails[n]] == emails;
    } else {
      assert forall i :: 0 <= i < |roster| ==> SameIdentity(roster[i], roster[i]);
    }
  }

  /** After a bulk action every listed address has a row. */
  lemma {:induction false} BulkCovers(roster: Roster, emails: seq<string>, subscribe: bool,
                                      clock: nat -> Timestamp, newToken: nat -> string)
    ensures forall e :: e in emails ==> HasEmail(Bulk(roster, emails, subscribe, clock, newToken), e)
    decreases |emails|
  {
    if emails != [] {
      var n := |emails| - 1;
      var prev := Bulk(roster, emails[..n], subscribe, clock, newToken);
      BulkCovers(roster, emails[..n], subscribe, clock, newToken);
      var r := Upsert(prev, emails[n], None, Some(subscribe), None, clock(n), newToken(n));
      forall e | e in emails
        ensures HasEmail(r, e)
      {
        if e in emails[..n] {
          var i :| 0 <= i < |prev| && prev[i].email == e;
          assert r[i].email == e;
        } else {
          assert e == emails[n];
          if HasEmail(prev, e) {
            var i :| 0 <= i < |prev| && prev[i].email == e;
            assert r[i].email == e;
          } else {
            assert r[|prev|].email == e;
          }
        }
      }
    }
  }

  /** The position of the last occurrence of `e` in `emails`: the upsert whose
      stamps a row for `e` keeps. */
  function LastIndex(emails: seq<string>, e: string): (k: nat)
    requires e in emails
    ensures k < |emails| && emails[k] == e
    ensures forall j :: k < j < |emails| ==> emails[j] != e
  {
    var n := |emails| - 1;
    if emails[n] == e then n
    else
      assert e in emails[..n] by {
        var j :| 0 <= j < |emails| && emails[j] == e;
        assert emails[..n][j] == e;
      }
      LastIndex(emails[..n], e)
  }

  lemma LastIndexAppend(listed: seq<string>, email: string, e: string)
    requires e in listed + [email]
    ensures LastIndex(listed + [email], e) == if e == email then |listed| else LastIndex(listed, e)
  {
    assert (listed + [email])[..|listed|] == listed;
  }

  /** Every row whose address is listed carries the flag a bulk (un)subscribe gives
      it and the stamps of the last upsert of its address. */
  predicate ListedInState(r: Roster, emails: seq<string>, subscribe: bool, clock: nat -> Timestamp) {
    forall i :: 0 <= i < |r| && r[i].email in emails ==>
      var at := clock(LastIndex(emails, r[i].email));
      && r[i].unsubscribed == !subscribe
      && r[i].unsubscribedAt == (if subscribe then None else Some(at))
      && r[i].updatedAt == at
  }

  /** One more upsert of a listed address, at the time the clock gives its
      position, keeps the listed rows in the requested state. */
  lemma UpsertApplies(prev: Roster, listed: seq<string>, email: string, subscribe: bool,
                      clock: nat -> Timestamp, token: string)
    requires ListedInState(prev, listed, subscribe, clock)
    ensures ListedInState(Upsert(prev, email, None, Some(subscribe), None, clock(|listed|), token),
                          listed + [email], subscribe, clock)
  {
    var now := clock(|listed|);
    var r := Upsert(prev, email, None, Some(subscribe), None, now, token);
    forall i | 0 <= i < |r| && r[i].email in listed + [email]
      ensures var at := clock(LastIndex(listed + [email], r[i].email));
        && r[i].unsubscribed == !subscribe
        && r[i].unsubscribedAt == (if subscribe then None else Some(at))
        && r[i].updatedAt == at
    {
      LastIndexAppend(listed, email, r[i].email);
      if i < |prev| && prev[i].email != email {
        assert r[i] == prev[i];
        assert prev[i].email in listed;
      } else if i >= |prev| {
        assert !HasEmail(prev, email);
      }
    }
  }

  /** After a bulk action every row for a listed address is in the requested state,
      stamped with the time of the last upsert of its address. */
  lemma {:induction false} BulkApplies(roster: Roster, emails: seq<string>, subscribe: bool,
                                       clock: nat -> Timestamp, newToken: nat -> string)
    ensures ListedInState(Bulk(roster, emails, subscribe, clock, newToken), emails, subscribe, clock)
    decreases |emails|
  {
    if emails != [] {
      var n := |emails| - 1;
      var prev := Bulk(roster, emails[..n], subscribe, clock, newToken);
      BulkApplies(roster, emails[..n], subscribe, clock, newToken);
      UpsertApplies(prev, emails[..n], emails[n], subscribe, clock, newToken(n));
      assert emails[..n] + [emails[n]] == emails;
    }
  }

  lemma {:induction false} BulkPreservesValid(roster: Roster, emails: seq<string>, subscribe: bool,
                                              clock: nat -> Timestamp, newToken: nat -> string)
    requires Valid(roster)
    ensures Valid(Bulk(roster, emails, subscribe, clock, newToken))
    decreases |emails|
  {
    if emails != [] {
      var n := |emails| - 1;
      BulkPreservesValid(roster, emails[..n], subscribe, clock, newToken);
      UpsertPreservesValid(Bulk(roster, emails[..n], subscribe, clock, newToken), emails[n], None, Some(subscribe), None, clock(n), newToken(n));
    }
  }
}

=== FILE: text.dfy ===
/** Character and string helpers shared by the web console and the relay daemon:
    ASCII lower-casing, Python's whitespace stripping, substring search and
    splitting at the first occurrence of a character. */
module Text {

  predicate IsUpper(c: char) {
    'A' <= c <= 'Z'
  }

  /** `str.lower()` restricted to ASCII letters. */
  function LowerChar(c: char): char {
    if IsUpper(c) then (c as int + 32) as char else c
  }

  function Lower(s: string): (r: string)
    ensures |r| == |s|
    ensures forall i :: 0 <= i < |s| ==> r[i] == LowerChar(s[i])
  {
    seq(|s|, i requires 0 <= i < |s| => LowerChar(s[i]))
  }

  /** A string with no upper-case ASCII letter. */
  predicate IsLowered(s: string) {
    forall i :: 0 <= i < |s| ==> !IsUpper(s[i])
  }

  lemma LowerIsLowered(s: string)
    ensures IsLowered(Lower(s))
  {
  }

  lemma LowerOfLowered(s: string)
    requires IsLowered(s)
    ensures Lower(s) == s
  {
  }

  /** The characters for which Python's `str.isspace()` holds. */
  predicate IsSpace(c: char) {
    || c == ' '
    || '\t' <= c <= '\r'
    || '\U{1c}' <= c <= '\U{1f}'
    || c == '\U{85}' || c == '\U{a0}' || c == '\U{1680}'
    || '\U{2000}' <= c <= '\U{200a}'
    || c == '\U{2028}' || c == '\U{2029}' || c == '\U{202f}' || c == '\U{205f}'
    || c == '\U{3000}'
  }

  /** Neither end is whitespace: what `str.strip()` leaves behind. */
  predicate IsStripped(s: string) {
    s == [] || (!IsSpace(s[0]) && !IsSpace(s[|s| - 1]))
  }

  /** Lower-casing touches letters only, so a stripped string stays stripped. */
  lemma LowerKeepsStripped(s: string)
    requires IsStripped(s)
    ensures IsStripped(Lower(s))
  {
    var l := Lower(s);
    if s != [] {
      assert l[0] == LowerChar(s[0]);
      assert l[|l| - 1] == LowerChar(s[|s| - 1]);
    }
  }

  function TrimStart(s: string): (r: string)
    ensures |r| <= |s| && r == s[|s| - |r|..]
    ensures r == [] || !IsSpace(r[0])
    ensures forall i :: 0 <= i < |s| - |r| ==> IsSpace(s[i])
  {
    if s != [] && IsSpace(s[0]) then TrimStart(s[1..]) else s
  }

  function TrimEnd(s: string): (r: string)
    ensures |r| <= |s| && r == s[..|r|]
    ensures r == [] || !IsSpace(r[|r| - 1])
    ensures forall i :: |r| <= i < |s| ==> IsSpace(s[i])
  {
    if s != [] && IsSpace(s[|s| - 1]) then TrimEnd(s[..|s| - 1]) else s
  }

  /** Python's `str.strip()` with no argument: the slice of `s` left after removing
      leading and trailing whitespace. */
  function Strip(s: string): (r: string)
    ensures IsStripped(r)
    ensures StripFrom(s) + |r| <= |s| && r == s[StripFrom(s)..StripFrom(s) + |r|]
  {
    var a := TrimStart(s);
    var b := TrimEnd(a);
    assert IsStripped(b) by {
      if b != [] {
        assert b[0] == a[0];
      }
    }
    b
  }

  /** What `Strip` removes is white space: everything before the slice it keeps
      and everything after it. */
  lemma StripRemovesSpace(s: string)
    ensures forall i :: 0 <= i < StripFrom(s) ==> IsSpace(s[i])
    ensures forall i :: StripFrom(s) + |Strip(s)| <= i < |s| ==> IsSpace(s[i])
  {
    var a := TrimStart(s);
    var b := TrimEnd(a);
    assert forall i :: |b| <= i < |a| ==> IsSpace(a[i]);
    assert forall i :: 0 <= i < |a| ==> a[i] == s[StripFrom(s) + i];
  }

  /** Where the slice `Strip(s)` starts in `s`. */
  function StripFrom(s: string): nat {
    |s| - |TrimStart(s)|
  }

  lemma StripOfStripped(s: string)
    requires IsStripped(s)
    ensures Strip(s) == s
  {
  }

  /** Python's `sub in s`. */
  predicate Contains(s: string, sub: string)
    decreases |s|
  {
    (|sub| <= |s| && s[..|sub|] == sub) || (s != [] && Contains(s[1..], sub))
  }

  /** Index of the first occurrence of `c` in `s`, if any. */
  function FindChar(s: string, c: char): (r: int)
    ensures -1 <= r < |s|
    ensures r == -1 <==> c !in s
    ensures r >= 0 ==> s[r] == c && c !in s[..r]
  {
    if s == [] then -1
    else if s[0] == c then 0
    else
      var k := FindChar(s[1..], c);
      if k == -1 then -1 else assert s[..k + 1] == [s[0]] + s[1..][..k]; k + 1
  }

  /** `s.split(c, 1)[1]` when `c` occurs in `s`: everything after the first `c`. */
  function AfterFirst(s: string, c: char): (r: string)
    requires c in s
    ensures exists pre :: c !in pre && s == pre + [c] + r
  {
    var k := FindChar(s, c);
    assert s == s[..k] + [c] + s[k + 1..];
    s[k + 1..]
  }

  lemma AfterFirstOf(pre: string, c: char, post: string)
    requires c !in pre
    ensures c in pre + [c] + post
    ensures AfterFirst(pre + [c] + post, c) == post
  {
    var s := pre + [c] + post;
    assert s[|pre|] == c;
    assert s[..|pre|] == pre;
  }

  /** All characters are ASCII, as `hmac.compare_digest` demands of `str` arguments. */
  predicate IsAscii(s: string) {
    forall i :: 0 <= i < |s| ==> s[i] as int < 128
  }
}

=== FILE: unsubscribe.dfy ===
/** The signed self-service unsubscribe link as the web console checks it: `sign` and
    the `/unsub` endpoint of src/webserver.py. The keyed hash (HMAC-SHA256 under the
    shared secret) is the parameter `mac`, applied to the signed text. */
module Unsubscribe {
  import opened Wrappers
  import opened Text
  import opened Roster

  /** The text the signature covers: the address, a newline, the token. */
  function SignedText(email: string, token: string): string {
    email + "\n" + token
  }

  function Sign(mac: string -> string, email: string, token: string): string {
    mac(SignedText(email, token))
  }

  /** For addresses without a newline the signed text determines the pair, so a
      collision-free `mac` binds a signature to one (address, token) pair. */
  lemma {:induction false} SignedTextInjective(e1: string, t1: string, e2: string, t2: string)
    requires '\n' !in e1 && '\n' !in e2
    requires SignedText(e1, t1) == SignedText(e2, t2)
    ensures e1 == e2 && t1 == t2
  {
    var s := SignedText(e1, t1);
    AfterFirstOf(e1, '\n', t1);
    AfterFirstOf(e2, '\n', t2);
    assert s == e1 + ['\n'] + t1 && s == e2 + ['\n'] + t2;
    assert t1 == t2;
    assert e1 == s[..|e1|] && e2 == s[..|e2|];
  }

  lemma SignBinds(mac: string -> string, e1: string, t1: string, e2: string, t2: string)
    requires forall x, y :: mac(x) == mac(y) ==> x == y
    requires '\n' !in e1 && '\n' !in e2
    requires Sign(mac, e1, t1) == Sign(mac, e2, t2)
    ensures e1 == e2 && t1 == t2
  {
    SignedTextInjective(e1, t1, e2, t2);
  }

  /** Index of the row `SELECT token FROM recipients WHERE email=?` returns first. */
  function FindRow(roster: Roster, email: string): (r: Option<nat>)
    ensures r.None? <==> !HasEmail(roster, email)
    ensures r.Some? ==> r.value < |roster| && roster[r.value].email == email
    ensures r.Some? ==> forall j :: 0 <= j < r.value ==> roster[j].email != email
  {
    if roster == [] then None
    else if roster[0].email == email then Some(0)
    else
      match FindRow(roster[1..], email)
      case None => None
      case Some(k) => Some(k + 1)
  }

  /** The address, token and signature carry what the endpoint demands before it
      touches the table: a valid signature over the lower-cased address and the
      token, and a row for that address holding that token. */
  predicate Authorized(roster: Roster, mac: string -> string, e: string, t: string, s: string) {
    && e != [] && t != [] && s != []
    && IsAscii(s) && IsAscii(Sign(mac, e, t))
    && Sign(mac, e, t) == s
    && FindRow(roster, e).Some?
    && roster[FindRow(roster, e).value].token == t
  }

  /** The row after a successful unsubscribe at `now`. */
  function Unsubscribed(row: Recipient, now: Timestamp): Recipient {
    row.(unsubscribed := true, unsubscribedAt := Some(now), updatedAt := now)
  }

  /** `GET /unsub?e=..&t=..&s=..` at time `now`; a missing parameter is `None`. The
      answer is 400 when a parameter is missing or empty, 500 when the signature
      comparison raises (`hmac.compare_digest` refuses non-ASCII text), 403 for a bad
      signature, an unknown address or a token mismatch, and 200 after flagging the
      address's row. */
  function Unsub(roster: Roster, mac: string -> string, e: Option<string>, t: Option<string>,
                 s: Option<string>, now: Timestamp): (r: Reply)
    ensures r.status in {200, 400, 403, 500}
    ensures r.status == 400 <==> (e.GetOr([]) == [] || t.GetOr([]) == [] || s.GetOr([]) == [])
    ensures r.status == 200 <==> Authorized(roster, mac, Lower(e.GetOr([])), t.GetOr([]), s.GetOr([]))
    ensures r.status == 500 <==>
      && e.GetOr([]) != [] && t.GetOr([]) != [] && s.GetOr([]) != []
      && (!IsAscii(s.GetOr([])) || !IsAscii(Sign(mac, Lower(e.GetOr([])), t.GetOr([]))))
    ensures r.status == 403 <==>
      && e.GetOr([]) != [] && t.GetOr([]) != [] && s.GetOr([]) != []
      && IsAscii(s.GetOr([])) && IsAscii(Sign(mac, Lower(e.GetOr([])), t.GetOr([])))
      && !Authorized(roster, mac, Lower(e.GetOr([])), t.GetOr([]), s.GetOr([]))
    ensures r.status != 200 ==> r.roster == roster
    ensures r.status == 200 ==>
      && |r.roster| == |roster|
      && forall i :: 0 <= i < |roster| ==>
           r.roster[i] == if roster[i].email == Lower(e.GetOr([])) then Unsubscribed(roster[i], now) else roster[i]
  {
    var email := Lower(e.GetOr([]));
    var token := t.GetOr([]);
    var sig := s.GetOr([]);
    if email == [] || token == [] || sig == [] then
      Reply(400, roster)
    else if !IsAscii(Sign(mac, email, token)) || !IsAscii(sig) then
      Reply(500, roster)
    else if Sign(mac, email, token) != sig then
      Reply(403, roster)
    else
      match FindRow(roster, email)
      case None => Reply(403, roster)
      case Some(k) =>
        if roster[k].token != token then Reply(403, roster)
        else
          Reply(200, seq(|roster|, i requires 0 <= i < |roster| =>
            if roster[i].email == email then Unsubscribed(roster[i], now) else roster[i]))
  }

  /** Repeating a successful unsubscribe succeeds again and leaves the row flagged;
      the second call stamps `unsubscribed_at` and `updated_at` anew. */
  lemma UnsubRepeat(roster: Roster, mac: string -> string, e: Option<string>, t: Option<string>,
                    s: Option<string>, now1: Timestamp, now2: Timestamp)
    requires Unsub(roster, mac, e, t, s, now1).status == 200
    ensures var r1 := Unsub(roster, mac, e, t, s, now1).roster;
      var r2 := Unsub(r1, mac, e, t, s, now2);
      && r2.status == 200
      && |r2.roster| == |roster|
      && (forall i :: 0 <= i < |roster| && roster[i].email == Lower(e.GetOr([])) ==>
            r2.roster[i] == Unsubscribed(roster[i], now2))
      && (forall i :: 0 <= i < |roster| && roster[i].email != Lower(e.GetOr([])) ==>
            r2.roster[i] == roster[i])
  {
    var email := Lower(e.GetOr([]));
    var r1 := Unsub(roster, mac, e, t, s, now1).roster;
    var k := FindRow(roster, email).value;
    assert FindRow(r1, email) == FindRow(roster, email) by {
      assert forall i :: 0 <= i < |roster| ==> r1[i].email == roster[i].email;
      FindRowSameEmails(roster, r1, email);
    }
  }

  lemma {:induction false} FindRowSameEmails(a: Roster, b: Roster, email: string)
    requires |a| == |b| && forall i :: 0 <= i < |a| ==> a[i].email == b[i].email
    ensures FindRow(a, email) == FindRow(b, email)
  {
    if a != [] {
      FindRowSameEmails(a[1..], b[1..], email);
    }
  }

  lemma UnsubPreservesValid(roster: Roster, mac: string -> string, e: Option<string>, t: Option<string>,
                            s: Option<string>, now: Timestamp)
    requires Valid(roster)
    ensures Valid(Unsub(roster, mac, e, t, s, now).roster)
    ensures KeepsIdentities(roster, Unsub(roster, mac, e, t, s, now).roster)
  {
  }
}

=== FILE: urlcodec.dfy ===
/** The text encodings the unsubscribe link passes through: UTF-8, the `quote_plus`
    percent-encoding that `urlencode` applies to each value (section 2.1 of RFC 3986
    with the form convention of `+` for a space), and the query-string parsing that
    hands the endpoint its `e`, `t` and `s` arguments. */
module UrlCodec {
  import opened Wrappers
  import opened Text

  type Byte = b: int | 0 <= b < 256

  /** The UTF-8 encoding of one Unicode scalar value (RFC 3629, section 3). */
  function EncodeChar(c: char): (r: seq<Byte>)
    ensures 1 <= |r| <= 4
    ensures c as int < 128 ==> r == [c as int]
  {
    var n := c as int;
    if n < 0x80 then [n]
    else if n < 0x800 then [0xC0 + n / 64, 0x80 + n % 64]
    else if n < 0x10000 then [0xE0 + n / 4096, 0x80 + (n / 64) % 64, 0x80 + n % 64]
    else [0xF0 + n / 262144, 0x80 + (n / 4096) % 64, 0x80 + (n / 64) % 64, 0x80 + n % 64]
  }

  /** `s.encode("utf-8")`. */
  function EncodeUtf8(s: string): (r: seq<Byte>)
    ensures IsAscii(s) ==> |r| == |s| && forall i :: 0 <= i < |s| ==> r[i] == s[i] as int
  {
    if s == [] then [] else EncodeChar(s[0]) + EncodeUtf8(s[1..])
  }

  predicate IsCont(b: Byte) {
    0x80 <= b < 0xC0
  }

  predicate IsScalar(v: int) {
    0 <= v < 0xD800 || 0xE000 <= v < 0x110000
  }

  const Replacement: char := '\U{FFFD}'

  /** The character the bytes at the front of `bs` decode to, and how many bytes it
      takes: a well-formed sequence of RFC 3629 decodes to its value; a byte that
      starts none decodes to U+FFFD and takes one byte. */
  function DecodeOne(bs: seq<Byte>): (r: (char, nat))
    requires bs != []
    ensures 1 <= r.1 <= |bs|
  {
    var b0 := bs[0];
    if b0 < 0x80 then (b0 as char, 1)
    else if 0xC2 <= b0 < 0xE0 && |bs| >= 2 && IsCont(bs[1]) then
      (((b0 as int - 0xC0) * 64 + (bs[1] as int - 0x80)) as char, 2)
    else if 0xE0 <= b0 < 0xF0 && |bs| >= 3 && IsCont(bs[1]) && IsCont(bs[2]) &&
            0x800 <= Value3(bs[0], bs[1], bs[2]) && IsScalar(Value3(bs[0], bs[1], bs[2])) then
      (Value3(bs[0], bs[1], bs[2]) as char, 3)
    else if 0xF0 <= b0 < 0xF5 && |bs| >= 4 && IsCont(bs[1]) && IsCont(bs[2]) && IsCont(bs[3]) &&
            0x10000 <= Value4(bs[0], bs[1], bs[2], bs[3]) && IsScalar(Value4(bs[0], bs[1], bs[2], bs[3])) then
      (Value4(bs[0], bs[1], bs[2], bs[3]) as char, 4)
    else (Replacement, 1)
  }

  function Value3(b0: Byte, b1: Byte, b2: Byte): int {
    (b0 - 0xE0) * 4096 + (b1 - 0x80) * 64 + (b2 - 0x80)
  }

  function Value4(b0: Byte, b1: Byte, b2: Byte, b3: Byte): int {
    (b0 - 0xF0) * 262144 + (b1 - 0x80) * 4096 + (b2 - 0x80) * 64 + (b3 - 0x80)
  }

  /** `bs.decode("utf-8", "replace")`, one replacement character per offending byte. */
  function DecodeUtf8(bs: seq<Byte>): string
    decreases |bs|
  {
    if bs == [] then []
    else
      var (c, k) := DecodeOne(bs);
      [c] + DecodeUtf8(bs[k..])
  }

  lemma DecodeOneOfEncoded(c: char, rest: seq<Byte>)
    ensures DecodeOne(EncodeChar(c) + rest) == (c, |EncodeChar(c)|)
  {
    var n := c as int;
    var bs := EncodeChar(c) + rest;
    if n < 0x80 {
    } else if n < 0x800 {
      assert bs[0] == 0xC0 + n / 64 && bs[1] == 0x80 + n % 64;
    } else if n < 0x10000 {
      assert bs[0] == 0xE0 + n / 4096 && bs[1] == 0x80 + (n / 64) % 64 && bs[2] == 0x80 + n % 64;
      Split3(n);
    } else {
      assert bs[0] == 0xF0 + n / 262144 && bs[1] == 0x80 + (n / 4096) % 64;
      assert bs[2] == 0x80 + (n / 64) % 64 && bs[3] == 0x80 + n % 64;
      Split4(n);
    }
  }

  lemma Split3(n: int)
    requires 0x800 <= n < 0x10000
    ensures Value3(0xE0 + n / 4096, 0x80 + (n / 64) % 64, 0x80 + n % 64) == n
  {
    assert n / 64 == (n / 4096) * 64 + (n / 64) % 64;
  }

  lemma Split4(n: int)
    requires 0x10000 <= n < 0x110000
    ensures Value4(0xF0 + n / 262144, 0x80 + (n / 4096) % 64, 0x80 + (n / 64) % 64, 0x80 + n % 64) == n
  {
    assert n / 4096 == (n / 262144) * 64 + (n / 4096) % 64;
    assert n / 64 == (n / 4096) * 64 + (n / 64) % 64;
  }

  /** Decoding undoes encoding: every string survives the trip through UTF-8. */
  lemma {:induction false} DecodeEncodeUtf8(s: string)
    ensures DecodeUtf8(EncodeUtf8(s)) == s
  {
    if s != [] {
      var e := EncodeChar(s[0]);
      var rest := EncodeUtf8(s[1..]);
      DecodeOneOfEncoded(s[0], rest);
      assert (e + rest)[|e|..] == rest;
      DecodeEncodeUtf8(s[1..]);
    }
  }

  /** The bytes `quote` never escapes: ASCII letters, digits and `_.-~`. */
  predicate IsUnreserved(b: int) {
    || ('A' as int <= b <= 'Z' as int)
    || ('a' as int <= b <= 'z' as int)
    || ('0' as int <= b <= '9' as int)
    || b == '_' as int || b == '.' as int || b == '-' as int || b == '~' as int
  }

  /** The upper-case hexadecimal digit for `d`, as `%{:02X}` writes it. */
  function HexDigit(d: nat): (c: char)
    requires d < 16
    ensures IsUnreserved(c as int)
  {
    if d < 10 then ('0' as int + d) as char else ('A' as int + d - 10) as char
  }

  predicate IsHexDigit(c: char) {
    ('0' <= c <= '9') || ('A' <= c <= 'F') || ('a' <= c <= 'f')
  }

  function HexValue(c: char): (v: nat)
    requires IsHexDigit(c)
    ensures v < 16
  {
    if '0' <= c <= '9' then c as int - '0' as int
    else if 'A' <= c <= 'F' then c as int - 'A' as int + 10
    else c as int - 'a' as int + 10
  }

  /** The characters a `quote_plus` result is made of. */
  predicate IsQuotedChar(c: char) {
    IsUnreserved(c as int) || c == '+' || c == '%'
  }

  /** One byte as `quote_plus` writes it: unreserved bytes as themselves, a space as
      `+`, any other byte as `%` and two upper-case hexadecimal digits. */
  function QuoteByte(b: Byte): (r: string)
    ensures forall i :: 0 <= i < |r| ==> IsQuotedChar(r[i])
  {
    if IsUnreserved(b) then [b as char]
    else if b == 32 then "+"
    else ['%', HexDigit(b / 16), HexDigit(b % 16)]
  }

  function QuoteBytes(bs: seq<Byte>): (r: string)
    ensures forall i :: 0 <= i < |r| ==> IsQuotedChar(r[i])
  {
    if bs == [] then [] else QuoteByte(bs[0]) + QuoteBytes(bs[1..])
  }

  /** `quote_plus(s)`, as `urlencode` applies it to each key and value. The result
      is ASCII and holds neither `&` nor `=` nor `?`, so it cannot disturb the query
      it is placed in. */
  function QuotePlus(s: string): (r: string)
    ensures forall i :: 0 <= i < |r| ==> IsQuotedChar(r[i])
    ensures IsAscii(r) && '&' !in r && '=' !in r && '?' !in r
  {
    QuoteBytes(EncodeUtf8(s))
  }

  /** The `+` to space step of form decoding. */
  function PlusToSpace(s: string): (r: string)
    ensures |r| == |s|
    ensures forall i :: 0 <= i < |s| ==> r[i] == if s[i] == '+' then ' ' else s[i]
  {
    if s == [] then [] else [if s[0] == '+' then ' ' else s[0]] + PlusToSpace(s[1..])
  }

  /** `unquote_to_bytes`: `%` and two hexadecimal digits (either case) become that
      byte, every other character its UTF-8 bytes. */
  function PercentBytes(s: string): seq<Byte>
    decreases |s|
  {
    if s == [] then []
    else if s[0] == '%' && |s| >= 3 && IsHexDigit(s[1]) && IsHexDigit(s[2]) then
      [HexValue(s[1]) * 16 + HexValue(s[2])] + PercentBytes(s[3..])
    else EncodeChar(s[0]) + PercentBytes(s[1..])
  }

  /** `unquote_plus(s)`, decoding the bytes as UTF-8 with replacement. */
  function UnquotePlus(s: string): string {
    DecodeUtf8(PercentBytes(PlusToSpace(s)))
  }

  lemma {:induction false} PlusToSpaceAppend(a: string, b: string)
    ensures PlusToSpace(a + b) == PlusToSpace(a) + PlusToSpace(b)
  {
    if a != [] {
      assert (a + b)[1..] == a[1..] + b;
      PlusToSpaceAppend(a[1..], b);
    } else {
      assert a + b == b;
    }
  }

  lemma HexDigitValue(d: nat)
    requires d < 16
    ensures IsHexDigit(HexDigit(d)) && HexValue(HexDigit(d)) == d
  {
  }

  lemma PercentOfQuotedByte(b: Byte, rest: string)
    ensures PercentBytes(PlusToSpace(QuoteByte(b)) + rest) == [b] + PercentBytes(rest)
  {
    if IsUnreserved(b) {
      PercentOfOneChar(b as char, rest);
    } else if b == 32 {
      PercentOfOneChar(' ', rest);
    } else {
      PercentOfEscape(b, rest);
    }
  }

  lemma PercentOfOneChar(c: char, rest: string)
    requires c != '%' && c != '+' && c as int < 128
    ensures PercentBytes([c] + rest) == [c as int] + PercentBytes(rest)
  {
    assert ([c] + rest)[1..] == rest;
  }

  lemma PercentOfEscape(b: Byte, rest: string)
    requires !IsUnreserved(b) && b != 32
    ensures PercentBytes(PlusToSpace(QuoteByte(b)) + rest) == [b] + PercentBytes(rest)
  {
    var hi, lo := HexDigit(b / 16), HexDigit(b % 16);
    HexDigitValue(b / 16);
    HexDigitValue(b % 16);
    assert PlusToSpace(QuoteByte(b)) == ['%', hi, lo];
    var s := ['%', hi, lo] + rest;
    assert s[0] == '%' && s[1] == hi && s[2] == lo && s[3..] == rest;
  }

  lemma {:induction false} PercentOfQuoted(bs: seq<Byte>)
    ensures PercentBytes(PlusToSpace(QuoteBytes(bs))) == bs
  {
    if bs != [] {
      var head := QuoteByte(bs[0]);
      var tail := QuoteBytes(bs[1..]);
      PlusToSpaceAppend(head, tail);
      PercentOfQuotedByte(bs[0], PlusToSpace(tail));
      PercentOfQuoted(bs[1..]);
    }
  }

  /** Form decoding undoes `quote_plus`, for every string. */
  lemma UnquoteQuotePlus(s: string)
    ensures UnquotePlus(QuotePlus(s)) == s
  {
    PercentOfQuoted(EncodeUtf8(s));
    DecodeEncodeUtf8(s);
  }

  /** `s.split(sep)`. */
  function SplitOn(s: string, sep: char): (r: seq<string>)
    ensures |r| >= 1
    ensures sep !in s ==> r == [s]
    decreases |s|
  {
    var k := FindChar(s, sep);
    if k == -1 then [s] else [s[..k]] + SplitOn(s[k + 1..], sep)
  }

  lemma SplitOnJoin(a: string, sep: char, b: string)
    requires sep !in a
    ensures SplitOn(a + [sep] + b, sep) == [a] + SplitOn(b, sep)
  {
    var s := a + [sep] + b;
    assert s[|a|] == sep && s[..|a|] == a;
    assert FindChar(s, sep) == |a|;
    assert s[|a| + 1..] == b;
  }

  /** One `key=value` argument. */
  datatype Pair = Pair(key: string, value: string)

  /** One non-empty `&`-separated segment: split at the first `=`, a segment without
      one being a key with an empty value; both halves form-decoded. */
  function ParsePair(seg: string): Pair {
    var k := FindChar(seg, '=');
    if k == -1 then Pair(UnquotePlus(seg), [])
    else Pair(UnquotePlus(seg[..k]), UnquotePlus(seg[k + 1..]))
  }

  /** The query arguments in order; empty segments are skipped. */
  function ParseSegments(segs: seq<string>): seq<Pair> {
    if segs == [] then []
    else if segs[0] == [] then ParseSegments(segs[1..])
    else [ParsePair(segs[0])] + ParseSegments(segs[1..])
  }

  /** The endpoint's argument list for a query string (what `request.args` holds). */
  function ParseQuery(q: string): seq<Pair> {
    ParseSegments(SplitOn(q, '&'))
  }

  /** `request.args.get(key)`: the first value given for `key`. */
  function Lookup(args: seq<Pair>, key: string): (r: Option<string>)
    ensures r.None? <==> forall i :: 0 <= i < |args| ==> args[i].key != key
    ensures r.Some? ==>
      exists i :: 0 <= i < |args| && args[i] == Pair(key, r.value) && (forall j :: 0 <= j < i ==> args[j].key != key)
  {
    if args == [] then None
    else if args[0].key == key then Some(args[0].value)
    else
      var r := Lookup(args[1..], key);
      assert forall i :: 1 <= i < |args| ==> args[i] == args[1..][i - 1];
      if r.Some? then
        var i :| 0 <= i < |args[1..]| && args[1..][i] == Pair(key, r.value) &&
          forall j :: 0 <= j < i ==> args[1..][j].key != key;
        assert args[i + 1] == Pair(key, r.value);
        r
      else r
  }

  /** `k=v` with both halves quoted. */
  function EncodePair(p: Pair): (r: string)
    ensures r != [] && '&' !in r
  {
    QuotePlus(p.key) + "=" + QuotePlus(p.value)
  }

  /** `urlencode(pairs)`: the encoded pairs joined by `&`. */
  function EncodeQuery(pairs: seq<Pair>): string {
    if pairs == [] then []
    else if |pairs| == 1 then EncodePair(pairs[0])
    else EncodePair(pairs[0]) + "&" + EncodeQuery(pairs[1..])
  }

  lemma ParseEncodedPair(p: Pair)
    ensures ParsePair(EncodePair(p)) == p
  {
    var qk, qv := QuotePlus(p.key), QuotePlus(p.value);
    var seg := qk + ['='] + qv;
    assert EncodePair(p) == seg;
    assert seg[|qk|] == '=' && seg[..|qk|] == qk;
    assert FindChar(seg, '=') == |qk|;
    assert seg[|qk| + 1..] == qv;
    UnquoteQuotePlus(p.key);
    UnquoteQuotePlus(p.value);
  }

  lemma ParseSingleQuery(p: Pair)
    ensures ParseQuery(EncodeQuery([p])) == [p]
  {
    var seg := EncodePair(p);
    ParseEncodedPair(p);
    var segs := SplitOn(seg, '&');
    assert segs == [seg];
    assert ParseSegments(segs) == [ParsePair(seg)] + ParseSegments([]);
  }

  lemma ParseSegmentsCons(seg: string, rest: seq<string>)
    requires seg != []
    ensures ParseSegments([seg] + rest) == [ParsePair(seg)] + ParseSegments(rest)
  {
    assert ([seg] + rest)[0] == seg && ([seg] + rest)[1..] == rest;
  }

  /** The first encoded pair of a longer list is parsed on its own, the rest as
      the query that follows the first `&`. */
  lemma ParseQueryCons(pairs: seq<Pair>)
    requires |pairs| >= 2
    ensures ParseQuery(EncodeQuery(pairs)) ==
      [ParsePair(EncodePair(pairs[0]))] + ParseQuery(EncodeQuery(pairs[1..]))
  {
    var head := EncodePair(pairs[0]);
    var tail := EncodeQuery(pairs[1..]);
    assert EncodeQuery(pairs) == head + ['&'] + tail;
    SplitOnJoin(head, '&', tail);
    ParseSegmentsCons(head, SplitOn(tail, '&'));
  }

  lemma ParseConsQuery(pairs: seq<Pair>)
    requires |pairs| >= 2
    requires ParseQuery(EncodeQuery(pairs[1..])) == pairs[1..]
    ensures ParseQuery(EncodeQuery(pairs)) == pairs
  {
    ParseQueryCons(pairs);
    ParseEncodedPair(pairs[0]);
    assert [pairs[0]] + pairs[1..] == pairs;
  }

  /** Parsing undoes `urlencode`: every argument list survives the trip through a
      query string, keys, values and order. */
  lemma {:induction false} ParseEncodeQuery(pairs: seq<Pair>)
    ensures ParseQuery(EncodeQuery(pairs)) == pairs
  {
    if pairs == [] {
      assert SplitOn([], '&') == [[]];
    } else if |pairs| == 1 {
      assert pairs == [pairs[0]];
      ParseSingleQuery(pairs[0]);
    } else {
      ParseEncodeQuery(pairs[1..]);
      ParseConsQuery(pairs);
    }
  }

  /** The query component of a link: everything after its first `?` (section 3.4 of
      RFC 3986), empty when there is none. */
  function QueryOf(url: string): string {
    if '?' in url then AfterFirst(url, '?') else []
  }
}

=== FILE: wrappers.dfy ===
/** Optional values, standing in for Python's `None`. */
module Wrappers {

  datatype Option<+T> = None | Some(value: T) {

    /** The wrapped value, or `default` when there is none (Python's `x or default`
        when `x` may be `None`). */
    function GetOr(default: T): T {
      match this
      case Some(v) => v
      case None => default
    }
  }
}
